=== FILE: README.md ===
# diner-design: the sync layer and the page rules, in Dafny

This project models the client-side core of the diner-design restaurant demo. It
covers the shared data the tabs of one browser exchange and the rules the kitchen,
floor, customer and admin screens apply to that data. Each source file is one
Dafny module, and every operation is a pure function on immutable data.

- **Realtime service** (`Realtime`, `src/services/realTimeService.ts`).
  - The orders and calls lists live in two storage slots.
  - A slot is missing, blank, unparsable or a JSON list.
  - The registry of event listeners is explicit state.
  - Every `emit` returns its trace of deliveries, in registration order.
  - Adding or updating a record writes the list back.
  - It then emits the list twice: once directly, once through the synthetic storage event.
- **Mock back end** (`MockApi`, `src/lib/mockApi.ts`).
  - An in-memory database of users, tables, products, orders and calls.
  - It also covers login by password, by table PIN and by QR token, and the create/update operations.
  - Each operation returns:
    - the new database;
    - how its promise settles (`Success` or the error text);
    - the list of messages it posted on the `orders`, `calls` and `tables` broadcast channels.
  - The seed data is included.
- **Realtime store** (`RealtimeStore`, `src/store/realTimeStore.ts`).
  - The per-tab store that consumes those broadcasts.
  - It replaces records by id and never inserts.
  - It decides when the notification sound plays.
- **Authentication.**
  - The mock JWT and password hashing (`AuthUtils`, `src/lib/utils.ts`).
  - The session store with its persisted part (`AuthStore`).
  - The route guards (`AuthGuard`).
- **Kitchen.**
  - The ticket mocks (`MockOrders`).
  - The display page (`Kds`) and its ticket card (`KdsTicketView`).
  - The order card (`OrderTicketView`).
- **Floor.**
  - The table, call and staff mocks (`MockTables`).
  - The staff console (`StaffConsole`) and the table tile (`TableTileView`).
- **Customer.**
  - The order-status page (`ClientOrderStatus`).
  - The menu with a merge-by-id cart (`ClientCart`) and checkout (`ClientCheckout`).
  - The QR table menu with an append-only cart (`TableMenu`).
  - The menu mocks (`MockMenu`) and the call-the-waiter dialog (`CallWaiterModal`).
- **Admin.**
  - The product editor (`ProductForm`) and the product list (`ProductCatalog`).
  - The QR code page (`QrGenerator`).
  - The analytics helpers (`Dashboard`).

Shared helper modules:

- `Wrappers` holds `Option` and `Result`.
- `Text` covers decimal printing and parsing, JavaScript `parseInt`, trimming, splitting and lower-casing.
- `Seqs` covers filtering, replacing by key, stable insertion by key and sums.
- `Codec` is an injective framed encoding that stands in for `JSON.stringify` + `btoa`.
- `Elapsed` holds the three elapsed-time text formats the pages use, with parsers that read them back.
- `JsObject` names the members every object literal inherits from `Object.prototype`, and what `table[key] || fallback` then evaluates to.

Abstractions used throughout:

- Clock readings (`Date.now()`, `new Date()`), `Math.random()` draws and `window.location.origin` are parameters. One operation gets one clock reading, even where the source reads the clock more than once (see Left out).
- Toasts are returned as (title, description) pairs, or as the title alone where only the title is modelled. Navigation targets are returned values. A toast's `variant` (its colour) is not modelled.
- Money, rates and intensities are `real`.
- Times are integer milliseconds.
- The view helpers that switch on a status with a `default` branch take the raw text tag, so the fallback is part of the model. The three helpers that look the tag up in an object literal with `|| fallback` also return the inherited member for a tag such as `constructor` or `toString`, which skips the fallback.

## Model

| member | source | states |
|---|---|---|
| Text.NatToString | src/lib/mockApi.ts:365 | the decimal text of a number: digits only, no leading zero, one digit exactly below ten |
| Text.DigitsValueOfNatToString | src/lib/mockApi.ts:365 | the decimal text of a number reads back as that number |
| Text.NatToStringInjective | src/pages/ClientMenu.tsx:93 | distinct numbers have distinct decimal texts |
| Text.ParseDecimalOfIntToString | src/mocks/tables.ts:463-470 | the text of every integer, negative ones included, reads back as it |
| Text.PadStart | src/mocks/tables.ts:469 | `padStart` fills on the left up to the width and keeps the text at the end |
| Text.PadTwoDigits | src/mocks/tables.ts:469 | padding a number below 100 to two digits keeps its value |
| Text.Trim | src/components/modals/CallWaiterModal.tsx:78 | `trim()` gives the middle slice of the text between a leading and a trailing run of whitespace; it starts and ends with no whitespace, and leaves nothing exactly for all-whitespace text |
| Text.TrimOfTrimmed | src/pages/ProductForm.tsx:58 | trimming text without surrounding whitespace changes nothing |
| Text.ToLower | src/pages/ProductCatalog.tsx:19-20 | `toLowerCase` lowers each ASCII, Latin-1, basic Greek and basic Cyrillic capital on its own and keeps every other character. Σ always becomes σ, where JavaScript writes ς at the end of a word, and other scripts are kept (see Left out) |
| Text.ToLowerIdempotent | src/pages/ProductCatalog.tsx:19-20 | lowering twice is lowering once, and lowered text holds none of those capitals |
| Text.ToLowerOfLower | src/pages/ProductCatalog.tsx:19-20 | text without those capitals is its own lower case |
| Text.ContainsEmpty | src/pages/ProductCatalog.tsx:19-20 | every text includes the empty search text |
| Text.SplitOn | src/pages/ClientMenu.tsx:63 | `split` on one character gives at least one piece and no piece holds the separator |
| Text.JoinSplitOn | src/pages/ClientMenu.tsx:63 | joining the pieces of a `split` with the separator gives back the text |
| Text.SplitOnJoin | src/pages/ClientMenu.tsx:63 | splitting a join of one or more separator-free pieces gives back those pieces |
| Text.SplitOnNoSeparator | src/pages/ClientMenu.tsx:63 | text without the separator splits into itself alone |
| Text.SplitOnFirstPiece | src/pages/ClientMenu.tsx:63 | the text before the first separator is the first piece |
| Text.ParseIntJsOfNatToString | src/pages/ClientMenu.tsx:63 | `parseInt` reads back the decimal text of every non-negative number |
| Text.ParseIntJsNoMinus | src/pages/ClientMenu.tsx:63 | text without a minus sign never parses to a negative number |
| Codec.DecodeEncode | src/lib/utils.ts:29 | decoding an encoding gives back exactly the encoded fields, the property `JSON.parse(atob(btoa(JSON.stringify(x))))` has for the token payload |
| Codec.EncodeInjective | src/lib/utils.ts:15 | distinct field lists have distinct encodings, as `btoa` of distinct texts differ |
| Codec.DecodeEncodeOptional | src/lib/utils.ts:24-29 | an optional text field, absent when `undefined`, reads back as written |
| Codec.DecodeEncodeOptionalInt | src/lib/utils.ts:24-29 | an optional number field reads back as written |
| AuthUtils.HashPassword | src/lib/utils.ts:13-16 | `btoa` throws `InvalidCharacterError` exactly when the password has a character above U+00FF; otherwise the hash starts with `hashed_` |
| AuthUtils.VerifyPassword | src/lib/utils.ts:18-20 | throws exactly when hashing the password throws; otherwise true exactly when the stored hash is the password's hash |
| AuthUtils.PasswordCheck | src/lib/utils.ts:18-20 | a password verifies against its own hash and against no other password's hash |
| AuthUtils.DecodeEncodePayload | src/lib/utils.ts:29 | the token body decodes back to the payload that was encoded |
| AuthUtils.Stamp | src/lib/utils.ts:24-28 | the payload keeps its fields, `iat` is the issue time, and `exp` is kept unless absent or 0, when it becomes eight hours after issue |
| AuthUtils.GenerateJwt | src/lib/utils.ts:22-30 | the token starts with `mock_jwt_` |
| AuthUtils.VerifyJwt | src/lib/utils.ts:32-48 | every failure is the one `Invalid token` error; a token without the prefix fails; a verified payload has not expired |
| AuthUtils.VerifyGenerated | src/lib/utils.ts:22-48 | a generated token verifies to its stamped payload until its expiry and is rejected after it |
| AuthUtils.DefaultExpiry | src/lib/utils.ts:26 | a payload without `exp` verifies exactly up to eight hours after issue |
| AuthUtils.TimeElapsed | src/lib/utils.ts:64-76 | `getTimeElapsed` prints the whole minutes elapsed in a form that reads back as that number; from one hour on it is `<h>h <m>min` with the minutes not zero-padded, one character shorter than the padded form when they are below ten |
| Elapsed.ElapsedMinutes | src/lib/utils.ts:66-67 | the floor of the elapsed milliseconds over 60 000 |
| Elapsed.JsRem | src/lib/utils.ts:74 | the JavaScript remainder: the usual remainder for non-negative dividends, non-positive and above `-b` for negative ones |
| Elapsed.PlainRoundTrip | src/lib/utils.ts:69-75 | the unpadded `<m>min` / `<h>h <m>min` text reads back as its minutes, negative minutes included |
| Elapsed.PlainOneDigitMinutes | src/lib/utils.ts:73-75 | from one hour on, fewer than ten remaining minutes take one digit in the plain form and two in the padded form |
| Elapsed.PlainOfSixtyFive | src/lib/utils.ts:73-75 | 65 minutes reads `1h 5min` in the plain form and `1h 05min` in the padded one |
| Elapsed.TwoDigits | src/design/components/molecules/KDSTicket.tsx:20 | `padStart(2, '0')` of minutes within an hour is two digits that read back as those minutes |
| Elapsed.CompactFromOneHour | src/design/components/molecules/KDSTicket.tsx:15-22 | from one hour on, the compact form is `<hours>h <two-digit minutes>m` |
| Elapsed.PaddedFromOneHour | src/mocks/tables.ts:463-470 | from one hour on, the padded form is `<hours>h <two-digit minutes>min` |
| Elapsed.ParseNumberOnly | src/mocks/tables.ts:464-466 | below one hour the text `<minutes>min` reads back as the minutes |
| Elapsed.HoursAndMinutesRoundTrip | src/mocks/tables.ts:467-469 | the hour-and-minute text reads back as the total minutes |
| Elapsed.CompactRoundTrip | src/mocks/orders.ts:285-293 | the compact `formatElapsedTime` text reads back as the minutes for every non-negative count, so distinct ages show distinct texts |
| Elapsed.PaddedRoundTrip | src/design/components/molecules/TableTile.tsx:75-87 | the padded text reads back as the minutes for every count, negative ones included |
| Elapsed.TwoDigitMinutesFromOneHour | src/components/molecules/OrderTicket.tsx:22-27 | from one hour on, the minutes after the `h` are exactly two digits |
| Elapsed.CompactOfNegative | src/design/components/molecules/KDSTicket.tsx:16-21 | a negative age (a timestamp in the future) drops the hours: -65 minutes shows as `-5m` |
| Realtime.GetOrders | src/services/realTimeService.ts:87-98 | the stored order list when the slot holds JSON, the empty list when the key is missing, empty or unparsable |
| Realtime.GetCalls | src/services/realTimeService.ts:145-155 | the stored call list when the slot holds JSON, the empty list otherwise |
| Realtime.InitSlot | src/services/realTimeService.ts:43-50 | a missing or empty-text slot becomes `[]`; a present slot, even an unparsable one, is left alone |
| Realtime.InitializeStorageIdempotent | src/services/realTimeService.ts:43-50 | initialising twice equals initialising once, present slots are untouched, and both reads are unchanged by it |
| Realtime.Create | src/services/realTimeService.ts:28-41 | the singleton starts with initialised storage and no listeners |
| Realtime.On | src/services/realTimeService.ts:62-67 | the handler is appended to that event's list only; other events keep their lists |
| Realtime.Off | src/services/realTimeService.ts:69-77 | the first registration of the handler leaves that event's list and the others keep their order (nothing changes when it was absent); other events untouched |
| Realtime.Emit | src/services/realTimeService.ts:79-84 | one delivery per registered handler, in registration order, each with the event and the data |
| Realtime.EmitDeliversPerRegistration | src/services/realTimeService.ts:79-84 | a handler receives as many deliveries as it has registrations, and only handlers of that event receive anything |
| Realtime.OnTwiceFiresTwice | src/services/realTimeService.ts:62-67 | registering a handler twice makes one emit reach it two more times than before |
| Realtime.OffRemovesOneRegistration | src/services/realTimeService.ts:69-77 | after `off`, a registered handler receives exactly one delivery fewer per emit |
| Realtime.HandleStorageChange | src/services/realTimeService.ts:52-59 | a change under the orders key re-emits the stored orders, under the calls key the stored calls, and any other key emits nothing |
| Realtime.AddOrder | src/services/realTimeService.ts:100-122 | the new order has an `order-` id, the draft's fields and both stamps at `now`; it is appended to the stored list; calls and listeners are untouched |
| Realtime.AddOrderAppends | src/services/realTimeService.ts:108-110 | every earlier order stays at its position and the new one comes last |
| Realtime.AddOrderDeliversTwice | src/services/realTimeService.ts:112-119 | each registration for `orders_updated` receives the new list twice: the direct emit and the synthetic storage event |
| Realtime.AddCall | src/services/realTimeService.ts:157-178 | the new call has a `call-` id, the draft's fields and `createdAt = now`; it is appended; orders and listeners are untouched |
| Realtime.AddCallDeliversTwice | src/services/realTimeService.ts:168-175 | each registration for `calls_updated` receives the new list twice |
| Realtime.AddCallAcceptsDuplicates | src/services/realTimeService.ts:157-166 | a second pending call from a table that already has one is stored too: nothing checks for duplicates |
| Realtime.UpdateOrderStatusUnknown | src/services/realTimeService.ts:124-142 | an id not in the list changes nothing and notifies nobody |
| Realtime.UpdateOrderStatus | src/services/realTimeService.ts:124-142 | listeners and calls never change and the order list keeps its length; an unknown id changes nothing and emits nothing; a known id emits the stored list twice to the `orders_updated` listeners |
| Realtime.UpdateOrderStatusKnown | src/services/realTimeService.ts:124-142 | with a known id, only the first order with that id changes, in status and `updatedAt`; the list keeps its length and every other entry; listeners stay and the new list is emitted twice |
| Realtime.UpdateCallStatusUnknown | src/services/realTimeService.ts:180-197 | an id not in the list changes nothing and notifies nobody |
| Realtime.UpdateCallStatus | src/services/realTimeService.ts:180-197 | listeners and orders never change and the call list keeps its length; an unknown id changes nothing and emits nothing; a known id emits the stored list twice to the `calls_updated` listeners |
| Realtime.UpdateCallStatusKnown | src/services/realTimeService.ts:180-197 | with a known id, only the first call with that id changes, and only in status; listeners stay and the new list is emitted twice |
| Realtime.ClearAll | src/services/realTimeService.ts:200-206 | both lists become `[]` and are announced with `[]`, with no storage event |
| Realtime.OrderIdPieces | src/services/realTimeService.ts:103 | an order id splits on `-` into `order`, the time and the random part, when the random part has no dash |
| Realtime.OrderIdsDifferAcrossTimes | src/services/realTimeService.ts:103 | ids made at different times differ whatever the random parts (when those have no dash) |
| RealtimeStore.SetOrders | src/store/realTimeStore.ts:56 | the order list is replaced and nothing else in the store changes |
| RealtimeStore.SetCalls | src/store/realTimeStore.ts:57 | the call list is replaced and nothing else in the store changes |
| RealtimeStore.SetTables | src/store/realTimeStore.ts:58 | the table list is replaced and nothing else in the store changes |
| RealtimeStore.ReplaceOrder | src/store/realTimeStore.ts:60-64 | same length; each position holds the incoming order when the ids match, else the old one |
| RealtimeStore.ReplaceCall | src/store/realTimeStore.ts:70-72 | same length; each position holds the incoming call when the ids match, else the old one |
| RealtimeStore.ReplaceTable | src/store/realTimeStore.ts:80-84 | same length; each position holds the incoming table when the ids match, else the old one |
| RealtimeStore.UpdateOrder | src/store/realTimeStore.ts:60-64 | the incoming order takes the place of every order with its id, the list keeps its length, and calls, tables and the sound flag stay |
| RealtimeStore.UpdateTable | src/store/realTimeStore.ts:80-84 | the incoming table takes the place of every table with its id, the list keeps its length, and orders, calls and the sound flag stay |
| RealtimeStore.ReplaceOrderNeverInserts | src/store/realTimeStore.ts:60-64 | an update never inserts: every record after it is old or the incoming one, an unknown id leaves the list as it was, and the incoming order appears exactly when its id was known |
| RealtimeStore.ReplaceCallNeverInserts | src/store/realTimeStore.ts:70-72 | the same three facts for calls |
| RealtimeStore.ReplaceTableNeverInserts | src/store/realTimeStore.ts:80-84 | the same three facts for tables |
| RealtimeStore.ReplaceOrderIdempotent | src/store/realTimeStore.ts:60-64 | replaying a broadcast changes nothing more |
| RealtimeStore.ReplaceOrderLastWins | src/store/realTimeStore.ts:60-64 | of two updates for one id, the later wins |
| RealtimeStore.UpdateCall | src/store/realTimeStore.ts:66-78 | the call list is replaced by id, and the sound plays exactly when the id was not listed, the call is open and sound is on |
| RealtimeStore.KnownCallIsSilent | src/store/realTimeStore.ts:66-78 | a call whose id is already listed never rings, and the list then holds it |
| RealtimeStore.NewCallRingsButIsNotAdded | src/store/realTimeStore.ts:66-78 | a brand-new open call rings with sound on but leaves the store as it was |
| RealtimeStore.ToggleSound | src/store/realTimeStore.ts:86-88 | the sound flag flips and the three lists stay |
| RealtimeStore.ToggleSoundTwice | src/store/realTimeStore.ts:86-88 | toggling twice restores the store |
| RealtimeStore.Receive | src/store/realTimeStore.ts:120-143 | a message reaches an updater only on its own channel with its own type tag; anything else changes nothing and does not ring |
| RealtimeStore.BroadcastsAreRouted | src/store/realTimeStore.ts:127-143 | each broadcast the mock back end posts is routed to the updater of its kind |
| RealtimeStore.ReceiveTouchesOwnList | src/store/realTimeStore.ts:127-143 | a message changes only the list of its own record kind and never the sound flag |
| RealtimeStore.OrderUpdateReachesKnownOrder | src/store/realTimeStore.ts:127-131 | an update for an order the tab holds shows the new version, with the same number of orders |
| RealtimeStore.ReceiveAll | src/store/realTimeStore.ts:120-143 | any sequence of messages keeps the length of all three lists and the sound flag; a message rings only if it is a routed open call and sound is on |
| RealtimeStore.ReceiveAllAppend | src/store/realTimeStore.ts:120-143 | delivering `a` and then `b` is delivering `a + b`: the state carries over and the ring flags concatenate |
| RealtimeStore.ReceiveAllFlags | src/store/realTimeStore.ts:120-143 | message `i` rings exactly when `Receive` rings for it in the state the earlier messages left |
| MockApi.Login | src/lib/mockApi.ts:105-117 | an unknown email fails with `Credenciais inválidas`; a known email with a password `btoa` refuses fails with its `InvalidCharacterError`, and that error occurs only then; any other failure is `Credenciais inválidas`; success means the first user with that email has a matching hash and is returned without the password, with a staff token |
| MockApi.LoginAt | src/lib/mockApi.ts:105-117 | when user `i` is the first with the email, login succeeds exactly when user `i`'s hash matches the password |
| MockApi.WithoutPassword | src/lib/mockApi.ts:114 | every field but the password is carried over |
| MockApi.LoginTable | src/lib/mockApi.ts:119-129 | succeeds exactly when some table has both the number and the pin, returning such a table and a client token for it; otherwise `Mesa ou PIN inválido` |
| MockApi.LoginWithQR | src/lib/mockApi.ts:131-146 | success needs a verifying token whose table id names a listed table; every failure, a bad token included, reads `Token de mesa inválido ou expirado` |
| MockApi.QrLoginFindsTable | src/lib/mockApi.ts:131-146 | a verifying token naming the id of table `i`, shared by no other table, logs into table `i` |
| MockApi.MergeProductLaws | src/lib/mockApi.ts:166 | an empty patch changes nothing, applying a patch twice equals once, and fields the patch omits keep their values |
| MockApi.CreateProduct | src/lib/mockApi.ts:154-159 | the product gets the fresh id and is appended; nothing is broadcast |
| MockApi.CreateThenDeleteRestores | src/lib/mockApi.ts:154-175 | creating a product under an id no product has and then deleting that id succeeds and gives back the original database |
| MockApi.UpdateProduct | src/lib/mockApi.ts:161-168 | an unknown id fails with `Produto não encontrado` and changes nothing; otherwise only the first product with the id is replaced by the merge |
| MockApi.DeleteProduct | src/lib/mockApi.ts:170-175 | an unknown id fails and changes nothing; otherwise only the first product with the id is removed, the rest keep their order |
| MockApi.UpdateTable | src/lib/mockApi.ts:183-191 | an unknown id fails with `Mesa não encontrada`, with no broadcast; otherwise the first match is merged and the merged table is broadcast on `tables` |
| MockApi.CreateOrder | src/lib/mockApi.ts:199-211 | the order gets the fresh id and both stamps at `now`, keeps the draft's fields, is appended and is broadcast once |
| MockApi.UpdateOrder | src/lib/mockApi.ts:213-221 | an unknown id fails with `Pedido não encontrado`; otherwise the first match is merged, its `updatedAt` is `now` whatever the patch says, and it is broadcast |
| MockApi.CreateCall | src/lib/mockApi.ts:229-247 | refused with `Já existe uma chamada aberta para esta mesa` exactly when the table has an open call, changing nothing; otherwise appended and broadcast |
| MockApi.OnlyOpenCallsBlock | src/lib/mockApi.ts:232-236 | accepted or closed calls do not block a table: the new call is added |
| MockApi.StampedCall | src/lib/mockApi.ts:254-260 | `acceptedAt` and `closedAt` are set to `now` only when the patch sets that status and no stamp was there; every other field is the merge |
| MockApi.UpdateCall | src/lib/mockApi.ts:249-265 | an unknown id fails with `Chamada não encontrada`; otherwise the first match is stamped and broadcast |
| MockApi.StampsAreSetOnce | src/lib/mockApi.ts:255-260 | accepting or closing twice keeps the first time; the first acceptance or closing records its time; accepting leaves `closedAt` alone |
| MockApi.GetUsers | src/lib/mockApi.ts:268-271 | every user in order, each without the password |
| MockApi.CreateUser | src/lib/mockApi.ts:273-285 | fails with `InvalidCharacterError` exactly when `btoa` refuses the password, changing nothing; otherwise one user is appended with the draft's fields, the generated id, `createdAt = now` and a hash that verifies the password, it is returned without the password, and nothing else changes or is broadcast |
| MockApi.CreatedUserCanLogIn | src/lib/mockApi.ts:273-285 | a created user with a new email can log in with the clear password and gets back the user that creation returned |
| MockApi.SeedUsers | src/lib/mockApi.ts:331-358 | three users with distinct emails |
| MockApi.SeedTables | src/lib/mockApi.ts:360-371 | twelve tables numbered 1 to 12 whose pins are their numbers as four digits, capacities 2, 4 and 6 by range, and table 7 occupied with pin `0007` |
| MockApi.SeedPin | src/lib/mockApi.ts:365 | `String(n).padStart(4, '0')` is four digits reading back as `n`, and is `0007` for 7 |
| MockApi.SeedTokensLogIn | src/lib/mockApi.ts:364 | every seeded table token logs into its own table for one day after seeding |
| MockApi.SeedIdsDistinct | src/lib/mockApi.ts:362 | `table_<i>` ids of different tables differ |
| MockApi.SeedProductsOnSale | src/lib/mockApi.ts:374-435 | five products, each with a positive price and available |
| MockApi.SeedOrders | src/lib/mockApi.ts:438-463 | two orders, each updated after it was created and not later than now |
| MockApi.SeedOrderTotals | src/lib/mockApi.ts:438-463 | order 2's total is its items at catalogue prices; order 1's total is ten cents above its catalogue value of 83.60 |
| MockApi.Seed | src/lib/mockApi.ts:329-464 | 3 users, 12 tables, 5 products, 2 orders and no calls |
| MockApi.SeedLogins | src/lib/mockApi.ts:331-358 | the admin and kitchen accounts log in with their documented passwords, roles and scopes; a wrong password is refused |
| MockApi.SeedUserLogins | src/lib/mockApi.ts:331-358 | over the seeded users, a wrong password gets `Credenciais inválidas` and a password with a character above U+00FF gets `InvalidCharacterError` |
| AuthStore.Login | src/store/authStore.ts:50-65 | the session is a user session exactly when the mock login succeeds, carrying its token and user with no table; on failure only `loading` is cleared and the error is rethrown |
| AuthStore.LoginTable | src/store/authStore.ts:67-82 | a table session starts exactly when some table has that number and PIN, and it is for that table; otherwise the PIN error is rethrown and only `loading` is cleared |
| AuthStore.LoginWithQR | src/store/authStore.ts:84-99 | a token that does not verify never starts a session; a started session is an authenticated table session, without a user, for a table of the database it logged into; every failure rethrows `Token de mesa inválido ou expirado` with only `loading` cleared |
| AuthStore.TableSession | src/store/authStore.ts:70-81 | a table result becomes an authenticated session without a user; a failure is rethrown with only `loading` cleared |
| AuthStore.Logout | src/store/authStore.ts:101-109 | nothing of the session is left and no flag is set |
| AuthStore.CheckAuth | src/store/authStore.ts:111-129 | the session counts as authenticated exactly when there is a non-empty token that verifies; a token that does not verify clears token, user and table but keeps `loading` |
| AuthStore.Partialize | src/store/authStore.ts:133-137 | `persist` writes the token, the user and the table and nothing else: neither `isAuthenticated` nor `loading` survives a reload (partner: ReloadThenCheck) |
| AuthStore.Rehydrate | src/store/authStore.ts:131-138 | a reload restores exactly the persisted token, user and table, with both flags down |
| AuthStore.ReloadThenCheck | src/store/authStore.ts:111-138 | after a reload, `checkAuth` restores the session exactly when the stored token is non-empty and still verifies; persisting a reloaded session writes the same thing again |
| AuthStore.LoginSessionLasts | src/store/authStore.ts:50-65 | a session from a successful login passes `checkAuth` for the eight hours its token lives |
| AuthGuard.LoginPageFor | src/components/guards/AuthGuard.tsx:31-46 | a visitor without a session is sent to the login page of the area the path starts with, and to `/` outside the four areas |
| AuthGuard.EffectiveRole | src/components/guards/AuthGuard.tsx:51 | the user's role, else `client` for a table session, else none |
| AuthGuard.Decide | src/components/guards/AuthGuard.tsx:12-65 | without a session the guard redirects to its target or the area's login page; with one it renders exactly when the role is allowed (or no roles are listed) and a staff user's scope is allowed (or no scopes are listed), and otherwise sends to `/` |
| AuthGuard.KdsGuardAdmits | src/components/guards/AuthGuard.tsx:84-90 | the kitchen display renders exactly for authenticated staff users with the kitchen scope |
| AuthGuard.TableSessionIsClient | src/components/guards/AuthGuard.tsx:68-98 | a table session passes the client guard and is sent to `/` by the admin, staff and kitchen guards |
| AuthGuard.OpenGuardAdmitsSessions | src/components/guards/AuthGuard.tsx:50-64 | a guard listing no roles and no scopes renders for every authenticated session |
| MockOrders.SeedOrdersConsistent | src/mocks/orders.ts:60-171 | every seeded order's total is its subtotal plus a service charge of one tenth of it, and every line total is quantity times unit price |
| MockOrders.SeedSubtotals | src/mocks/orders.ts:60-171 | each seeded subtotal is the sum of its lines, with the extras of order-002 priced in |
| MockOrders.SeedTicketsOverdueRule | src/mocks/orders.ts:173-267 | a seeded ticket is flagged overdue exactly when its elapsed minutes exceed its estimate |
| MockOrders.TicketsByStation | src/mocks/orders.ts:269-271 | exactly the tickets of that station |
| MockOrders.TicketsByStatus | src/mocks/orders.ts:273-275 | exactly the tickets with that status |
| MockOrders.OverdueTickets | src/mocks/orders.ts:277-279 | exactly the tickets flagged overdue |
| MockOrders.TicketFiltersKeepOrder | src/mocks/orders.ts:269-279 | the three filters keep the list order: filtering a concatenation filters each part |
| MockOrders.UnknownStatusSelectsNothing | src/mocks/orders.ts:273-275 | a status tag that no ticket can have selects nothing |
| MockOrders.CalculateElapsedTime | src/mocks/orders.ts:281-283 | the whole minutes between creation and now, rounded down |
| MockOrders.FormatElapsedTime | src/mocks/orders.ts:285-293 | the text reads back as the minutes it shows, for every non-negative count |
| Kds.FilterTickets | src/pages/KDS.tsx:34-36 | `all` shows every ticket in order; a station shows exactly that station's tickets |
| Kds.FilterTicketsKeepsOrder | src/pages/KDS.tsx:34-36 | the station filter keeps the ticket order: filtering a concatenation filters each part |
| Kds.Column | src/pages/KDS.tsx:38-40 | a column holds exactly the shown tickets with its status |
| Kds.ColumnKeepsOrder | src/pages/KDS.tsx:38-40 | a column keeps the order of the shown tickets |
| Kds.ColumnsPartition | src/pages/KDS.tsx:38-40 | the three column counts add up to the number of shown tickets |
| Kds.OverdueCount | src/pages/KDS.tsx:42 | the number of shown tickets flagged overdue, never more than are shown |
| Kds.ColumnConfig | src/pages/KDS.tsx:65-96 | each status tag's header title and the size of its column; any other tag gets `Desconhecido` and 0 |
| Kds.Moved | src/pages/KDS.tsx:47-52 | the ticket takes the new status; `startedAt` is set only on a move to preparing when unset; `completedAt` is set on every move to ready; nothing else changes |
| Kds.HandleStatusChange | src/pages/KDS.tsx:44-55 | the tickets with that id are moved, every other ticket is unchanged, the list keeps its length |
| Kds.StartedAtSetOnce | src/pages/KDS.tsx:50 | the first move to preparing fixes `startedAt`, and a later one leaves it |
| Kds.CompletedAtRestamps | src/pages/KDS.tsx:51 | moving to ready again overwrites `completedAt` |
| Kds.StatusChangeKeepsFilter | src/pages/KDS.tsx:34-55 | a status change keeps the number of tickets the station filter shows |
| KdsTicketView.FormatElapsedTime | src/design/components/molecules/KDSTicket.tsx:15-22 | the text reads back as the minutes it shows for every non-negative count; under an hour it is at most three characters |
| KdsTicketView.StatusColor | src/design/components/molecules/KDSTicket.tsx:25-32 | the colour of each ticket status, `default` for any other tag |
| KdsTicketView.PriorityColor | src/design/components/molecules/KDSTicket.tsx:34-42 | the colour of each priority, `default` for normal and for any other tag |
| KdsTicketView.ColoursOfTickets | src/design/components/molecules/KDSTicket.tsx:25-42 | no ticket status falls to the default colour; only the normal priority does |
| KdsTicketView.OfferedMove | src/design/components/molecules/KDSTicket.tsx:194-222 | the button moves one step forward, and a ready ticket offers none |
| KdsTicketView.OfferedMovesReachReady | src/design/components/molecules/KDSTicket.tsx:194-222 | pressing the offered buttons reaches ready within two presses |
| OrderTicketView.ElapsedSince | src/components/molecules/OrderTicket.tsx:50 | the whole minutes since the order was created, rounded down |
| OrderTicketView.FormatElapsedTime | src/components/molecules/OrderTicket.tsx:20-29 | the card's age text reads back as the whole minutes since creation |
| OrderTicketView.OverdueThreshold | src/components/molecules/OrderTicket.tsx:50-60 | an order is overdue exactly once 31 full minutes have passed, and a delivered order is never styled overdue |
| OrderTicketView.ItemCountLabel | src/components/molecules/OrderTicket.tsx:101 | `item` exactly for one item, `itens` otherwise |
| OrderTicketView.StatusColor | src/components/molecules/OrderTicket.tsx:31-39 | the colour of each order status, `secondary` for delivered and any other tag |
| OrderTicketView.OfferedMove | src/components/molecules/OrderTicket.tsx:142-173 | pending offers preparing, preparing offers ready, and ready or delivered offer nothing |
| MockTables.SeedTablesNumbered | src/mocks/tables.ts:48-317 | the seeded grid holds 25 tables numbered 1 to 25 in order |
| MockTables.SeedCurrentOrders | src/mocks/tables.ts:48-317 | exactly the occupied seeded tables carry a running order |
| MockTables.SeedNumbersDistinct | src/mocks/tables.ts:48-317 | no table number is seeded twice |
| MockTables.GetTableByNumber | src/mocks/tables.ts:429-431 | the first table with that number, and none exactly when no table has it |
| MockTables.SeedLookup | src/mocks/tables.ts:429-431 | on the seeded grid exactly the numbers 1 to 25 are found, each at its own slot |
| MockTables.TablesByStatus | src/mocks/tables.ts:433-435 | exactly the tables with that status |
| MockTables.TablesBySection | src/mocks/tables.ts:437-439 | exactly the tables of that section |
| MockTables.PendingCalls | src/mocks/tables.ts:441-443 | exactly the pending calls |
| MockTables.CallsByPriority | src/mocks/tables.ts:445-447 | exactly the calls with that priority |
| MockTables.OverdueCalls | src/mocks/tables.ts:449-453 | exactly the pending calls that have waited longer than their estimate |
| MockTables.AvailableStaff | src/mocks/tables.ts:455-457 | exactly the available staff |
| MockTables.StaffBySection | src/mocks/tables.ts:459-461 | exactly the staff assigned to that section; staff without a section never match |
| MockTables.FiltersKeepOrder | src/mocks/tables.ts:433-461 | every helper filter keeps the list order: filtering a concatenation filters each part |
| MockTables.SeedCallsNotOverdue | src/mocks/tables.ts:320-377 | no seeded call is overdue: the two calls past their estimate are already attended or resolved |
| MockTables.SeedPendingCalls | src/mocks/tables.ts:320-377 | the seeded pending calls are the first, third and fifth, in that order |
| MockTables.FormatCallElapsedTime | src/mocks/tables.ts:463-470 | the text reads back as the minutes it shows, negative counts included |
| MockTables.TableStatusColor | src/mocks/tables.ts:472-482 | the colour of each table status, `muted` for cleaning and for any other tag except a name inherited from `Object.prototype`, which reads that inherited member instead |
| MockTables.CallPriorityColor | src/mocks/tables.ts:484-492 | the colour of each priority, `primary` for normal and for any other tag except a name inherited from `Object.prototype`, which reads that inherited member instead |
| MockTables.ColoursIdentify | src/mocks/tables.ts:472-492 | distinct table statuses get distinct colours, and so do distinct call priorities |
| StaffConsole.PendingCalls | src/pages/Staff.tsx:56 | exactly the pending calls |
| StaffConsole.UrgentCalls | src/pages/Staff.tsx:57 | exactly the pending calls of urgent priority |
| StaffConsole.UrgentCallsArePending | src/pages/Staff.tsx:56-57 | the urgent list is the pending list narrowed to urgent priority, in the same order, so never longer |
| StaffConsole.ActionStatus | src/pages/Staff.tsx:66 | attend writes attending and resolve writes resolved; neither writes pending |
| StaffConsole.HandleCallAction | src/pages/Staff.tsx:63-68 | an unknown call id changes nothing and notifies no one; a known id changes only the first matching call's status, and the orders are untouched |
| StaffConsole.OfferedAction | src/pages/Staff.tsx:289-318 | a call card offers the action one step forward, and none once resolved |
| StaffConsole.OfferedActionsResolve | src/pages/Staff.tsx:289-318 | a pending call is resolved by exactly two presses of the offered buttons |
| StaffConsole.CallTypeIcon | src/pages/Staff.tsx:70-79 | each call type's icon, the phone for any other tag |
| StaffConsole.CallTypeLabel | src/pages/Staff.tsx:81-90 | each call type's caption, `Chamada` for any other tag |
| StaffConsole.FormatElapsedTime | src/pages/Staff.tsx:92-100 | the age text reads back as the whole minutes since the call was made |
| StaffConsole.WarningThreshold | src/pages/Staff.tsx:281-282 | the warning shows exactly after more than 300 000 ms, so it can show while the text still reads `5min` |
| StaffConsole.Occupancy | src/pages/Staff.tsx:170 | `Math.round` of the percentage: undefined for an empty grid, otherwise the nearest whole percent (halves up), between 0 and 100 when the count does not exceed the total |
| StaffConsole.RoundedPercentBounds | src/pages/Staff.tsx:170 | the rounded percentage is within half a point of the exact one, and within 0..100 |
| StaffConsole.TableOccupancy | src/pages/Staff.tsx:53-170 | the occupied share of the grid, undefined exactly for an empty grid, otherwise between 0 and 100 |
| TableTileView.GetStatusConfig | src/design/components/molecules/TableTile.tsx:14-66 | the caption and colour of each status, and `Indefinido` exactly for an unknown tag |
| TableTileView.LabelsIdentify | src/design/components/molecules/TableTile.tsx:14-66 | every table status has its own caption, none of them `Indefinido` |
| TableTileView.FormatDuration | src/design/components/molecules/TableTile.tsx:75-87 | the duration text reads back as the whole minutes since the order started |
| TableTileView.TileOf | src/design/components/molecules/TableTile.tsx:89-192 | the tile is interactive exactly unless out of order, shows the service bell exactly when service is needed, the QR marker exactly when free, and the duration exactly when an order runs, readable back as its minutes |
| TableTileView.Click | src/design/components/molecules/TableTile.tsx:95-106 | a click selects the table exactly when it is not out of order |
| TableTileView.SeedTiles | src/design/components/molecules/TableTile.tsx:139-183 | on the seeded grid, a tile shows a running order exactly when its table is occupied, and never together with the QR marker |
| ClientOrderStatus.StatusIndex | src/pages/client/ClientOrderStatus.tsx:140 | every order status is found among the `statusConfig` keys, at its own place |
| ClientOrderStatus.StatusOrder | src/pages/client/ClientOrderStatus.tsx:31-56 | the keys run `new` (labelled Recebido), `preparing`, `ready`, `delivered` |
| ClientOrderStatus.Timeline | src/pages/client/ClientOrderStatus.tsx:186-188 | one row per status in key order; a row is completed exactly up to the order's status and current exactly at it |
| ClientOrderStatus.TimelineShape | src/pages/client/ClientOrderStatus.tsx:186-188 | exactly one row is current, it is the order's own status, and completed rows all come before the others |
| ClientOrderStatus.LoadOrder | src/pages/client/ClientOrderStatus.tsx:90-113 | no id (or an empty one) does nothing; otherwise the first order with that id is shown, or, exactly when none has it, the toast (`Erro ao carregar pedido`, `Pedido não encontrado`) and a return to the menu |
| ClientOrderStatus.OnOrdersChanged | src/pages/client/ClientOrderStatus.tsx:71-88 | with an id that some store order has, the shown order becomes the first store order with that id; with no id or no match it stays as shown and no toast is raised; a toast with the new status's label is raised exactly when an order was already shown and the first match's status differs |
| ClientOrderStatus.OneToastPerChange | src/pages/client/ClientOrderStatus.tsx:71-88 | the effect's re-run, triggered by its own update of the shown order, changes nothing and raises no second toast |
| ClientOrderStatus.NewOrderAction | src/pages/client/ClientOrderStatus.tsx:268-273 | the return-to-menu action is offered exactly for a delivered order |
| ClientCart.FilteredProducts | src/pages/client/ClientMenu.tsx:84-88 | exactly the available products of the chosen category (any for `Todos`) whose name contains the search text ignoring case, in list order |
| ClientCart.AddToCart | src/pages/client/ClientMenu.tsx:91-101 | a product already in the cart has its line's quantity raised and nothing else changes; a new product gets a line at the end; ids stay unique |
| ClientCart.HandleAddToCart | src/pages/client/ClientMenu.tsx:90-109 | `addToCart` as a whole: the cart update, with ids kept unique and the item count raised by the quantity; the `Item adicionado` toast naming the product; no product selected afterwards |
| ClientCart.RemoveFromCart | src/pages/client/ClientMenu.tsx:111-113 | exactly the lines of other products remain, in order |
| ClientCart.RemoveOneLine | src/pages/client/ClientMenu.tsx:111-113 | removing the one line of a product leaves the lines before and after it, joined |
| ClientCart.UpdateQuantity | src/pages/client/ClientMenu.tsx:115-126 | a quantity of zero or less removes the line; otherwise only that product's line takes the new quantity |
| ClientCart.AddToExistingLine | src/pages/client/ClientMenu.tsx:92-98 | with unique ids, adding a product already present changes exactly its one line |
| ClientCart.CartTotal | src/pages/client/ClientMenu.tsx:128 | the sum of price times quantity over the lines: 0 for an empty cart, never negative for non-negative prices and quantities (partner: AddToCartTotal) |
| ClientCart.CartItemCount | src/pages/client/ClientMenu.tsx:129 | the sum of the quantities: 0 for an empty cart, and at least the number of lines when every line holds at least one unit (partner: AddToCartCount) |
| ClientCart.AddToCartCount | src/pages/client/ClientMenu.tsx:90-129 | adding raises the item count by the quantity added |
| ClientCart.AddToCartTotal | src/pages/client/ClientMenu.tsx:90-128 | adding raises the cart total by the quantity times the price on the product's line, or the product's price for a new line |
| ClientCart.Checkout | src/pages/client/ClientMenu.tsx:157-160 | an empty cart goes nowhere; any other goes to the checkout page |
| ClientCart.CallWaiter | src/pages/client/ClientMenu.tsx:131-155 | nothing without a table session; otherwise an open call for the table, refused with nothing changed exactly while the table already has an open call. A created call closes the modal with the `Garçom chamado` toast; a refusal leaves the modal as it was and the error toast carries the thrown message |
| ClientCheckout.Totals | src/pages/client/ClientCheckout.tsx:38-40 | the service charge is a tenth of the subtotal and the total is the subtotal plus it, eleven tenths of the subtotal |
| ClientCheckout.MockCartTotals | src/pages/client/ClientCheckout.tsx:15-40 | the demo cart comes to 83.60, with 8.36 service, 91.96 in all |
| ClientCheckout.OrderItems | src/pages/client/ClientCheckout.tsx:49-53 | one order item per cart line, with its product id, quantity and the shared observations |
| ClientCheckout.SubmitOrder | src/pages/client/ClientCheckout.tsx:42-73 | nothing without a table session; otherwise a `new` order for the table with the computed total and the cart's items is appended, the toast `Pedido enviado!` says the kitchen received it, and the page goes to that order's status page |
| MockMenu.SeedItemKeys | src/mocks/menu.ts:86-263 | the id and category of each of the eleven seeded items |
| MockMenu.SeedIdsDistinct | src/mocks/menu.ts:86-263 | no id is seeded twice, so `getItemById` finds each seeded item |
| MockMenu.SeedCategoriesDeclared | src/mocks/menu.ts:41-263 | every seeded item belongs to one of the six declared categories |
| MockMenu.ItemsByCategory | src/mocks/menu.ts:266-268 | exactly the items of that category |
| MockMenu.ItemById | src/mocks/menu.ts:270-272 | the first item with that id, and none exactly when no item has it |
| MockMenu.FilterItemsByTags | src/mocks/menu.ts:274-279 | no tags keeps the list as it is; otherwise exactly the items carrying at least one of the tags |
| MockMenu.MoreTagsKeepItems | src/mocks/menu.ts:274-279 | asking for more tags never drops an item |
| MockMenu.NewItems | src/mocks/menu.ts:281-283 | exactly the items marked new |
| MockMenu.BestSellers | src/mocks/menu.ts:285-287 | exactly the items marked best seller |
| MockMenu.HelpersKeepOrder | src/mocks/menu.ts:266-287 | every helper keeps the list order: filtering a concatenation filters each part |
| TableMenu.TableNumber | src/pages/ClientMenu.tsx:61-64 | the table number is at least 1, and 1 without a token or without `mesa-` in it |
| TableMenu.TableNumberOfToken | src/pages/ClientMenu.tsx:61-64 | a token `mesa-<n>-<rest>` with n at least 1 and no dash in the rest is read as table n |
| TableMenu.ActiveCalls | src/pages/ClientMenu.tsx:41-59 | exactly this table's pending calls |
| TableMenu.ActiveCallsKeepOrder | src/pages/ClientMenu.tsx:44-46 | the active calls keep the service's order |
| TableMenu.AddToCart | src/pages/ClientMenu.tsx:67-73 | the item is appended, even when already in the cart, and the total goes up by its price |
| TableMenu.DropIndexRemovesOne | src/pages/ClientMenu.tsx:76 | filtering out one position removes exactly that entry; an index outside the cart removes nothing |
| TableMenu.RemoveFromCart | src/pages/ClientMenu.tsx:75-77 | exactly the entry at that position goes; any other index keeps the cart |
| TableMenu.RemoveFromCartTotal | src/pages/ClientMenu.tsx:67-77 | removing a position takes exactly that entry's price off the total |
| TableMenu.AddThenRemoveLast | src/pages/ClientMenu.tsx:70-77 | adding an item and removing the last position gives back the cart |
| TableMenu.LineIdsDistinct | src/pages/ClientMenu.tsx:93 | the lines of one submission get distinct ids |
| TableMenu.OrderLines | src/pages/ClientMenu.tsx:92-100 | one line per cart entry, quantity 1, unit and line price the entry's price, allergens copied, ids distinct |
| TableMenu.SubmitOrder | src/pages/ClientMenu.tsx:86-121 | an empty cart sends nothing; otherwise one pending kitchen order for the table with the cart's lines and a total of eleven tenths of the cart total is appended to the service, and the cart empties |
| CallWaiterModal.CallOptionPriorities | src/components/modals/CallWaiterModal.tsx:23-56 | asking for the bill is the one high-priority option, each option has its own call type, and none is a complaint |
| CallWaiterModal.CallMessage | src/components/modals/CallWaiterModal.tsx:78 | a message of blanks is sent as no message; any other is sent trimmed |
| CallWaiterModal.CallMessageIdempotent | src/components/modals/CallWaiterModal.tsx:78 | trimming a sent message again changes nothing |
| CallWaiterModal.HandleCall | src/components/modals/CallWaiterModal.tsx:69-90 | nothing without a selection; otherwise one pending call for the table with the option's type and priority and the trimmed message is appended, and the dialog closes and resets |
| ProductForm.IsEditing | src/pages/ProductForm.tsx:19 | every route id but `new` edits, a missing one included |
| ProductForm.LoadForEdit | src/pages/ProductForm.tsx:44-51 | when editing and the id names a product, the form takes that product's fields, image URL included, and its lists; otherwise nothing changes |
| ProductForm.LoadedProductSaves | src/pages/ProductForm.tsx:44-111 | a loaded product with a name, a description, a category and a non-zero price is saved unchanged as an update |
| ProductForm.HandleInputChange | src/pages/ProductForm.tsx:53-55 | the named field takes the value and every other field and list keeps its own |
| ProductForm.InputChangeUndone | src/pages/ProductForm.tsx:53-55 | setting a field back to its old value restores the form |
| ProductForm.AddUnique | src/pages/ProductForm.tsx:57-65 | the trimmed input is appended and the input cleared exactly when it is non-empty and not yet listed; the list never gains a duplicate |
| ProductForm.RemoveAll | src/pages/ProductForm.tsx:67-72 | every copy of the value goes and the rest stay; a value not listed changes nothing |
| ProductForm.RemoveUndoesAdd | src/pages/ProductForm.tsx:57-72 | adding a fresh value and removing it gives back the list |
| ProductForm.AddTag | src/pages/ProductForm.tsx:57-65 | the add step on the tags only |
| ProductForm.RemoveTag | src/pages/ProductForm.tsx:67-72 | the remove step on the tags only |
| ProductForm.AddAllergen | src/pages/ProductForm.tsx:74-82 | the add step on the allergens only |
| ProductForm.RemoveAllergen | src/pages/ProductForm.tsx:84-89 | the remove step on the allergens only |
| ProductForm.ListActionsKeepClean | src/pages/ProductForm.tsx:21-89 | both lists start empty and no list action introduces a duplicate |
| ProductForm.HandleSubmit | src/pages/ProductForm.tsx:91-111 | the form is refused exactly when name, description, category or price is falsy; otherwise it is saved with the create or update toast and the page returns to the product list |
| ProductForm.ZeroPriceRejected | src/pages/ProductForm.tsx:21-39 | the untouched form is refused, and so is every form with price 0 |
| ProductCatalog.FilteredProducts | src/pages/ProductCatalog.tsx:18-23 | exactly the products whose name or description contains the search text ignoring case and whose category is selected (any for `all`) |
| ProductCatalog.FilteredProductsKeepOrder | src/pages/ProductCatalog.tsx:18-23 | the listing keeps the product order: filtering a concatenation filters each part |
| ProductCatalog.EmptySearchShowsAll | src/pages/ProductCatalog.tsx:18-23 | no search text with `all` selected shows every product, in order |
| ProductCatalog.HandleDelete | src/pages/ProductCatalog.tsx:32-38 | exactly the products with other ids remain; an unknown id changes nothing |
| ProductCatalog.ToggleStatus | src/pages/ProductCatalog.tsx:40-46 | only a toast; no product changes, its availability included |
| ProductCatalog.DeleteKeepsOrder | src/pages/ProductCatalog.tsx:33 | deleting keeps the list order: deleting from a concatenation deletes from each part |
| ProductCatalog.CategoryCount | src/pages/ProductCatalog.tsx:105 | the number of products of the category, never more than the list |
| ProductCatalog.CountsMatchListing | src/pages/ProductCatalog.tsx:18-23 | with no search text, the `Todos` count and each category's count equal what the list shows for that selection |
| QrGenerator.GenerateToken | src/pages/QRCodeGenerator.tsx:47-50 | the token `mesa-<n>-<random>`: it starts with `mesa-` and ends with a dash and the random part (partner: TokenRoundTrip, which reads the number back) |
| QrGenerator.Url | src/pages/QRCodeGenerator.tsx:68 | the link is the origin followed by `/m/` and the token |
| QrGenerator.TokenRoundTrip | src/pages/QRCodeGenerator.tsx:47-50 | a token generated for table n at least 1 is read back as n by the table menu |
| QrGenerator.NonPositiveTokenReadsAsOne | src/pages/QRCodeGenerator.tsx:47-50 | a token generated for table 0 or a negative number is read back as table 1 |
| QrGenerator.Initial | src/pages/QRCodeGenerator.tsx:21-45 | the initial list is sorted by number with no number twice, and 8 is offered next |
| QrGenerator.InsertKeepsStrict | src/pages/QRCodeGenerator.tsx:78 | inserting a table under an unused number keeps the list strictly sorted |
| QrGenerator.AddTable | src/pages/QRCodeGenerator.tsx:57-85 | a number already listed is refused with nothing changed and the `Erro` toast; otherwise the new table joins the old ones in number order, the offered number goes up by one and the `Mesa criada` toast names the table's number |
| QrGenerator.AddTableContents | src/pages/QRCodeGenerator.tsx:78 | after an accepted add the list holds exactly the old tables and the new one |
| QrGenerator.RegenerateToken | src/pages/QRCodeGenerator.tsx:87-106 | the table with that id gets a new token, link and time under its own number; every other table is unchanged; the `Token regenerado` toast is raised whatever the id |
| QrGenerator.RemoveTable | src/pages/QRCodeGenerator.tsx:130-136 | exactly the tables with other ids remain, still sorted; the `Mesa removida` toast is raised whatever the id |
| QrGenerator.OperationsKeepUnique | src/pages/QRCodeGenerator.tsx:21-136 | from the initial list on, every operation keeps the tables sorted with no number twice |
| Dashboard.GrowthRate | src/mocks/dashboard.ts:207-210 | 0 without a previous value, otherwise the percentage change |
| Dashboard.GrowthSign | src/mocks/dashboard.ts:207-210 | against a positive previous value, growth is positive exactly when it was exceeded and zero exactly when equalled |
| Dashboard.KpiIcon | src/mocks/dashboard.ts:227-237 | the icon of each of the six KPI ids (💰, 📋, 🎫, ⏱️, ⭐, 🪑); the chart icon exactly for an unknown id that is not a name inherited from `Object.prototype`, and the inherited member for such a name |
| Dashboard.SeedKpiIcons | src/mocks/dashboard.ts:30-237 | every seeded KPI has an icon of its own |
| Dashboard.TrendColor | src/mocks/dashboard.ts:239-246 | each trend's colour, and each colour names its trend |
| Dashboard.HeatBand | src/mocks/dashboard.ts:248-255 | 0 exactly for intensity 0, then one band per 20 points, the full colour exactly above 80 |
| Dashboard.HeatmapColor | src/mocks/dashboard.ts:248-255 | the colour of the intensity's band |
| Dashboard.HeatBandMonotone | src/mocks/dashboard.ts:248-255 | a higher non-negative intensity never gets a lighter colour |
| Dashboard.BusyHours | src/mocks/dashboard.ts:257-262 | the hours whose value is above 1000, ascending, each hour as often as it occurs |
| Dashboard.SeedHoursAscending | src/mocks/dashboard.ts:94-111 | the seeded series runs hour by hour from 8 to 23 |
| Dashboard.BusyHoursOfOrderedSeries | src/mocks/dashboard.ts:257-262 | on a series ordered by hour, the busy hours come out in series order, strictly ascending |
| Dashboard.PeakIndex | src/mocks/dashboard.ts:264-268 | the position of the first point with the largest value |
| Dashboard.PeakHour | src/mocks/dashboard.ts:264-268 | the hour of the first point with the largest value, and none for an empty series, where `reduce` throws |
| Dashboard.TotalRevenue | src/mocks/dashboard.ts:270-272 | the sum of the hourly values: 0 for an empty series, never negative when no value is (partner: TotalRevenueBounds) |
| Dashboard.TotalRevenueBounds | src/mocks/dashboard.ts:270-272 | the total adds up across a split of the series, and with no negative value no point exceeds it |
| Dashboard.AverageOrderValue | src/mocks/dashboard.ts:274-278 | revenue over the `orders` KPI's value when it is positive, and 0 when it is missing or not positive |

## Left out

- Rendering and styling are not modelled: the JSX markup, the Tailwind classes, and the icons and colours that only decorate. `getStationIcon` in both ticket cards is one of these. The presentational components and pages outside this core are left out too.
- `localStorage`, `window` storage events, `BroadcastChannel` and react-router are host APIs and are not modelled. They appear only as returned values:
  - storage is a pair of slots;
  - events and posts are returned traces;
  - navigation is a returned target.
- `initializeRealTime`'s channel set-up and `cleanupRealTime` are not modelled: they only open and close channels. What the channel handlers do is modelled by `RealtimeStore.Receive`.
- The polling fallback is left out because its interval body is empty.
- `playNotificationSound` is reduced to the decision that the sound plays, because `AudioContext` is a browser API.
- Cross-tab concurrency is not modelled. This includes the lost-update race of two tabs rewriting one list. A sequential model of one tab's operations cannot express tabs running in parallel.
- The `setTimeout` delays and the `async` plumbing of the mock back end are left out. Each operation is one synchronous step whose promise outcome is a value.
- `getProducts`, `getTables`, `getOrders` and `getCalls` are left out: each returns one collection of the database, which is a field of `MockApi.Db`.
- `getMetrics` is not modelled, because its figures come from `Math.random()` and date strings.
- `generateId`, `Math.random()` and the clock are parameters and are not modelled. No property depends on their values beyond those the contracts name.
- The number formatting that goes through `Intl` or through floating-point `toFixed` is not modelled. This covers `formatCurrency`, `formatTime`, `formatNumber`, `formatPercentage` and `toLocaleString`.
- `hexToHsl` and the theme hook are left out.
- JavaScript numbers are modelled as exact `real` and unbounded `int`. Rounding of binary floating point in prices, service charges and growth rates is not modelled.
- The internals of `JSON.stringify`/`JSON.parse` and `btoa`/`atob` are not modelled. `Codec` keeps only what the code relies on: decoding undoes encoding, and text that is not an encoding fails to decode.
- The Zustand `persist` middleware is not modelled. What it stores and what a reload restores are modelled by `AuthStore.Partialize` and `AuthStore.Rehydrate`.
- The QR login page, the login pages and `App.tsx` routing are left out. They are form and navigation glue over `AuthStore` and `AuthGuard`.
- The clipboard copy and the download in the QR code page are left out: they are browser APIs.
- `generateQRCode` is left out because it only builds the image-service URL.
- The KDS refresh button only runs a one-second spinner timer, so it is not modelled.
- Staff's `handleTableSelect` only records the selected table for display, so it is not modelled.
- `loadProducts` in the customer menu is not modelled. It copies the mock back end's product list, and that call cannot fail.
- Text.ToLower: only ASCII, Latin-1, basic Greek (U+0391-U+03A9) and basic Cyrillic (U+0400-U+042F) capitals are lowered, each on its own. JavaScript's `toLowerCase` covers all of Unicode and can change the length (U+0130 becomes two code units). It also applies the Final_Sigma rule: a Σ (U+03A3) at the end of a word becomes ς (U+03C2), so `"ΑΣ"` lowers to `ας`, where the model gives `ασ`. Searches in ProductCatalog.FilteredProducts and ClientCart.FilteredProducts inherit both limits. For example, searching `Σ` finds a name ending in Σ in the model but not in the source.
- Realtime.AddOrder, MockApi.CreateOrder, TableMenu.OrderLines, MockApi.SeedTables, MockApi.SeedUsers, MockApi.SeedOrders: each takes one clock reading `now` for the whole operation. The source reads the clock several times: `addOrder` once for the id and once each for `createdAt` and `updatedAt` (src/services/realTimeService.ts:103-105), `createOrder` once each for the two stamps (src/lib/mockApi.ts:203-205), the QR menu once per order line, and the seed once for each table token's expiry and again inside `generateJWT` (src/lib/mockApi.ts:365), and the seeded users and orders once per stamp (src/lib/mockApi.ts:338, 347, 356 and 448-461). So the model's "both stamps at `now`" holds in the source only when those reads fall in the same millisecond.
- AuthUtils.GenerateJwt: `btoa` of the JSON payload would throw for a character above U+00FF, and the model does not say so. The payload holds only ids, role names and scope names.
- ProductForm.HandleSubmit: the model has no `NaN`. A price field holding `NaN` would be falsy in the source; the model only reads 0 and the empty text as falsy.
- QrGenerator.RegenerateToken: one random suffix is used for every table carrying the id, where the source draws one per table. The page's ids are the seed ids and `Date.now()` texts, so normally at most one table matches.
- StaffConsole.Occupancy: `Math.round` on a float is modelled as rounding half up on the exact quotient. The `NaN` of an empty grid is `None`.

=== FILE: auth_guard.dfy ===
/** The route guard (`src/components/guards/AuthGuard.tsx`): given the session,
    the current path and the guard's props, either render the page or redirect.
    The `checkAuth` effect the guard schedules runs after this decision and is
    modelled in `AuthStore`. */
module AuthGuard {
  import opened Wrappers
  import opened Text
  import MockApi
  import AuthStore

  datatype Decision = Render | Redirect(to: string)

  datatype Props = Props(allowedRoles: seq<MockApi.Role>, allowedScopes: seq<MockApi.Scope>, redirectTo: Option<string>)

  /** `if (redirectTo)`: present and not the empty (falsy) string. */
  predicate HasRedirect(p: Props) {
    p.redirectTo.Some? && p.redirectTo.value != ""
  }

  /** Where an unauthenticated visitor of `path` is sent when the guard names no target. */
  function LoginPageFor(path: string): (to: string)
    ensures StartsWith(path, "/admin") ==> to == "/admin/login"
    ensures !StartsWith(path, "/admin") && StartsWith(path, "/staff") ==> to == "/staff/login"
    ensures !StartsWith(path, "/admin") && !StartsWith(path, "/staff") && StartsWith(path, "/kds") ==> to == "/kds/login"
    ensures (!StartsWith(path, "/admin") && !StartsWith(path, "/staff") && !StartsWith(path, "/kds") &&
             StartsWith(path, "/client")) ==> to == "/client/login"
    ensures to == "/" <==>
      !StartsWith(path, "/admin") && !StartsWith(path, "/staff") && !StartsWith(path, "/kds") && !StartsWith(path, "/client")
  {
    if StartsWith(path, "/admin") then "/admin/login"
    else if StartsWith(path, "/staff") then "/staff/login"
    else if StartsWith(path, "/kds") then "/kds/login"
    else if StartsWith(path, "/client") then "/client/login"
    else "/"
  }

  /** `user?.role || (table ? 'client' : null)`. */
  function EffectiveRole(user: Option<MockApi.PublicUser>, table: Option<MockApi.Table>): (r: Option<MockApi.Role>)
    ensures user.Some? ==> r == Some(user.value.role)
    ensures user.None? && table.Some? ==> r == Some(MockApi.Client)
    ensures r.None? <==> user.None? && table.None?
  {
    if user.Some? then Some(user.value.role)
    else if table.Some? then Some(MockApi.Client)
    else None
  }

  /** The guard's decision for the session `st` on `path`. */
  function Decide(st: AuthStore.AuthState, path: string, p: Props): (d: Decision)
    ensures !st.isAuthenticated && HasRedirect(p) ==> d == Redirect(p.redirectTo.value)
    ensures !st.isAuthenticated && !HasRedirect(p) ==> d == Redirect(LoginPageFor(path))
    ensures st.isAuthenticated ==> d == Render || d == Redirect("/")
    ensures d == Render <==>
      st.isAuthenticated &&
      (|p.allowedRoles| == 0 || (EffectiveRole(st.user, st.table).Some? && EffectiveRole(st.user, st.table).value in p.allowedRoles)) &&
      (|p.allowedScopes| == 0 || st.user.None? || st.user.value.role != MockApi.Staff ||
       (st.user.value.scope.Some? && st.user.value.scope.value in p.allowedScopes))
  {
    if !st.isAuthenticated then
      if HasRedirect(p) then Redirect(p.redirectTo.value) else Redirect(LoginPageFor(path))
    else if |p.allowedRoles| > 0 &&
            (EffectiveRole(st.user, st.table).None? || EffectiveRole(st.user, st.table).value !in p.allowedRoles) then
      Redirect("/")
    else if |p.allowedScopes| > 0 && st.user.Some? && st.user.value.role == MockApi.Staff &&
            (st.user.value.scope.None? || st.user.value.scope.value !in p.allowedScopes) then
      Redirect("/")
    else Render
  }

  const AdminGuard := Props([MockApi.Admin], [], Some("/admin/login"))
  const StaffGuard := Props([MockApi.Staff], [], Some("/staff/login"))
  const KdsGuard := Props([MockApi.Staff], [MockApi.KitchenScope], Some("/kds/login"))
  const ClientGuard := Props([MockApi.Client], [], Some("/client/login"))

  /** The kitchen display admits exactly the authenticated staff users whose scope is kitchen. */
  lemma KdsGuardAdmits(st: AuthStore.AuthState, path: string)
    ensures Decide(st, path, KdsGuard) == Render <==>
      st.isAuthenticated && st.user.Some? && st.user.value.role == MockApi.Staff &&
      st.user.value.scope == Some(MockApi.KitchenScope)
    ensures !st.isAuthenticated ==> Decide(st, path, KdsGuard) == Redirect("/kds/login")
  {
  }

  /** A table session (no user) passes the client guard and no other. */
  lemma TableSessionIsClient(st: AuthStore.AuthState, path: string)
    requires st.isAuthenticated && st.user.None? && st.table.Some?
    ensures Decide(st, path, ClientGuard) == Render
    ensures Decide(st, path, AdminGuard) == Redirect("/")
    ensures Decide(st, path, StaffGuard) == Redirect("/")
    ensures Decide(st, path, KdsGuard) == Redirect("/")
  {
  }

  /** A guard with no role and no scope list admits every authenticated session. */
  lemma OpenGuardAdmitsSessions(st: AuthStore.AuthState, path: string, redirectTo: Option<string>)
    requires st.isAuthenticated
    ensures Decide(st, path, Props([], [], redirectTo)) == Render
  {
  }
}

=== FILE: auth_store.dfy ===
/** The session store (`src/store/authStore.ts`): who is logged in, with which
    token, and the transitions of the three login flows, `logout` and
    `checkAuth`. The back end is the `MockApi` model; `now` is the clock. The
    `loading: true` set at the start of each login is overwritten before the
    operation returns, so only the final state is modelled. */
module AuthStore {
  import opened Wrappers
  import Seqs
  import AuthUtils
  import MockApi

  datatype AuthState = AuthState(
    token: Option<string>, user: Option<MockApi.PublicUser>, table: Option<MockApi.Table>,
    isAuthenticated: bool, loading: bool)

  const LoggedOut := AuthState(None, None, None, false, false)

  /** The state after an action, and the error it rethrows, if any. */
  datatype Outcome = Outcome(state: AuthState, error: Option<string>)

  /** `login(email, password)`. */
  function Login(st: AuthState, db: MockApi.Db, email: string, password: string, now: int): (o: Outcome)
    ensures o.error.None? <==> MockApi.Login(db, email, password, now).Success?
    ensures o.error.None? ==>
      var r := MockApi.Login(db, email, password, now).value;
      o.state == AuthState(Some(r.0), Some(r.1), None, true, false)
    ensures o.error.Some? ==> o.state == st.(loading := false)
  {
    match MockApi.Login(db, email, password, now)
    case Success((token, user)) => Outcome(AuthState(Some(token), Some(user), None, true, false), None)
    case Failure(e) => Outcome(st.(loading := false), Some(e))
  }

  /** The state after a table session starts, or the rethrown error. */
  function TableSession(st: AuthState, r: Result<(string, MockApi.Table), string>): (o: Outcome)
    ensures o.error.None? <==> r.Success?
    ensures r.Success? ==> o.state == AuthState(Some(r.value.0), None, Some(r.value.1), true, false)
    ensures r.Failure? ==> o == Outcome(st.(loading := false), Some(r.error))
  {
    match r
    case Success((token, table)) => Outcome(AuthState(Some(token), None, Some(table), true, false), None)
    case Failure(e) => Outcome(st.(loading := false), Some(e))
  }

  /** `loginTable(tableNumber, pin)`. */
  function LoginTable(st: AuthState, db: MockApi.Db, tableNumber: int, pin: string, now: int): (o: Outcome)
    ensures o.error.None? <==> exists t | t in db.tables :: t.number == tableNumber && t.pin == pin
    ensures o.error.None? ==>
      o.state.isAuthenticated && o.state.user.None? && o.state.table.Some? &&
      o.state.table.value.number == tableNumber
    ensures o.error.Some? ==> o.state == st.(loading := false) && o.error == Some(MockApi.InvalidTablePin)
  {
    TableSession(st, MockApi.LoginTable(db, tableNumber, pin, now))
  }

  /** `loginWithQR(tableToken)`. */
  function LoginWithQR(st: AuthState, db: MockApi.Db, tableToken: string, now: int): (o: Outcome)
    ensures AuthUtils.VerifyJwt(tableToken, now).Failure? ==> o.error.Some?
    ensures o.error.None? ==>
      o.state.isAuthenticated && o.state.user.None? && o.state.table.Some? &&
      o.state.table.value in db.tables
    ensures o.error.Some? ==> o.state == st.(loading := false) && o.error == Some(MockApi.InvalidTableToken)
  {
    TableSession(st, MockApi.LoginWithQR(db, tableToken, now))
  }

  /** `logout()`. */
  function Logout(st: AuthState): (r: AuthState)
    ensures r.token.None? && r.user.None? && r.table.None? && !r.isAuthenticated && !r.loading
  {
    LoggedOut
  }

  /** `!token`: no token, or the empty (falsy) one. */
  predicate NoToken(st: AuthState) {
    st.token.None? || st.token.value == ""
  }

  /** `checkAuth()` at time `now`. */
  function CheckAuth(st: AuthState, now: int): (r: AuthState)
    ensures NoToken(st) ==> r == st.(isAuthenticated := false)
    ensures !NoToken(st) && AuthUtils.VerifyJwt(st.token.value, now).Success? ==> r == st.(isAuthenticated := true)
    ensures !NoToken(st) && AuthUtils.VerifyJwt(st.token.value, now).Failure? ==>
      r == AuthState(None, None, None, false, st.loading)
    ensures r.isAuthenticated <==> !NoToken(st) && AuthUtils.VerifyJwt(st.token.value, now).Success?
  {
    if NoToken(st) then st.(isAuthenticated := false)
    else if AuthUtils.VerifyJwt(st.token.value, now).Success? then st.(isAuthenticated := true)
    else AuthState(None, None, None, false, st.loading)
  }

  /** What `persist` writes (`partialize`): token, user and table only. */
  datatype Persisted = Persisted(token: Option<string>, user: Option<MockApi.PublicUser>, table: Option<MockApi.Table>)

  function Partialize(st: AuthState): (p: Persisted)
    ensures p.token == st.token && p.user == st.user && p.table == st.table
  {
    Persisted(st.token, st.user, st.table)
  }

  /** A fresh page load: the persisted fields over the initial state. */
  function Rehydrate(p: Persisted): (st: AuthState)
    ensures Partialize(st) == p && !st.isAuthenticated && !st.loading
  {
    AuthState(p.token, p.user, p.table, false, false)
  }

  /** The flags are not persisted: after a reload only `checkAuth` can restore the session,
      and it does so exactly when the stored token still verifies. */
  lemma ReloadThenCheck(st: AuthState, now: int)
    ensures var s := CheckAuth(Rehydrate(Partialize(st)), now);
      s.isAuthenticated <==> st.token.Some? && st.token.value != "" && AuthUtils.VerifyJwt(st.token.value, now).Success?
    ensures Partialize(Rehydrate(Partialize(st))) == Partialize(st)
  {
  }

  /** A session that came from a login stays authenticated under `checkAuth` until its token expires,
      eight hours after the login. */
  lemma LoginSessionLasts(st: AuthState, db: MockApi.Db, email: string, password: string, issued: int, now: int)
    requires MockApi.Login(db, email, password, issued).Success?
    requires issued <= now <= issued + AuthUtils.DefaultLifetime
    ensures CheckAuth(Login(st, db, email, password, issued).state, now).isAuthenticated
  {
    var token := MockApi.Login(db, email, password, issued).value.0;
    var u :| u in db.users && token == AuthUtils.GenerateJwt(MockApi.StaffPayload(u), issued);
    var payload := MockApi.StaffPayload(u);
    AuthUtils.DefaultExpiry(payload, issued, now);
    assert |AuthUtils.GenerateJwt(payload, issued)| >= |AuthUtils.TokenPrefix|;
  }
}

=== FILE: auth_utils.dfy ===
/** The mock credential helpers of `src/lib/utils.ts`: the password "hash"
    (`hashed_` + the encoded password), the mock JWT (`mock_jwt_` + the encoded
    payload) and the plain elapsed-time text. `JSON.stringify` + `btoa` are the
    injective `Codec` encoding; the clock is the `now` parameter. */
module AuthUtils {
  import opened Wrappers
  import opened Text
  import Codec
  import Elapsed

  // ---------------------------------------------------------------------
  // Passwords

  /** The error `btoa` throws on a character above U+00FF. */
  const InvalidCharacter := "InvalidCharacterError"

  /** The text `btoa` accepts: no code unit above U+00FF. */
  predicate BtoaAccepts(s: string) {
    forall i | 0 <= i < |s| :: s[i] as int <= 0xFF
  }

  /** The stored form of a password `btoa` accepts: `hashed_` + the encoded password. */
  function Hashed(password: string): string {
    "hashed_" + Codec.Encode([password])
  }

  /** `hashPassword(p)`: throws `InvalidCharacterError` when `btoa` refuses the password. */
  function HashPassword(password: string): (h: Result<string, string>)
    ensures h.Failure? <==> !BtoaAccepts(password)
    ensures h.Failure? ==> h.error == InvalidCharacter
    ensures h.Success? ==> StartsWith(h.value, "hashed_")
  {
    if BtoaAccepts(password) then Success(Hashed(password)) else Failure(InvalidCharacter)
  }

  /** `verifyPassword(p, h)`: throws as `hashPassword` does; otherwise whether `h` is the hash of `p`. */
  function VerifyPassword(password: string, hashed: string): (r: Result<bool, string>)
    ensures r.Failure? <==> !BtoaAccepts(password)
    ensures r.Failure? ==> r.error == InvalidCharacter
    ensures r.Success? ==> (r.value <==> HashPassword(password) == Success(hashed))
  {
    if BtoaAccepts(password) then Success(hashed == Hashed(password)) else Failure(InvalidCharacter)
  }

  /** A password verifies against its own hash, and against no other password's hash. */
  lemma PasswordCheck(p: string, q: string)
    ensures HashPassword(p).Success? ==> VerifyPassword(p, HashPassword(p).value) == Success(true)
    ensures HashPassword(p).Success? ==> (VerifyPassword(q, HashPassword(p).value) == Success(true) <==> p == q)
  {
    if HashPassword(p).Success? && VerifyPassword(q, HashPassword(p).value) == Success(true) {
      var hp := Hashed(p);
      var hq := Hashed(q);
      assert hp[7..] == Codec.Encode([p]);
      assert hq[7..] == Codec.Encode([q]);
      Codec.EncodeInjective([p], [q]);
      assert [p][0] == [q][0];
    }
  }

  // ---------------------------------------------------------------------
  // Mock JWT

  /** The fields the application puts in a token (`undefined` ones are dropped by `JSON.stringify`). */
  datatype Payload = Payload(
    userId: Option<string>, tableId: Option<string>, role: Option<string>,
    scope: Option<string>, exp: Option<int>, iat: Option<int>)

  const TokenPrefix := "mock_jwt_"
  const DefaultLifetime: int := 8 * 60 * 60 * 1000
  const InvalidToken := "Invalid token"

  function EncodePayload(p: Payload): string {
    Codec.Encode([Codec.EncodeOptional(p.userId), Codec.EncodeOptional(p.tableId),
                  Codec.EncodeOptional(p.role), Codec.EncodeOptional(p.scope),
                  Codec.EncodeOptionalInt(p.exp), Codec.EncodeOptionalInt(p.iat)])
  }

  /** `JSON.parse(atob(text))` for the payload shape; `None` where either would throw. */
  function DecodePayload(text: string): Option<Payload> {
    var fields :- Codec.Decode(text);
    if |fields| != 6 then None
    else
      var userId :- Codec.DecodeOptional(fields[0]);
      var tableId :- Codec.DecodeOptional(fields[1]);
      var role :- Codec.DecodeOptional(fields[2]);
      var scope :- Codec.DecodeOptional(fields[3]);
      var exp :- Codec.DecodeOptionalInt(fields[4]);
      var iat :- Codec.DecodeOptionalInt(fields[5]);
      Some(Payload(userId, tableId, role, scope, exp, iat))
  }

  lemma DecodeEncodePayload(p: Payload)
    ensures DecodePayload(EncodePayload(p)) == Some(p)
  {
    var fields := [Codec.EncodeOptional(p.userId), Codec.EncodeOptional(p.tableId),
                   Codec.EncodeOptional(p.role), Codec.EncodeOptional(p.scope),
                   Codec.EncodeOptionalInt(p.exp), Codec.EncodeOptionalInt(p.iat)];
    Codec.DecodeEncode(fields);
    Codec.DecodeEncodeOptional(p.userId);
    Codec.DecodeEncodeOptional(p.tableId);
    Codec.DecodeEncodeOptional(p.role);
    Codec.DecodeEncodeOptional(p.scope);
    Codec.DecodeEncodeOptionalInt(p.exp);
    Codec.DecodeEncodeOptionalInt(p.iat);
  }

  /** The payload `generateJWT` signs at time `now`: `exp` is kept unless it is
      absent or zero (falsy), in which case it is eight hours from now; `iat` is now. */
  function Stamp(p: Payload, now: int): (q: Payload)
    ensures q.userId == p.userId && q.tableId == p.tableId && q.role == p.role && q.scope == p.scope
    ensures q.iat == Some(now)
    ensures p.exp.Some? && p.exp.value != 0 ==> q.exp == p.exp
    ensures p.exp.None? || p.exp == Some(0) ==> q.exp == Some(now + DefaultLifetime)
  {
    var exp := if p.exp.Some? && p.exp.value != 0 then p.exp else Some(now + DefaultLifetime);
    p.(exp := exp, iat := Some(now))
  }

  /** `generateJWT(payload)` at time `now`. */
  function GenerateJwt(p: Payload, now: int): (token: string)
    ensures StartsWith(token, TokenPrefix)
  {
    TokenPrefix + EncodePayload(Stamp(p, now))
  }

  /** `verifyJWT(token)` at time `now`: every failure surfaces as the single `Invalid token` error. */
  function VerifyJwt(token: string, now: int): (r: Result<Payload, string>)
    ensures r.Failure? ==> r.error == InvalidToken
    ensures !StartsWith(token, TokenPrefix) ==> r.Failure?
    ensures r.Success? ==> r.value.exp.None? || r.value.exp.value >= now
  {
    if !StartsWith(token, TokenPrefix) then Failure(InvalidToken)
    else match DecodePayload(token[|TokenPrefix|..])
      case None => Failure(InvalidToken)
      case Some(p) =>
        if p.exp.Some? && p.exp.value < now then Failure(InvalidToken) else Success(p)
  }

  /** A token verifies, until it expires, to the payload it was generated from
      with its `exp` and `iat` filled in; after expiry it is rejected. */
  lemma VerifyGenerated(p: Payload, issued: int, now: int)
    ensures var q := Stamp(p, issued);
      VerifyJwt(GenerateJwt(p, issued), now) ==
        if q.exp.value < now then Failure(InvalidToken) else Success(q)
  {
    var q := Stamp(p, issued);
    var t := GenerateJwt(p, issued);
    assert t[|TokenPrefix|..] == EncodePayload(q);
    DecodeEncodePayload(q);
  }

  /** A payload with no `exp` gets eight hours of validity. */
  lemma DefaultExpiry(p: Payload, issued: int, now: int)
    requires p.exp.None?
    ensures VerifyJwt(GenerateJwt(p, issued), now).Success? <==> now <= issued + DefaultLifetime
  {
    VerifyGenerated(p, issued, now);
  }

  // ---------------------------------------------------------------------
  // Elapsed time

  /** `getTimeElapsed(date)` at time `now`: whole minutes under an hour, otherwise
      hours and the remaining minutes without zero-padding. */
  function TimeElapsed(date: int, now: int): (s: string)
    ensures Elapsed.ParseDuration(s, "min") == Some(Elapsed.ElapsedMinutes(date, now))
    ensures var m := Elapsed.ElapsedMinutes(date, now);
      m >= 60 ==> s == Elapsed.HoursForm(m / 60, NatToString(m % 60), "min")
    ensures var m := Elapsed.ElapsedMinutes(date, now);
      m >= 60 && m % 60 < 10 ==> |s| + 1 == |Elapsed.Padded(m)|
  {
    var m := Elapsed.ElapsedMinutes(date, now);
    Elapsed.PlainOneDigitMinutes(m);
    Elapsed.PlainRoundTrip(m);
    Elapsed.Plain(m)
  }
}

=== FILE: call_waiter_modal.dfy ===
/** The call-the-waiter dialog (`src/components/modals/CallWaiterModal.tsx`): the four
    call options with their priorities, and what pressing the call button does with
    the selected option and the typed message. `now` and `suffix` stand for the
    clock and the random part of the new call id; the toast is returned. */
module CallWaiterModal {
  import opened Wrappers
  import opened Text
  import Realtime

  /** One entry of `callOptions` (icon, description and colour are display only). */
  datatype CallOption = CallOption(kind: Realtime.CallType, caption: string, priority: Realtime.Priority)

  /** `callOptions`. */
  const CallOptions: seq<CallOption> := [
    CallOption(Realtime.Water, "Preciso de Água", Realtime.Normal),
    CallOption(Realtime.Utensils, "Talheres / Guardanapos", Realtime.Normal),
    CallOption(Realtime.Bill, "Fechar a Conta", Realtime.High),
    CallOption(Realtime.Assistance, "Preciso de Ajuda", Realtime.Normal)
  ]

  /** Asking for the bill is the one high-priority option; each option has its own call type,
      and none of them is a complaint. */
  lemma CallOptionPriorities()
    ensures forall o | o in CallOptions :: o.priority == (if o.kind == Realtime.Bill then Realtime.High else Realtime.Normal)
    ensures forall i, j | 0 <= i < j < |CallOptions| :: CallOptions[i].kind != CallOptions[j].kind
    ensures forall o | o in CallOptions :: o.kind != Realtime.Complaint
  {
  }

  /** The dialog's own state: the selected option and the typed message. */
  datatype Form = Form(selected: Option<CallOption>, message: string)

  const Blank := Form(None, "")

  /** `customMessage.trim() || undefined`. */
  function CallMessage(typed: string): (m: Option<string>)
    ensures m.None? <==> AllWhitespace(typed)
    ensures m.Some? ==> m.value == Trim(typed) && m.value != ""
  {
    var t := Trim(typed);
    if t == "" then None else Some(t)
  }

  /** The result of pressing the call button. */
  datatype Called = Called(step: Realtime.Step<Realtime.Call>, form: Form, closed: bool, toast: (string, string))

  /** `handleCall()` for the given table: nothing without a selection; otherwise one pending
      call with the option's type and priority, then the dialog closes and resets. */
  function HandleCall(s: Realtime.Service, form: Form, table: int, now: int, suffix: string): (r: Option<Called>)
    ensures r.None? <==> form.selected.None?
    ensures r.Some? ==>
      var c := r.value.step.value;
      && c.tableNumber == table && c.status == Realtime.CallPending
      && c.kind == form.selected.value.kind && c.priority == form.selected.value.priority
      && c.message == CallMessage(form.message)
      && r.value.step.service.store.calls == Realtime.Json(Realtime.GetCalls(s.store) + [c])
      && r.value.form == Blank && r.value.closed
    ensures r.Some? ==> r.value.toast.1 == "Seu pedido foi enviado. Um garçom atenderá a Mesa " + IntToString(table) + " em breve."
  {
    match form.selected
    case None => None
    case Some(option) =>
      var draft := Realtime.CallDraft(table, option.kind, CallMessage(form.message), option.priority, Realtime.CallPending);
      Some(Called(Realtime.AddCall(s, draft, now, suffix), Blank, true,
                  ("Garçom chamado!", "Seu pedido foi enviado. Um garçom atenderá a Mesa " + IntToString(table) + " em breve.")))
  }

  /** A message of blanks is sent as no message; a message with text is sent trimmed, so
      sending it again after trimming gives the same call message. */
  lemma CallMessageIdempotent(typed: string)
    ensures CallMessage(typed).Some? ==> CallMessage(CallMessage(typed).value) == CallMessage(typed)
  {
    if !AllWhitespace(typed) {
      TrimOfTrimmed(Trim(typed));
    }
  }
}

=== FILE: client_cart.dfy ===
/** The customer menu with a merge-by-id cart (`src/pages/client/ClientMenu.tsx`):
    the product filter, adding (merging quantities), removing and re-quantifying
    cart lines, the cart totals, and the two guarded actions (checkout and the
    waiter call). Navigation and toasts are returned as values, a toast as a
    (title, description) pair. */
module ClientCart {
  import opened Wrappers
  import opened Text
  import Seqs
  import MockApi

  type Product = MockApi.Product

  /** A cart line: the product as added, its quantity and optional observations. */
  datatype CartItem = CartItem(product: Product, quantity: int, observations: Option<string>)

  /** No two lines share a product id. */
  predicate UniqueIds(cart: seq<CartItem>) {
    forall i, j | 0 <= i < j < |cart| :: cart[i].product.id != cart[j].product.id
  }

  function HasProductId(id: string): CartItem -> bool { (c: CartItem) => c.product.id == id }
  function OtherThan(id: string): CartItem -> bool { (c: CartItem) => c.product.id != id }
  function AddQuantity(q: int): CartItem -> CartItem { (c: CartItem) => c.(quantity := c.quantity + q) }
  function SetQuantity(q: int): CartItem -> CartItem { (c: CartItem) => c.(quantity := q) }
  function LineTotal(c: CartItem): real { c.product.price * c.quantity as real }
  function Quantity(c: CartItem): int { c.quantity }

  const Categories: seq<string> := ["Todos", "Lanches", "Pizzas", "Saladas", "Peixes", "Bebidas"]

  /** `filteredProducts`: available products of the selected category (`Todos` for all)
      whose name contains the search text, ignoring case. */
  function FilteredProducts(products: seq<Product>, category: string, query: string): (r: seq<Product>)
    ensures forall p :: p in r <==>
      p in products && p.available && ContainsIgnoringCase(p.name, query) && (category == "Todos" || p.category == category)
    ensures Seqs.Filter(products, Listed(category, query)) == r
  {
    Seqs.Filter(products, Listed(category, query))
  }

  function Listed(category: string, query: string): Product -> bool {
    (p: Product) => (category == "Todos" || p.category == category) && ContainsIgnoringCase(p.name, query) && p.available
  }

  /** `addToCart(product, quantity)` (the quantity defaults to 1 at the call sites): a product
      already in the cart has its line's quantity raised, otherwise a new line is appended. */
  function AddToCart(cart: seq<CartItem>, p: Product, quantity: int): (r: seq<CartItem>)
    ensures (exists i | 0 <= i < |cart| :: cart[i].product.id == p.id) ==>
      |r| == |cart| &&
      forall i | 0 <= i < |cart| ::
        r[i] == if cart[i].product.id == p.id then cart[i].(quantity := cart[i].quantity + quantity) else cart[i]
    ensures (forall i | 0 <= i < |cart| :: cart[i].product.id != p.id) ==> r == cart + [CartItem(p, quantity, None)]
    ensures UniqueIds(cart) ==> UniqueIds(r)
  {
    if Seqs.Find(cart, HasProductId(p.id)).Some? then
      Seqs.MapWhere(cart, HasProductId(p.id), AddQuantity(quantity))
    else
      cart + [CartItem(p, quantity, None)]
  }

  /** What `addToCart` leaves on the page: the cart, the toast and the product dialog's
      selection, which it clears. */
  datatype Added = Added(cart: seq<CartItem>, toast: (string, string), selected: Option<Product>)

  /** `addToCart(product, quantity)` as a whole: the cart update, a toast naming the product
      and the product dialog closed. */
  function HandleAddToCart(cart: seq<CartItem>, p: Product, quantity: int): (r: Added)
    ensures r.cart == AddToCart(cart, p, quantity)
    ensures UniqueIds(cart) ==> UniqueIds(r.cart) && CartItemCount(r.cart) == CartItemCount(cart) + quantity
    ensures r.toast == ("Item adicionado", p.name + " foi adicionado ao carrinho")
    ensures r.selected.None?
  {
    CountAfterAdd(cart, p, quantity);
    Added(AddToCart(cart, p, quantity), ("Item adicionado", p.name + " foi adicionado ao carrinho"), None)
  }

  lemma CountAfterAdd(cart: seq<CartItem>, p: Product, quantity: int)
    ensures UniqueIds(cart) ==> CartItemCount(AddToCart(cart, p, quantity)) == CartItemCount(cart) + quantity
  {
    if UniqueIds(cart) {
      AddToCartCount(cart, p, quantity);
    }
  }

  /** `removeFromCart(productId)`: drops the lines with that id and keeps the rest in order. */
  function RemoveFromCart(cart: seq<CartItem>, id: string): (r: seq<CartItem>)
    ensures forall c :: c in r <==> c in cart && c.product.id != id
    ensures (forall i | 0 <= i < |cart| :: cart[i].product.id != id) ==> r == cart
  {
    NoMatchKeepsAll(cart, id);
    Seqs.Filter(cart, OtherThan(id))
  }

  lemma NoMatchKeepsAll(cart: seq<CartItem>, id: string)
    ensures (forall i | 0 <= i < |cart| :: cart[i].product.id != id) ==> Seqs.Filter(cart, OtherThan(id)) == cart
  {
    if forall i | 0 <= i < |cart| :: cart[i].product.id != id {
      Seqs.FilterAllPass(cart, OtherThan(id));
    }
  }

  /** In a cart with one line for `x`'s product, removing it leaves exactly the other lines, in order. */
  lemma RemoveOneLine(a: seq<CartItem>, x: CartItem, b: seq<CartItem>)
    requires forall i | 0 <= i < |a| :: a[i].product.id != x.product.id
    requires forall i | 0 <= i < |b| :: b[i].product.id != x.product.id
    ensures RemoveFromCart(a + [x] + b, x.product.id) == a + b
  {
    var p := OtherThan(x.product.id);
    assert forall i | 0 <= i < |a| :: p(a[i]);
    assert forall i | 0 <= i < |b| :: p(b[i]);
    Seqs.FilterAllPass(a, p);
    Seqs.FilterAllPass(b, p);
    Seqs.FilterStep([x], p);
    assert Seqs.Filter([x], p) == [] by { assert [x][1..] == []; }
    Seqs.FilterAppend(a, [x], p);
    assert Seqs.Filter(a + [x], p) == a;
    Seqs.FilterAppend(a + [x], b, p);
  }

  /** `updateQuantity(productId, n)`: n ≤ 0 removes the line; otherwise only that line's quantity changes. */
  function UpdateQuantity(cart: seq<CartItem>, id: string, n: int): (r: seq<CartItem>)
    ensures n <= 0 ==> r == RemoveFromCart(cart, id)
    ensures n > 0 ==>
      |r| == |cart| &&
      forall i | 0 <= i < |cart| :: r[i] == if cart[i].product.id == id then cart[i].(quantity := n) else cart[i]
    ensures n > 0 && UniqueIds(cart) ==> UniqueIds(r)
  {
    if n <= 0 then RemoveFromCart(cart, id)
    else Seqs.MapWhere(cart, HasProductId(id), SetQuantity(n))
  }

  /** `cartTotal`: the sum of price times quantity over the lines. */
  function CartTotal(cart: seq<CartItem>): (total: real)
    ensures cart == [] ==> total == 0.0
    ensures (forall i | 0 <= i < |cart| :: cart[i].product.price >= 0.0 && cart[i].quantity >= 0) ==> total >= 0.0
  {
    LineTotalsNonNegative(cart);
    Seqs.SumReal(cart, LineTotal)
  }

  /** `cartItemCount`: the sum of the quantities. Lines only ever hold a quantity of at
      least 1, so the badge shows at least the number of lines. */
  function CartItemCount(cart: seq<CartItem>): (n: int)
    ensures cart == [] ==> n == 0
    ensures (forall i | 0 <= i < |cart| :: cart[i].quantity >= 1) ==> n >= |cart|
  {
    Seqs.SumIntAtLeastLength(cart, Quantity);
    Seqs.SumInt(cart, Quantity)
  }

  lemma LineTotalsNonNegative(cart: seq<CartItem>)
    ensures (forall i | 0 <= i < |cart| :: cart[i].product.price >= 0.0 && cart[i].quantity >= 0) ==>
      Seqs.SumReal(cart, LineTotal) >= 0.0
  {
    if forall i | 0 <= i < |cart| :: cart[i].product.price >= 0.0 && cart[i].quantity >= 0 {
      forall i | 0 <= i < |cart| ensures LineTotal(cart[i]) >= 0.0 {
        assert cart[i].product.price * cart[i].quantity as real >= 0.0;
      }
      Seqs.SumRealNonNegative(cart, LineTotal);
    }
  }

  /** The price on the cart line of `p`'s product, or `p`'s own price when it has no line. */
  function PriceInCart(cart: seq<CartItem>, p: Product): real {
    match Seqs.Find(cart, HasProductId(p.id))
    case Some(c) => c.product.price
    case None => p.price
  }

  /** With unique ids, adding to an existing line changes that one line only. */
  lemma AddToExistingLine(cart: seq<CartItem>, p: Product, quantity: int, k: nat)
    requires UniqueIds(cart) && k < |cart| && cart[k].product.id == p.id
    ensures AddToCart(cart, p, quantity) == cart[k := cart[k].(quantity := cart[k].quantity + quantity)]
    ensures PriceInCart(cart, p) == cart[k].product.price
  {
  }

  /** Adding `quantity` of a product raises the item count by `quantity`. */
  lemma AddToCartCount(cart: seq<CartItem>, p: Product, quantity: int)
    requires UniqueIds(cart)
    ensures CartItemCount(AddToCart(cart, p, quantity)) == CartItemCount(cart) + quantity
  {
    if k :| 0 <= k < |cart| && cart[k].product.id == p.id {
      AddToExistingLine(cart, p, quantity, k);
      Seqs.SumIntUpdate(cart, k, cart[k].(quantity := cart[k].quantity + quantity), Quantity);
    } else {
      Seqs.SumIntAppend(cart, [CartItem(p, quantity, None)], Quantity);
    }
  }

  /** Adding `quantity` of a product raises the total by `quantity` times the price on the
      product's line, or the product's own price for a new line. */
  lemma AddToCartTotal(cart: seq<CartItem>, p: Product, quantity: int)
    requires UniqueIds(cart)
    ensures CartTotal(AddToCart(cart, p, quantity)) == CartTotal(cart) + PriceInCart(cart, p) * quantity as real
  {
    if k :| 0 <= k < |cart| && cart[k].product.id == p.id {
      AddToExistingLine(cart, p, quantity, k);
      AddToExistingTotal(cart, p, quantity, k);
    } else {
      AddToNewLineTotal(cart, p, quantity);
    }
  }

  lemma AddToExistingTotal(cart: seq<CartItem>, p: Product, quantity: int, k: nat)
    requires UniqueIds(cart) && k < |cart| && cart[k].product.id == p.id
    ensures CartTotal(AddToCart(cart, p, quantity)) == CartTotal(cart) + cart[k].product.price * quantity as real
  {
    AddToExistingLine(cart, p, quantity, k);
    RaiseLineTotal(cart, k, quantity);
  }

  /** Raising one line's quantity raises the total by that line's price times the raise. */
  lemma RaiseLineTotal(cart: seq<CartItem>, k: nat, quantity: int)
    requires k < |cart|
    ensures Seqs.SumReal(cart[k := cart[k].(quantity := cart[k].quantity + quantity)], LineTotal) ==
      Seqs.SumReal(cart, LineTotal) + cart[k].product.price * quantity as real
  {
    var c := cart[k];
    assert (c.quantity + quantity) as real == c.quantity as real + quantity as real;
    assert LineTotal(c.(quantity := c.quantity + quantity)) == LineTotal(c) + c.product.price * quantity as real;
    Seqs.SumRealUpdate(cart, k, c.(quantity := c.quantity + quantity), LineTotal);
  }

  lemma AddToNewLineTotal(cart: seq<CartItem>, p: Product, quantity: int)
    requires forall k | 0 <= k < |cart| :: cart[k].product.id != p.id
    ensures CartTotal(AddToCart(cart, p, quantity)) == CartTotal(cart) + PriceInCart(cart, p) * quantity as real
  {
    var line := CartItem(p, quantity, None);
    assert AddToCart(cart, p, quantity) == cart + [line];
    assert PriceInCart(cart, p) == p.price;
    assert Seqs.SumReal([line], LineTotal) == LineTotal(line);
    Seqs.SumRealAppend(cart, [line], LineTotal);
  }

  /** `handleCheckout`: nothing for an empty cart, otherwise the checkout page. */
  function Checkout(cart: seq<CartItem>): (target: Option<string>)
    ensures target.None? <==> cart == []
    ensures target.Some? ==> target.value == "/client/checkout"
  {
    if |cart| == 0 then None else Some("/client/checkout")
  }

  /** What a waiter call leaves: the API's reply, the toast and whether the call modal is open. */
  datatype Called = Called(reply: MockApi.Reply<MockApi.Call>, toast: (string, string), modalOpen: bool)

  /** `handleCallWaiter(reason, message)`: without a table session nothing happens; otherwise
      an open call for the table goes to `mockApi.createCall`, which refuses it while the
      table already has an open call. A created call closes the modal with a success toast;
      a refusal raises an error toast with the thrown message and leaves the modal as it was. */
  function CallWaiter(db: MockApi.Db, table: Option<MockApi.Table>, reason: MockApi.Reason, message: Option<string>,
                      freshId: string, now: int, modalOpen: bool): (r: Option<Called>)
    ensures r.None? <==> table.None?
    ensures r.Some? ==>
      (r.value.reply.result.Failure? <==> exists c | c in db.calls :: c.tableId == table.value.id && c.status == MockApi.Open)
    ensures r.Some? && r.value.reply.result.Failure? ==>
      && r.value.reply.db == db && r.value.reply.posts == []
      && r.value.toast == ("Erro ao chamar garçom", MockApi.OpenCallExists) && r.value.modalOpen == modalOpen
    ensures r.Some? && r.value.reply.result.Success? ==>
      var c := r.value.reply.result.value;
      && c.tableId == table.value.id && c.status == MockApi.Open && c.reason == reason && c.message == message
      && r.value.reply.db.calls == db.calls + [c]
      && r.value.toast == ("Garçom chamado", "Seu chamado foi enviado com sucesso!") && !r.value.modalOpen
  {
    if table.None? then None
    else
      var reply := MockApi.CreateCall(db, MockApi.CallDraft(table.value.id, reason, message, MockApi.Open, None, None, None),
                                      freshId, now);
      match reply.result
      case Success(_) => Some(Called(reply, ("Garçom chamado", "Seu chamado foi enviado com sucesso!"), false))
      case Failure(e) => Some(Called(reply, ("Erro ao chamar garçom", e), modalOpen))
  }
}

=== FILE: client_checkout.dfy ===
/** The customer checkout page (`src/pages/client/ClientCheckout.tsx`): subtotal,
    10% service charge and total over the page's cart, and the order it submits
    through `mockApi.createOrder`. The page reads a fixed demo cart; the model
    takes any cart and also states the figures of that demo cart. */
module ClientCheckout {
  import opened Wrappers
  import Seqs
  import MockApi

  /** A line of the checkout cart. */
  datatype Line = Line(id: string, name: string, price: real, quantity: int)

  /** The page's `mockCart`. */
  const MockCart: seq<Line> := [Line("prod_1", "Hambúrguer Artesanal", 32.90, 2), Line("prod_5", "Coca-Cola 350ml", 8.90, 2)]

  function LineTotal(l: Line): real { l.price * l.quantity as real }

  /** `subtotal`: Σ price × quantity. */
  function Subtotal(cart: seq<Line>): real {
    Seqs.SumReal(cart, LineTotal)
  }

  /** `serviceCharge` (10% of the subtotal) and `total`. */
  function Totals(cart: seq<Line>): (r: (real, real))
    ensures r.0 * 10.0 == Subtotal(cart)
    ensures r.1 == Subtotal(cart) + r.0
    ensures r.1 * 10.0 == Subtotal(cart) * 11.0
  {
    var subtotal := Subtotal(cart);
    var service := subtotal * 0.1;
    (service, subtotal + service)
  }

  /** The demo cart comes to 83.60 before service, 8.36 service and 91.96 in total. */
  lemma MockCartTotals()
    ensures Subtotal(MockCart) == 83.60
    ensures Totals(MockCart) == (8.36, 91.96)
  {
    assert MockCart[1..][1..] == [];
  }

  /** The order items: one per line, with its product id and quantity and the shared observations text. */
  function OrderItems(cart: seq<Line>, observations: string): (items: seq<MockApi.OrderItem>)
    ensures |items| == |cart|
    ensures forall i | 0 <= i < |cart| ::
      items[i].productId == cart[i].id && items[i].quantity == cart[i].quantity &&
      items[i].observations == Some(observations) && items[i].extras.None?
  {
    seq(|cart|, i requires 0 <= i < |cart| => MockApi.OrderItem(cart[i].id, cart[i].quantity, Some(observations), None))
  }

  /** What a submit does: the reply of `createOrder`, the toast as a (title, description)
      pair, and where the page navigates. */
  datatype Submitted = Submitted(reply: MockApi.Reply<MockApi.Order>, toast: (string, string), navigate: string)

  /** `handleSubmitOrder()`: without a table session nothing is created; otherwise a `new`
      order for the table with the computed total is appended and the page moves to its
      status page with a toast saying the kitchen received it. */
  function SubmitOrder(db: MockApi.Db, table: Option<MockApi.Table>, cart: seq<Line>, observations: string,
                       freshId: string, now: int): (r: Option<Submitted>)
    ensures r.None? <==> table.None?
    ensures r.Some? ==> r.value.reply.result.Success?
    ensures r.Some? && r.value.reply.result.Success? ==>
      var o := r.value.reply.result.value;
      o.tableId == table.value.id && o.status == MockApi.New && o.total == Totals(cart).1 &&
      o.items == OrderItems(cart, observations) && o.id == freshId && o.createdAt == now &&
      r.value.reply.db.orders == db.orders + [o] &&
      r.value.navigate == "/client/order-status/" + o.id &&
      r.value.toast == ("Pedido enviado!", "Seu pedido foi recebido pela cozinha")
  {
    if table.None? then None
    else
      var draft := MockApi.OrderDraft(table.value.id, OrderItems(cart, observations), MockApi.New, Totals(cart).1, None);
      var reply := MockApi.CreateOrder(db, draft, freshId, now);
      Some(Submitted(reply, ("Pedido enviado!", "Seu pedido foi recebido pela cozinha"), "/client/order-status/" + reply.result.value.id))
  }
}

=== FILE: client_order_status.dfy ===
/** The customer's order-status page (`src/pages/client/ClientOrderStatus.tsx`):
    the status order and its timeline, the refresh from the realtime store with
    its change notification, the initial load with its not-found path, and the
    "new order" action. Toasts and navigation are returned as values. */
module ClientOrderStatus {
  import opened Wrappers
  import Seqs
  import MockApi

  type Order = MockApi.Order

  function StatusName(s: MockApi.OrderStatus): string {
    match s
    case New => "new"
    case Preparing => "preparing"
    case Ready => "ready"
    case Delivered => "delivered"
  }

  /** `Object.keys(statusConfig)`: the statuses in the order the page lists them. */
  const StatusKeys: seq<string> := ["new", "preparing", "ready", "delivered"]

  /** The label and description `statusConfig` holds for a status. */
  datatype StatusText = StatusText(title: string, description: string)

  function StatusConfig(s: MockApi.OrderStatus): StatusText {
    match s
    case New => StatusText("Recebido", "Seu pedido foi recebido")
    case Preparing => StatusText("Em preparo", "Nossa cozinha está preparando seu pedido")
    case Ready => StatusText("Pronto", "Seu pedido está pronto!")
    case Delivered => StatusText("Entregue", "Pedido entregue em sua mesa")
  }

  /** `Object.keys(statusConfig).indexOf(order.status)`: every status is found, at its own place. */
  function StatusIndex(s: MockApi.OrderStatus): (i: nat)
    ensures Seqs.IndexOf(StatusKeys, StatusName(s)) == Some(i)
  {
    match s
    case New => 0
    case Preparing => 1
    case Ready => 2
    case Delivered => 3
  }

  /** The statuses are ordered new < preparing < ready < delivered. */
  lemma StatusOrder()
    ensures StatusIndex(MockApi.New) == 0 && StatusIndex(MockApi.Preparing) == 1
    ensures StatusIndex(MockApi.Ready) == 2 && StatusIndex(MockApi.Delivered) == 3
  {
  }

  /** One row of the timeline. */
  datatype Step = Step(status: string, text: StatusText, completed: bool, current: bool)

  /** The timeline for an order in status `s`: one row per status key, those up to the
      current index completed, the one at it current. */
  function Timeline(s: MockApi.OrderStatus): (rows: seq<Step>)
    ensures |rows| == |StatusKeys|
    ensures forall i | 0 <= i < |rows| :: rows[i].status == StatusKeys[i]
    ensures forall i | 0 <= i < |rows| :: rows[i].completed <==> i <= StatusIndex(s)
    ensures forall i | 0 <= i < |rows| :: rows[i].current <==> i == StatusIndex(s)
  {
    var k := StatusIndex(s);
    seq(|StatusKeys|, i requires 0 <= i < |StatusKeys| =>
      Step(StatusKeys[i], StatusConfig([MockApi.New, MockApi.Preparing, MockApi.Ready, MockApi.Delivered][i]),
           i <= k, i == k))
  }

  /** Exactly one row is current, it is the row of the order's own status, and every
      completed row comes before every pending row. */
  lemma TimelineShape(s: MockApi.OrderStatus)
    ensures var rows := Timeline(s);
      (exists i | 0 <= i < |rows| :: rows[i].current && rows[i].status == StatusName(s)) &&
      (forall i, j | 0 <= i < |rows| && 0 <= j < |rows| && rows[i].current && rows[j].current :: i == j) &&
      (forall i, j | 0 <= i < j < |rows| && rows[j].completed :: rows[i].completed)
  {
    var rows := Timeline(s);
    assert rows[StatusIndex(s)].current;
  }

  // ---------------------------------------------------------------------
  // Loading and refreshing

  /** The outcome of `loadOrder()`: nothing to do without an id (loading stays on), the
      order found, or the not-found toast and a redirect to the menu. */
  datatype Load = NoId | Loaded(order: Order) | NotFound(toast: (string, string), redirect: string)

  function HasId(id: string): Order -> bool { (o: Order) => o.id == id }

  /** `loadOrder()` over the orders `mockApi.getOrders()` returns. */
  function LoadOrder(allOrders: seq<Order>, orderId: Option<string>): (r: Load)
    ensures orderId.None? || orderId == Some("") <==> r.NoId?
    ensures r.Loaded? ==> exists i | 0 <= i < |allOrders| ::
      allOrders[i] == r.order && r.order.id == orderId.value && forall j | 0 <= j < i :: allOrders[j].id != orderId.value
    ensures r.NotFound? <==> !r.NoId? && forall o | o in allOrders :: o.id != orderId.value
    ensures r.NotFound? ==> r == NotFound(("Erro ao carregar pedido", "Pedido não encontrado"), "/client/menu")
  {
    if orderId.None? || orderId.value == "" then NoId
    else match Seqs.Find(allOrders, HasId(orderId.value))
      case Some(o) => Loaded(o)
      case None =>
        assert forall o | o in allOrders :: o.id != orderId.value;
        NotFound(("Erro ao carregar pedido", "Pedido não encontrado"), "/client/menu")
  }

  /** What the realtime effect does: the order to show and the notification to raise. */
  datatype Refresh = Refresh(order: Option<Order>, toast: Option<StatusText>)

  /** The effect on `[orders, orderId, order]`: with an id, the first store order with
      that id replaces the shown one, and a toast announces the new status when an order
      was shown before and its status differs; with no id or no match the shown order stays. */
  function OnOrdersChanged(orders: seq<Order>, orderId: Option<string>, shown: Option<Order>): (r: Refresh)
    ensures r.toast.Some? <==>
      |orders| > 0 && orderId.Some? && orderId.value != "" && shown.Some? &&
      exists i | 0 <= i < |orders| ::
        && orders[i].id == orderId.value
        && (forall j | 0 <= j < i :: orders[j].id != orderId.value)
        && orders[i].status != shown.value.status
    ensures (orderId.Some? && orderId.value != "" && exists i | 0 <= i < |orders| :: orders[i].id == orderId.value) ==>
      r.order.Some? && exists i | 0 <= i < |orders| ::
        && orders[i] == r.order.value
        && orders[i].id == orderId.value
        && (forall j | 0 <= j < i :: orders[j].id != orderId.value)
    ensures !(orderId.Some? && orderId.value != "" && exists i | 0 <= i < |orders| :: orders[i].id == orderId.value) ==>
      r.order == shown && r.toast.None?
    ensures r.order != shown ==>
      orderId.Some? && r.order.Some? && r.order.value in orders && r.order.value.id == orderId.value
    ensures r.toast.Some? ==> r.toast == Some(StatusConfig(r.order.value.status))
  {
    if |orders| > 0 && orderId.Some? && orderId.value != "" then
      match Seqs.Find(orders, HasId(orderId.value))
      case Some(o) =>
        Refresh(Some(o), if shown.Some? && o.status != shown.value.status then Some(StatusConfig(o.status)) else None)
      case None => Refresh(shown, None)
    else Refresh(shown, None)
  }

  /** The effect runs again once it has set the order (`order` is one of its dependencies):
      that second run keeps the order and raises no second toast. */
  lemma OneToastPerChange(orders: seq<Order>, orderId: Option<string>, shown: Option<Order>)
    ensures var first := OnOrdersChanged(orders, orderId, shown);
      var second := OnOrdersChanged(orders, orderId, first.order);
      second.order == first.order && second.toast.None?
  {
  }

  /** The "new order" action is offered only once the order is delivered. */
  function NewOrderAction(s: MockApi.OrderStatus): (target: Option<string>)
    ensures target.Some? <==> s == MockApi.Delivered
    ensures target.Some? ==> target.value == "/client/menu"
  {
    if s == MockApi.Delivered then Some("/client/menu") else None
  }
}

=== FILE: codec.dfy ===
/** The serialisation the application gets from `JSON.stringify` + `btoa` and
    undoes with `atob` + `JSON.parse`, modelled as an injective encoding of a
    list of text fields: each field is written as its length in decimal, a
    colon, then the field itself. Only the properties the application relies on
    matter here: decoding an encoding gives back the fields, and distinct field
    lists have distinct encodings. */
module Codec {
  import opened Wrappers
  import opened Text

  /** One field: `<length>:<text>`. */
  function Frame(f: string): string {
    NatToString(|f|) + ":" + f
  }

  /** The fields, framed one after the other. */
  function Encode(fields: seq<string>): (s: string)
    ensures |fields| == 0 <==> s == ""
    decreases |fields|
  {
    if |fields| == 0 then "" else Frame(fields[0]) + Encode(fields[1..])
  }

  /** Reads framed fields until the text is used up; `None` when the text is not a
      sequence of frames (JSON.parse or atob would throw). */
  function Decode(s: string): (r: Option<seq<string>>)
    ensures s == "" ==> r == Some([])
    decreases |s|
  {
    if s == "" then Some([])
    else
      var d := LeadingDigits(s);
      if |d| == 0 || |d| == |s| || s[|d|] != ':' then None
      else
        var n := DigitsValue(d);
        var body := s[|d| + 1..];
        if n > |body| then None
        else match Decode(body[n..])
          case None => None
          case Some(rest) => Some([body[..n]] + rest)
  }

  /** Decoding an encoding gives back exactly the encoded fields. */
  lemma {:induction false} DecodeEncode(fields: seq<string>)
    ensures Decode(Encode(fields)) == Some(fields)
    decreases |fields|
  {
    if |fields| > 0 {
      DecodeEncode(fields[1..]);
      DecodeFrame(fields[0], Encode(fields[1..]));
      assert [fields[0]] + fields[1..] == fields;
    }
  }

  /** A leading frame is read as one field, and decoding continues after it. */
  lemma DecodeFrame(f: string, tail: string)
    ensures Decode(Frame(f) + tail) ==
      match Decode(tail)
      case None => None
      case Some(rest) => Some([f] + rest)
  {
    var d := NatToString(|f|);
    var s := Frame(f) + tail;
    assert s == d + (":" + f + tail);
    LeadingDigitsStopsAt(d, ":" + f + tail);
    DigitsValueOfNatToString(|f|);
    assert s[|d|] == ':';
    assert s[|d| + 1..] == f + tail;
    DecodeAt(s, d, f, tail);
  }

  /** A text made of digits `d`, a colon, then `f` of the length `d` gives and `tail`, is read
      as the field `f` followed by the fields of `tail`. */
  lemma DecodeAt(s: string, d: string, f: string, tail: string)
    requires LeadingDigits(s) == d && 0 < |d| < |s| && s[|d|] == ':'
    requires DigitsValue(d) == |f| && s[|d| + 1..] == f + tail
    ensures Decode(s) ==
      match Decode(tail)
      case None => None
      case Some(rest) => Some([f] + rest)
  {
    var body := s[|d| + 1..];
    assert body[..|f|] == f && body[|f|..] == tail;
  }

  /** Distinct field lists have distinct encodings. */
  lemma EncodeInjective(a: seq<string>, b: seq<string>)
    ensures Encode(a) == Encode(b) ==> a == b
  {
    DecodeEncode(a);
    DecodeEncode(b);
  }

  // ---------------------------------------------------------------------
  // Field encodings for optional and numeric values

  /** An absent field (dropped by `JSON.stringify`) is the empty text; a present
      one is marked with a leading `=`. */
  function EncodeOptional(v: Option<string>): (f: string)
    ensures v.None? <==> f == ""
  {
    match v
    case None => ""
    case Some(x) => "=" + x
  }

  function DecodeOptional(f: string): (r: Option<Option<string>>)
    ensures f == "" ==> r == Some(None)
  {
    if f == "" then Some(None)
    else if f[0] == '=' then Some(Some(f[1..]))
    else None
  }

  lemma DecodeEncodeOptional(v: Option<string>)
    ensures DecodeOptional(EncodeOptional(v)) == Some(v)
  {
    if v.Some? {
      assert EncodeOptional(v)[1..] == v.value;
    }
  }

  /** An optional integer field, written in decimal. */
  function EncodeOptionalInt(v: Option<int>): (f: string)
    ensures v.None? <==> f == ""
  {
    match v
    case None => ""
    case Some(x) => "=" + IntToString(x)
  }

  function DecodeOptionalInt(f: string): (r: Option<Option<int>>)
    ensures f == "" ==> r == Some(None)
  {
    if f == "" then Some(None)
    else if f[0] == '=' then
      match ParseDecimal(f[1..])
      case None => None
      case Some(x) => Some(Some(x))
    else None
  }

  lemma DecodeEncodeOptionalInt(v: Option<int>)
    ensures DecodeOptionalInt(EncodeOptionalInt(v)) == Some(v)
  {
    if v.Some? {
      assert EncodeOptionalInt(v)[1..] == IntToString(v.value);
      ParseDecimalOfIntToString(v.value);
    }
  }
}

=== FILE: dashboard.dfy ===
/** The analytics helpers (`src/mocks/dashboard.ts`): growth rate, trend and heat-map
    colours, the busy hours, the peak hour, the revenue total and the average order
    value. The module-level series the helpers read are passed in. */
module Dashboard {
  import opened Wrappers
  import Seqs
  import opened JsObject

  datatype ChangeType = Increase | Decrease | Neutral

  /** `KPI` (icon and colour are display only). */
  datatype Kpi = Kpi(id: string, title: string, value: real, unit: string, change: real, changeType: ChangeType)

  /** One point of `mockSalesByHour`. */
  datatype HourPoint = HourPoint(name: string, value: real, hour: int)

  /** `mockKPIs`. */
  const SeedKpis: seq<Kpi> := [
    Kpi("revenue", "Vendas Hoje", 12450.80, "R$", 8.2, Increase),
    Kpi("orders", "Pedidos", 147.0, "", 12.5, Increase),
    Kpi("avg_ticket", "Ticket Médio", 84.70, "R$", -3.1, Decrease),
    Kpi("prep_time", "Tempo Médio", 18.5, "min", -5.2, Decrease),
    Kpi("customer_satisfaction", "Satisfação", 4.7, "/5.0", 2.1, Increase),
    Kpi("tables_occupied", "Ocupação", 68.0, "%", 15.3, Increase)
  ]

  /** `mockSalesByHour`. */
  const SeedSalesByHour: seq<HourPoint> := [
    HourPoint("08:00", 245.0, 8), HourPoint("09:00", 380.0, 9), HourPoint("10:00", 520.0, 10),
    HourPoint("11:00", 890.0, 11), HourPoint("12:00", 1450.0, 12), HourPoint("13:00", 1890.0, 13),
    HourPoint("14:00", 1620.0, 14), HourPoint("15:00", 980.0, 15), HourPoint("16:00", 650.0, 16),
    HourPoint("17:00", 420.0, 17), HourPoint("18:00", 780.0, 18), HourPoint("19:00", 1250.0, 19),
    HourPoint("20:00", 1680.0, 20), HourPoint("21:00", 1420.0, 21), HourPoint("22:00", 890.0, 22),
    HourPoint("23:00", 320.0, 23)
  ]

  // ---------------------------------------------------------------------
  // Rates and colours

  /** `calculateGrowthRate(current, previous)`: percentage change, 0 when there is no previous value. */
  function GrowthRate(current: real, previous: real): (r: real)
    ensures previous == 0.0 ==> r == 0.0
    ensures previous != 0.0 ==> r * previous == (current - previous) * 100.0
  {
    if previous == 0.0 then 0.0 else (current - previous) / previous * 100.0
  }

  /** Growth is positive exactly when a positive previous value was exceeded. */
  lemma GrowthSign(current: real, previous: real)
    requires previous > 0.0
    ensures GrowthRate(current, previous) > 0.0 <==> current > previous
    ensures GrowthRate(current, previous) == 0.0 <==> current == previous
  {
    var r := GrowthRate(current, previous);
    assert r * previous == (current - previous) * 100.0;
    if r > 0.0 { assert r * previous > 0.0; }
    if current > previous { assert r * previous > 0.0; }
    if r == 0.0 { assert r * previous == 0.0; }
  }

  /** `getKPIIcon(id)`: one icon per known KPI id, the chart icon for any other id that
      the object literal does not inherit; an inherited name reads the inherited member. */
  function KpiIcon(id: string): (icon: JsObject.Value)
    ensures icon.Inherited? <==> id in JsObject.PrototypeNames
    ensures icon.Inherited? ==> icon.name == id
    ensures id == "revenue" ==> icon == Own("💰")
    ensures id == "orders" ==> icon == Own("📋")
    ensures id == "avg_ticket" ==> icon == Own("🎫")
    ensures id == "prep_time" ==> icon == Own("⏱️")
    ensures id == "customer_satisfaction" ==> icon == Own("⭐")
    ensures id == "tables_occupied" ==> icon == Own("🪑")
    ensures icon == Own("📊") <==>
      id !in JsObject.PrototypeNames &&
      id != "revenue" && id != "orders" && id != "avg_ticket" && id != "prep_time" &&
      id != "customer_satisfaction" && id != "tables_occupied"
  {
    if id in JsObject.PrototypeNames then Inherited(id)
    else
      match id
      case "revenue" => Own("💰")
      case "orders" => Own("📋")
      case "avg_ticket" => Own("🎫")
      case "prep_time" => Own("⏱️")
      case "customer_satisfaction" => Own("⭐")
      case "tables_occupied" => Own("🪑")
      case _ => Own("📊")
  }

  /** Every seeded KPI has an icon of its own, none of them the fallback. */
  lemma SeedKpiIcons()
    ensures forall i | 0 <= i < |SeedKpis| :: KpiIcon(SeedKpis[i].id) != Own("📊")
    ensures forall i, j | 0 <= i < j < |SeedKpis| :: KpiIcon(SeedKpis[i].id) != KpiIcon(SeedKpis[j].id)
  {
  }

  /** `getTrendColor(changeType)`. */
  function TrendColor(t: ChangeType): (c: string)
    ensures c == "success" <==> t == Increase
    ensures c == "destructive" <==> t == Decrease
    ensures c == "muted" <==> t == Neutral
  {
    match t
    case Increase => "success"
    case Decrease => "destructive"
    case Neutral => "muted"
  }

  /** The heat-map band of an intensity: 0 for exactly 0, then one band per 20 points up to 80,
      then the full colour. */
  function HeatBand(intensity: real): (b: nat)
    ensures b <= 5
    ensures b == 0 <==> intensity == 0.0
    ensures b == 5 <==> intensity > 80.0
    ensures 0 < b < 5 ==> intensity != 0.0 && intensity <= 20.0 * b as real
    ensures 1 < b < 5 ==> intensity > 20.0 * (b - 1) as real
  {
    if intensity == 0.0 then 0
    else if intensity <= 20.0 then 1
    else if intensity <= 40.0 then 2
    else if intensity <= 60.0 then 3
    else if intensity <= 80.0 then 4
    else 5
  }

  /** `getHeatmapColor(intensity)`. */
  function HeatmapColor(intensity: real): (c: string)
    ensures c == ["bg-muted", "bg-primary/20", "bg-primary/40", "bg-primary/60", "bg-primary/80", "bg-primary"][HeatBand(intensity)]
  {
    if intensity == 0.0 then "bg-muted"
    else if intensity <= 20.0 then "bg-primary/20"
    else if intensity <= 40.0 then "bg-primary/40"
    else if intensity <= 60.0 then "bg-primary/60"
    else if intensity <= 80.0 then "bg-primary/80"
    else "bg-primary"
  }

  /** Among non-negative intensities, a higher intensity never gets a lighter band. */
  lemma HeatBandMonotone(a: real, b: real)
    requires 0.0 <= a <= b
    ensures HeatBand(a) <= HeatBand(b)
  {
  }

  // ---------------------------------------------------------------------
  // The hourly series

  function IsBusy(p: HourPoint): bool { p.value > 1000.0 }
  function HourOf(p: HourPoint): int { p.hour }
  function Itself(h: int): int { h }

  function Hours(points: seq<HourPoint>): (hs: seq<int>)
    ensures |hs| == |points|
    ensures forall i | 0 <= i < |points| :: hs[i] == points[i].hour
  {
    seq(|points|, i requires 0 <= i < |points| => points[i].hour)
  }

  /** `getBusyHours()`: the hours whose value is above 1000, ascending. */
  function BusyHours(points: seq<HourPoint>): (hs: seq<int>)
    ensures Seqs.SortedBy(hs, Itself)
    ensures multiset(hs) == multiset(Hours(Seqs.Filter(points, IsBusy)))
    ensures forall h :: h in hs <==> exists p | p in points :: p.value > 1000.0 && p.hour == h
  {
    var busy := Seqs.Filter(points, IsBusy);
    var hs := Seqs.SortByKey(Hours(busy), Itself);
    assert forall h :: h in hs <==> h in multiset(Hours(busy));
    assert forall h :: h in Hours(busy) <==> exists p | p in busy :: p.hour == h;
    hs
  }

  /** Hours strictly increasing along a series. */
  predicate HoursAscending(points: seq<HourPoint>) {
    forall i, j | 0 <= i < j < |points| :: points[i].hour < points[j].hour
  }

  /** The seeded series runs hour by hour from 8 to 23. */
  lemma SeedHoursAscending()
    ensures forall i | 0 <= i < |SeedSalesByHour| :: SeedSalesByHour[i].hour == i + 8
    ensures HoursAscending(SeedSalesByHour)
  {
  }

  /** On a series ordered by hour, the busy hours come out in series order with no hour twice. */
  lemma BusyHoursOfOrderedSeries(points: seq<HourPoint>)
    requires HoursAscending(points)
    ensures BusyHours(points) == Hours(Seqs.Filter(points, IsBusy))
    ensures forall i, j | 0 <= i < j < |BusyHours(points)| :: BusyHours(points)[i] < BusyHours(points)[j]
  {
    var busy := Seqs.Filter(points, IsBusy);
    FilterKeepsAscending(points);
    Seqs.SortByKeyOfSorted(Hours(busy), Itself);
  }

  lemma FilterKeepsAscending(points: seq<HourPoint>)
    requires HoursAscending(points)
    ensures HoursAscending(Seqs.Filter(points, IsBusy))
  {
    assert Seqs.StrictlyIncreasingBy(points, HourOf);
    Seqs.FilterKeepsStrictlyIncreasing(points, IsBusy, HourOf);
    var r := Seqs.Filter(points, IsBusy);
    assert forall i | 0 <= i < |r| :: HourOf(r[i]) == r[i].hour;
  }

  /** `getPeakHour()`'s reduction: the position of the first point with the largest value. */
  function PeakIndex(points: seq<HourPoint>): (k: nat)
    requires |points| > 0
    ensures k < |points|
    ensures forall i | 0 <= i < |points| :: points[i].value <= points[k].value
    ensures forall i | 0 <= i < k :: points[i].value < points[k].value
    decreases |points|
  {
    if |points| == 1 then 0
    else
      var k := PeakIndex(points[..|points| - 1]);
      if points[|points| - 1].value > points[k].value then |points| - 1 else k
  }

  /** `getPeakHour()`: `reduce` without a start value throws on an empty series (`None`). */
  function PeakHour(points: seq<HourPoint>): (h: Option<int>)
    ensures h.None? <==> points == []
    ensures h.Some? ==> exists k | 0 <= k < |points| ::
      && h.value == points[k].hour
      && (forall i | 0 <= i < |points| :: points[i].value <= points[k].value)
      && (forall i | 0 <= i < k :: points[i].value < points[k].value)
  {
    if |points| == 0 then None else Some(points[PeakIndex(points)].hour)
  }

  function Value(p: HourPoint): real { p.value }

  /** `getTotalRevenue()`: the sum of the hourly values. */
  function TotalRevenue(points: seq<HourPoint>): (total: real)
    ensures points == [] ==> total == 0.0
    ensures (forall i | 0 <= i < |points| :: points[i].value >= 0.0) ==> total >= 0.0
  {
    Seqs.SumRealNonNegative(points, Value);
    Seqs.SumReal(points, Value)
  }

  /** The total adds up across a split of the series, and with no negative value it is at
      least the peak. */
  lemma TotalRevenueBounds(a: seq<HourPoint>, b: seq<HourPoint>)
    ensures TotalRevenue(a + b) == TotalRevenue(a) + TotalRevenue(b)
    ensures (forall p | p in a :: p.value >= 0.0) ==> forall p | p in a :: p.value <= TotalRevenue(a)
  {
    Seqs.SumRealAppend(a, b, Value);
    if forall p | p in a :: p.value >= 0.0 {
      forall p | p in a ensures p.value <= TotalRevenue(a) {
        var k :| 0 <= k < |a| && a[k] == p;
        var before, after := a[..k], a[k + 1..];
        forall i | 0 <= i < |before| ensures before[i].value >= 0.0 { assert before[i] in a; }
        forall i | 0 <= i < |after| ensures after[i].value >= 0.0 { assert after[i] in a; }
        assert TotalRevenue(before) >= 0.0 && TotalRevenue(after) >= 0.0;
        assert a == before + [a[k]] + after;
        Seqs.SumRealAppend(a[..k] + [a[k]], a[k + 1..], Value);
        Seqs.SumRealAppend(a[..k], [a[k]], Value);
      }
    }
  }

  function HasKpiId(id: string): Kpi -> bool { (k: Kpi) => k.id == id }

  /** `getAverageOrderValue()`: revenue over the `orders` KPI's value, 0 when that KPI is missing
      or not positive. */
  function AverageOrderValue(points: seq<HourPoint>, kpis: seq<Kpi>): (r: real)
    ensures var found := Seqs.Find(kpis, HasKpiId("orders"));
      if found.Some? && found.value.value > 0.0 then r * found.value.value == TotalRevenue(points) else r == 0.0
    ensures (forall k | k in kpis :: k.id != "orders") ==> r == 0.0
  {
    match Seqs.Find(kpis, HasKpiId("orders"))
    case Some(k) => if k.value > 0.0 then TotalRevenue(points) / k.value else 0.0
    case None => 0.0
  }
}

=== FILE: elapsed.dfy ===
/** Elapsed time as the views show it. Timestamps are milliseconds since the
    epoch; whole minutes are `Math.floor(diffMs / 60000)`, which is Dafny's
    `/` because the divisor is positive. Three text forms occur:

    - compact, `"<m>m"` under an hour and `"<h>h <mm>m"` from one hour on
      (the minutes are the JavaScript remainder `minutes % 60`);
    - padded, `"<m>min"` under an hour and `"<h>h <mm>min"` from one hour on;
    - plain, as padded but without zero-padding the minutes. */
module Elapsed {
  import opened Wrappers
  import opened Text
  import Seqs

  const MsPerMinute: int := 60000

  /** `Math.floor((now - from) / 60000)`. */
  function ElapsedMinutes(from: int, now: int): (m: int)
    ensures MsPerMinute * m <= now - from < MsPerMinute * (m + 1)
  {
    (now - from) / MsPerMinute
  }

  /** The JavaScript `%` operator on integers: the remainder takes the sign of the dividend. */
  function JsRem(a: int, b: int): (r: int)
    requires b > 0
    ensures a >= 0 ==> 0 <= r < b && r == a % b
    ensures a < 0 ==> -b < r <= 0
  {
    if a >= 0 then a % b else -((-a) % b)
  }

  /** `mins.toString().padStart(2, '0')` for minutes within an hour. */
  function TwoDigits(mins: nat): (s: string)
    requires mins < 60
    ensures |s| == 2 && AllDigits(s) && DigitsValue(s) == mins
  {
    PadTwoDigits(mins);
    PadStart(NatToString(mins), 2, '0')
  }

  /** `"<h>h <mm><unit>"`, the shape every form takes from one hour on. */
  function HoursForm(h: int, mm: string, unit: string): string {
    IntToString(h) + "h " + mm + unit
  }

  /** The compact form (KDS tickets, order tickets, the mock ticket helper). */
  function Compact(minutes: int): string {
    var hours := minutes / 60;
    var mins := JsRem(minutes, 60);
    if hours > 0 then HoursForm(hours, TwoDigits(mins), "m")
    else IntToString(mins) + "m"
  }

  /** The padded form (staff console, call list, table tiles). */
  function Padded(minutes: int): string {
    if minutes < 60 then IntToString(minutes) + "min"
    else HoursForm(minutes / 60, TwoDigits(minutes % 60), "min")
  }

  /** The plain form (`getTimeElapsed`): minutes are not zero-padded. */
  function Plain(minutes: int): string {
    if minutes < 60 then IntToString(minutes) + "min"
    else HoursForm(minutes / 60, NatToString(minutes % 60), "min")
  }

  // ---------------------------------------------------------------------
  // Reading the forms back

  /** Reads `"<int><unit>"` or `"<int>h <digits><unit>"` as a number of minutes. */
  function ParseDuration(s: string, unit: string): Option<int> {
    if |unit| <= |s| && s[|s| - |unit|..] == unit then ParseClock(s[..|s| - |unit|]) else None
  }

  /** Reads `"<int>"` or `"<int>h <digits>"` as a number of minutes. */
  function ParseClock(body: string): Option<int> {
    match Seqs.IndexOf(body, 'h')
    case None => ParseDecimal(body)
    case Some(i) =>
      if i + 1 >= |body| || body[i + 1] != ' ' then None
      else
        var rest := body[i + 2..];
        if |rest| == 0 || !AllDigits(rest) then None
        else match ParseDecimal(body[..i])
          case None => None
          case Some(h) => Some(60 * h + DigitsValue(rest))
  }

  lemma ParseDurationStripsUnit(body: string, unit: string)
    ensures ParseDuration(body + unit, unit) == ParseClock(body)
  {
    var s := body + unit;
    assert s[..|s| - |unit|] == body;
    assert s[|s| - |unit|..] == unit;
  }

  /** Text of the form `<int text><unit>` is read as that integer. */
  lemma ParseNumberOnly(i: int, unit: string)
    ensures ParseDuration(IntToString(i) + unit, unit) == Some(i)
  {
    ParseDurationStripsUnit(IntToString(i), unit);
    NoLetterInIntToString(i);
    ParseDecimalOfIntToString(i);
  }

  /** `<hours text>h <digits><unit>` is read as `60 * hours + digits`. */
  lemma ParseHoursAndMinutes(h: int, mm: string, unit: string, minutes: int)
    requires |mm| > 0 && AllDigits(mm) && 60 * h + DigitsValue(mm) == minutes
    ensures ParseDuration(HoursForm(h, mm, unit), unit) == Some(minutes)
  {
    NoLetterInIntToString(h);
    ParseDecimalOfIntToString(h);
    ParseHoursText(IntToString(h), h, mm, unit, minutes);
  }

  /** `<text>h <digits><unit>` is read as `60 * hours + digits` when the text has no `h`
      and reads as `hours`. */
  lemma ParseHoursText(hs: string, h: int, mm: string, unit: string, minutes: int)
    requires 'h' !in hs && ParseDecimal(hs) == Some(h)
    requires |mm| > 0 && AllDigits(mm) && 60 * h + DigitsValue(mm) == minutes
    ensures ParseDuration(hs + "h " + mm + unit, unit) == Some(minutes)
  {
    var body := hs + "h " + mm;
    ParseDurationStripsUnit(body, unit);
    assert body[|hs|] == 'h' && body[|hs| + 1] == ' ';
    assert forall k | 0 <= k < |hs| :: body[k] == hs[k];
    Seqs.IndexOfAt(body, 'h', |hs|);
    assert body[..|hs|] == hs && body[|hs| + 2..] == mm;
    ParseClockAt(body, |hs|, h, mm, minutes);
  }

  lemma ParseClockAt(body: string, i: nat, h: int, mm: string, minutes: int)
    requires Seqs.IndexOf(body, 'h') == Some(i)
    requires i + 2 <= |body| && body[i + 1] == ' ' && body[i + 2..] == mm
    requires |mm| > 0 && AllDigits(mm) && 60 * h + DigitsValue(mm) == minutes
    requires ParseDecimal(body[..i]) == Some(h)
    ensures ParseClock(body) == Some(minutes)
  {
  }

  lemma NoLetterInIntToString(i: int)
    ensures 'h' !in IntToString(i)
  {
    var s := IntToString(i);
    if i >= 0 {
      assert forall k | 0 <= k < |s| :: IsDigit(s[k]);
    } else {
      var n := NatToString(-i);
      assert forall k | 0 <= k < |n| :: IsDigit(n[k]);
      assert s == "-" + n;
    }
  }

  lemma CompactFromOneHour(minutes: int)
    requires minutes >= 60
    ensures Compact(minutes) == HoursForm(minutes / 60, TwoDigits(minutes % 60), "m")
  {
    assert minutes / 60 > 0;
    assert JsRem(minutes, 60) == minutes % 60;
  }

  lemma PaddedFromOneHour(minutes: int)
    requires minutes >= 60
    ensures Padded(minutes) == HoursForm(minutes / 60, TwoDigits(minutes % 60), "min")
  {
    assert !(minutes < 60);
  }

  lemma HoursAndMinutesRoundTrip(minutes: int, unit: string)
    requires minutes >= 60
    ensures ParseDuration(HoursForm(minutes / 60, TwoDigits(minutes % 60), unit), unit) == Some(minutes)
  {
    ParseHoursAndMinutes(minutes / 60, TwoDigits(minutes % 60), unit, minutes);
  }

  /** The compact form tells apart every non-negative number of minutes. */
  lemma CompactRoundTrip(minutes: nat)
    ensures ParseDuration(Compact(minutes), "m") == Some(minutes)
  {
    if minutes >= 60 {
      CompactFromOneHour(minutes);
      HoursAndMinutesRoundTrip(minutes, "m");
    } else {
      assert Compact(minutes) == IntToString(minutes) + "m";
      ParseNumberOnly(minutes, "m");
    }
  }

  /** The padded form tells apart every number of minutes, negative ones included. */
  lemma PaddedRoundTrip(minutes: int)
    ensures ParseDuration(Padded(minutes), "min") == Some(minutes)
  {
    if minutes >= 60 {
      PaddedFromOneHour(minutes);
      HoursAndMinutesRoundTrip(minutes, "min");
    } else {
      ParseNumberOnly(minutes, "min");
    }
  }

  /** The plain form tells apart every number of minutes, negative ones included. */
  lemma PlainRoundTrip(minutes: int)
    ensures ParseDuration(Plain(minutes), "min") == Some(minutes)
  {
    if minutes >= 60 {
      var mm := NatToString(minutes % 60);
      DigitsValueOfNatToString(minutes % 60);
      assert Plain(minutes) == HoursForm(minutes / 60, mm, "min");
      ParseHoursAndMinutes(minutes / 60, mm, "min", minutes);
    } else {
      ParseNumberOnly(minutes, "min");
    }
  }

  /** From one hour on, the plain form writes fewer than ten remaining minutes with one
      digit where the padded form writes two: 65 minutes reads "1h 5min", not "1h 05min". */
  lemma PlainOneDigitMinutes(minutes: int)
    ensures minutes >= 60 && minutes % 60 < 10 ==>
      |Plain(minutes)| + 1 == |Padded(minutes)| && Plain(minutes) != Padded(minutes)
  {
    if minutes >= 60 && minutes % 60 < 10 {
      PaddedFromOneHour(minutes);
      assert |NatToString(minutes % 60)| == 1;
      assert |TwoDigits(minutes % 60)| == 2;
    }
  }

  lemma PlainOfSixtyFive()
    ensures Plain(65) == "1h 5min" && Padded(65) == "1h 05min"
  {
    assert 65 / 60 == 1 && 65 % 60 == 5;
    assert IntToString(1) == "1" by { assert NatToString(1) == "1"; }
    assert NatToString(5) == "5";
    assert Plain(65) == HoursForm(1, "5", "min");
    PaddedFromOneHour(65);
    assert TwoDigits(5) == "05";
    assert Padded(65) == HoursForm(1, "05", "min");
  }

  /** From one hour on, the compact and padded forms show the minutes with exactly two digits. */
  lemma TwoDigitMinutesFromOneHour(minutes: int)
    requires minutes >= 60
    ensures exists mm | |mm| == 2 && AllDigits(mm) && DigitsValue(mm) == minutes % 60 ::
      Compact(minutes) == HoursForm(minutes / 60, mm, "m") &&
      Padded(minutes) == HoursForm(minutes / 60, mm, "min")
  {
    CompactFromOneHour(minutes);
    PaddedFromOneHour(minutes);
    var mm := TwoDigits(minutes % 60);
    assert |mm| == 2 && AllDigits(mm) && DigitsValue(mm) == minutes % 60;
  }

  /** A negative elapsed time (a timestamp in the future) shows only the JavaScript
      remainder in the compact form: -65 minutes reads as -5. */
  lemma CompactOfNegative()
    ensures Compact(-65) == "-5m"
  {
    assert NatToString(5) == "5";
  }
}

=== FILE: js_object.dfy ===
/** Reading a key of a JavaScript object literal, `table[key] || fallback`.

    An object literal inherits from `Object.prototype`. So a key that the literal does
    not define, but that names a member of the prototype, reads that member: a function,
    or the prototype object itself for `__proto__`. Either is truthy, so the `||`
    fallback is not taken and the expression evaluates to that member, not to a string. */
module JsObject {

  /** The members of `Object.prototype`: those of section 20.1.3 of ECMAScript 2024 and
      the accessors of its Annex B.2.2. */
  const PrototypeNames: set<string> := {
    "constructor", "hasOwnProperty", "isPrototypeOf", "propertyIsEnumerable",
    "toLocaleString", "toString", "valueOf", "__proto__",
    "__defineGetter__", "__defineSetter__", "__lookupGetter__", "__lookupSetter__"
  }

  /** What `table[key] || fallback` evaluates to when every value of `table` is a
      non-empty string: that string or the fallback, or the inherited member `name`. */
  datatype Value = Own(s: string) | Inherited(name: string)
}

=== FILE: kds.dfy ===
/** The kitchen display page (`src/pages/KDS.tsx`): the station filter, the three
    status columns, the overdue counter and the status change a ticket button
    triggers. `now` stands for `new Date()`. */
module Kds {
  import opened Wrappers
  import Seqs
  import MockOrders

  type Ticket = MockOrders.Ticket

  /** The station selector: `all` or a station id. */
  function FilterTickets(tickets: seq<Ticket>, selected: string): (r: seq<Ticket>)
    ensures selected == "all" ==> r == tickets
    ensures selected != "all" ==> forall t :: t in r <==> t in tickets && MockOrders.StationName(t.station) == selected
  {
    if selected == "all" then tickets else Seqs.Filter(tickets, MockOrders.AtStation(selected))
  }

  /** The station filter keeps the ticket order: filtering a concatenation filters each part. */
  lemma FilterTicketsKeepsOrder(a: seq<Ticket>, b: seq<Ticket>, selected: string)
    ensures FilterTickets(a + b, selected) == FilterTickets(a, selected) + FilterTickets(b, selected)
  {
    if selected != "all" {
      Seqs.FilterAppend(a, b, MockOrders.AtStation(selected));
    }
  }

  /** A column keeps the order of the filtered tickets in the same way. */
  lemma ColumnKeepsOrder(a: seq<Ticket>, b: seq<Ticket>, status: MockOrders.TicketStatus)
    ensures Column(a + b, status) == Column(a, status) + Column(b, status)
  {
    Seqs.FilterAppend(a, b, HasStatus(status));
  }

  /** A column: the filtered tickets with one status. */
  function Column(filtered: seq<Ticket>, status: MockOrders.TicketStatus): (r: seq<Ticket>)
    ensures forall t :: t in r <==> t in filtered && t.status == status
  {
    Seqs.Filter(filtered, HasStatus(status))
  }

  function HasStatus(status: MockOrders.TicketStatus): Ticket -> bool { (t: Ticket) => t.status == status }

  /** Every filtered ticket is in exactly one column, so the column counts add up to the filtered count. */
  lemma ColumnsPartition(filtered: seq<Ticket>)
    ensures |Column(filtered, MockOrders.TicketPending)| + |Column(filtered, MockOrders.TicketPreparing)| +
            |Column(filtered, MockOrders.TicketReady)| == |filtered|
  {
    Seqs.FilterPartition3(filtered, HasStatus(MockOrders.TicketPending), HasStatus(MockOrders.TicketPreparing),
                          HasStatus(MockOrders.TicketReady));
  }

  /** `overdueCount`. */
  function OverdueCount(filtered: seq<Ticket>): (n: nat)
    ensures n <= |filtered|
    ensures n == Seqs.Count(filtered, MockOrders.Overdue())
  {
    Seqs.CountIsFilterLength(filtered, MockOrders.Overdue());
    |Seqs.Filter(filtered, MockOrders.Overdue())|
  }

  /** The column header for a status tag: its title and count, `Desconhecido` / 0 for any other tag. */
  function ColumnConfig(filtered: seq<Ticket>, status: string): (r: (string, nat))
    ensures status == "pending" ==> r == ("Pendente", |Column(filtered, MockOrders.TicketPending)|)
    ensures status == "preparing" ==> r == ("Em Preparo", |Column(filtered, MockOrders.TicketPreparing)|)
    ensures status == "ready" ==> r == ("Pronto", |Column(filtered, MockOrders.TicketReady)|)
    ensures status != "pending" && status != "preparing" && status != "ready" ==> r == ("Desconhecido", 0)
  {
    match status
    case "pending" => ("Pendente", |Column(filtered, MockOrders.TicketPending)|)
    case "preparing" => ("Em Preparo", |Column(filtered, MockOrders.TicketPreparing)|)
    case "ready" => ("Pronto", |Column(filtered, MockOrders.TicketReady)|)
    case _ => ("Desconhecido", 0)
  }

  /** One ticket moved to `newStatus` at time `now`: `startedAt` is set on the first move to
      preparing only, `completedAt` is set on every move to ready. */
  function Moved(t: Ticket, newStatus: MockOrders.TicketStatus, now: int): (r: Ticket)
    ensures r.status == newStatus
    ensures r.startedAt == if newStatus == MockOrders.TicketPreparing && t.startedAt.None? then Some(now) else t.startedAt
    ensures r.completedAt == if newStatus == MockOrders.TicketReady then Some(now) else t.completedAt
    ensures r.(status := t.status, startedAt := t.startedAt, completedAt := t.completedAt) == t
  {
    t.(status := newStatus,
       startedAt := if newStatus == MockOrders.TicketPreparing && t.startedAt.None? then Some(now) else t.startedAt,
       completedAt := if newStatus == MockOrders.TicketReady then Some(now) else t.completedAt)
  }

  function TicketHasId(id: string): Ticket -> bool { (t: Ticket) => t.id == id }
  function MoveTo(newStatus: MockOrders.TicketStatus, now: int): Ticket -> Ticket { (t: Ticket) => Moved(t, newStatus, now) }

  /** `handleStatusChange(ticketId, newStatus)` at time `now`. */
  function HandleStatusChange(tickets: seq<Ticket>, id: string, newStatus: MockOrders.TicketStatus, now: int): (r: seq<Ticket>)
    ensures |r| == |tickets|
    ensures forall i | 0 <= i < |r| :: tickets[i].id != id ==> r[i] == tickets[i]
    ensures forall i | 0 <= i < |r| :: tickets[i].id == id ==> r[i] == Moved(tickets[i], newStatus, now)
  {
    Seqs.MapWhere(tickets, TicketHasId(id), MoveTo(newStatus, now))
  }

  /** The first move to preparing fixes `startedAt`; a later move there does not change it. */
  lemma StartedAtSetOnce(t: Ticket, t1: int, t2: int)
    ensures var once := Moved(t, MockOrders.TicketPreparing, t1);
      Moved(once, MockOrders.TicketPreparing, t2).startedAt == once.startedAt &&
      (t.startedAt.None? ==> once.startedAt == Some(t1)) &&
      (t.startedAt.Some? ==> once.startedAt == t.startedAt)
  {
  }

  /** `completedAt` is not set-once: moving to ready again restamps it. */
  lemma CompletedAtRestamps(t: Ticket, t1: int, t2: int)
    ensures Moved(Moved(t, MockOrders.TicketReady, t1), MockOrders.TicketReady, t2).completedAt == Some(t2)
  {
  }

  /** A status change keeps the ticket in the filtered view (stations do not change) and
      moves it between columns without changing the total. */
  lemma StatusChangeKeepsFilter(tickets: seq<Ticket>, id: string, newStatus: MockOrders.TicketStatus, now: int, selected: string)
    ensures |FilterTickets(HandleStatusChange(tickets, id, newStatus, now), selected)| == |FilterTickets(tickets, selected)|
  {
    if selected != "all" {
      var p := MockOrders.AtStation(selected);
      var after := HandleStatusChange(tickets, id, newStatus, now);
      SameStationCount(tickets, after, p, selected);
      Seqs.CountIsFilterLength(tickets, p);
      Seqs.CountIsFilterLength(after, p);
    }
  }

  lemma {:induction false} SameStationCount(a: seq<Ticket>, b: seq<Ticket>, p: Ticket -> bool, selected: string)
    requires p == MockOrders.AtStation(selected)
    requires |a| == |b| && forall i | 0 <= i < |a| :: a[i].station == b[i].station
    ensures Seqs.Count(a, p) == Seqs.Count(b, p)
    decreases |a|
  {
    if |a| > 0 {
      SameStationCount(a[1..], b[1..], p, selected);
    }
  }
}

=== FILE: kds_ticket.dfy ===
/** One kitchen ticket (`src/design/components/molecules/KDSTicket.tsx`): its
    elapsed-time text, its status and priority badge colours (switching on the
    tag, so the `default` branch is kept), and the one transition its button offers. */
module KdsTicketView {
  import opened Wrappers
  import Elapsed
  import MockOrders

  /** `formatElapsedTime(minutes)`: the compact form. */
  function FormatElapsedTime(minutes: int): (s: string)
    ensures minutes >= 0 ==> Elapsed.ParseDuration(s, "m") == Some(minutes)
    ensures 0 <= minutes < 60 ==> s == Elapsed.Compact(minutes) && |s| <= 3
  {
    if minutes >= 0 then
      Elapsed.CompactRoundTrip(minutes);
      Elapsed.Compact(minutes)
    else Elapsed.Compact(minutes)
  }

  /** `getStatusColor(status)`. */
  function StatusColor(status: string): (c: string)
    ensures status == "pending" ==> c == "warning"
    ensures status == "preparing" ==> c == "primary"
    ensures status == "ready" ==> c == "success"
    ensures status != "pending" && status != "preparing" && status != "ready" ==> c == "default"
  {
    match status
    case "pending" => "warning"
    case "preparing" => "primary"
    case "ready" => "success"
    case _ => "default"
  }

  /** `getPriorityColor(priority)`. */
  function PriorityColor(priority: string): (c: string)
    ensures priority == "urgent" ==> c == "destructive"
    ensures priority == "high" ==> c == "warning"
    ensures priority == "low" ==> c == "secondary"
    ensures priority != "urgent" && priority != "high" && priority != "low" ==> c == "default"
  {
    match priority
    case "urgent" => "destructive"
    case "high" => "warning"
    case "normal" => "default"
    case "low" => "secondary"
    case _ => "default"
  }

  function PriorityName(p: MockOrders.Priority): string {
    match p
    case Low => "low"
    case Normal => "normal"
    case High => "high"
    case Urgent => "urgent"
  }

  /** Every ticket status and every priority gets its own colour; no ticket falls to the default status colour. */
  lemma ColoursOfTickets(t: MockOrders.Ticket)
    ensures StatusColor(MockOrders.TicketStatusName(t.status)) != "default"
    ensures PriorityColor(PriorityName(t.priority)) == "default" <==> t.priority == MockOrders.Normal
  {
  }

  /** The transition the ticket's button offers: start preparing, mark ready, or none once ready. */
  function OfferedMove(status: MockOrders.TicketStatus): (next: Option<MockOrders.TicketStatus>)
    ensures next.Some? ==> Rank(next.value) == Rank(status) + 1
    ensures next.None? <==> status == MockOrders.TicketReady
  {
    match status
    case TicketPending => Some(MockOrders.TicketPreparing)
    case TicketPreparing => Some(MockOrders.TicketReady)
    case TicketReady => None
  }

  function Rank(s: MockOrders.TicketStatus): nat {
    match s
    case TicketPending => 0
    case TicketPreparing => 1
    case TicketReady => 2
  }

  /** Following the offered buttons from any status reaches ready within two presses, and stops there. */
  lemma OfferedMovesReachReady(s: MockOrders.TicketStatus)
    ensures var n1 := OfferedMove(s);
      s == MockOrders.TicketReady ||
      n1.value == MockOrders.TicketReady ||
      OfferedMove(n1.value) == Some(MockOrders.TicketReady)
  {
  }
}

=== FILE: mock_api.dfy ===
/** The in-memory mock back end (`src/lib/mockApi.ts`): five collections, CRUD
    operations with not-found errors, the one-open-call-per-table rule, the
    set-once `acceptedAt` / `closedAt` stamps, mock authentication, and the
    `BroadcastChannel` posts every order, call and table change sends.

    The network delays and promises are dropped: each operation is a function
    from the database to a `Reply` holding the new database, the value or the
    error message the promise would settle with, and the posts it sent.
    `generateId()`, the clock and `Math.random()` are parameters. */
module MockApi {
  import opened Wrappers
  import opened Text
  import Seqs
  import AuthUtils

  // ---------------------------------------------------------------------
  // Records

  datatype Role = Admin | Staff | Client
  datatype Scope = KitchenScope | Floor

  datatype User = User(
    id: string, email: string, password: string, name: string,
    role: Role, scope: Option<Scope>, createdAt: int)

  /** `Omit<User, 'password'>`: the shape handed out to the application. */
  datatype PublicUser = PublicUser(
    id: string, email: string, name: string, role: Role, scope: Option<Scope>, createdAt: int)

  datatype TableStatus = Free | Occupied | Reserved

  datatype Table = Table(
    id: string, number: int, token: string, pin: string, qrCode: Option<string>,
    status: TableStatus, capacity: int)

  datatype Product = Product(
    id: string, name: string, description: string, price: real, category: string,
    image: string, available: bool, allergens: seq<string>, tags: seq<string>, preparationTime: int)

  datatype OrderItem = OrderItem(
    productId: string, quantity: int, observations: Option<string>, extras: Option<seq<string>>)

  datatype OrderStatus = New | Preparing | Ready | Delivered

  datatype Order = Order(
    id: string, tableId: string, items: seq<OrderItem>, status: OrderStatus, total: real,
    createdAt: int, updatedAt: int, staffId: Option<string>)

  datatype Reason = WaterReason | Cutlery | BillReason | Help | Other
  datatype CallStatus = Open | Accepted | Closed

  datatype Call = Call(
    id: string, tableId: string, reason: Reason, message: Option<string>, status: CallStatus,
    createdAt: int, acceptedBy: Option<string>, acceptedAt: Option<int>, closedAt: Option<int>)

  datatype Db = Db(
    users: seq<User>, tables: seq<Table>, products: seq<Product>, orders: seq<Order>, calls: seq<Call>)

  // ---------------------------------------------------------------------
  // Broadcasts

  datatype PostData = OrderData(order: Order) | CallData(call: Call) | TableData(table: Table)

  /** `channel.postMessage({ type: kind, data })`. */
  datatype Post = Post(channel: string, kind: string, data: PostData)

  const OrderUpdate := "ORDER_UPDATE"
  const CallUpdate := "CALL_UPDATE"
  const TableUpdate := "TABLE_UPDATE"

  function BroadcastOrder(o: Order): Post { Post("orders", OrderUpdate, OrderData(o)) }
  function BroadcastCall(c: Call): Post { Post("calls", CallUpdate, CallData(c)) }
  function BroadcastTable(t: Table): Post { Post("tables", TableUpdate, TableData(t)) }

  /** What an operation does: the database afterwards, how its promise settles, and what it posted. */
  datatype Reply<T> = Reply(db: Db, result: Result<T, string>, posts: seq<Post>)

  const InvalidCredentials := "Credenciais inválidas"
  const InvalidTablePin := "Mesa ou PIN inválido"
  const InvalidTableToken := "Token de mesa inválido ou expirado"
  const ProductNotFound := "Produto não encontrado"
  const TableNotFound := "Mesa não encontrada"
  const OrderNotFound := "Pedido não encontrado"
  const CallNotFound := "Chamada não encontrada"
  const OpenCallExists := "Já existe uma chamada aberta para esta mesa"

  // ---------------------------------------------------------------------
  // Lookup predicates

  function UserHasEmail(email: string): User -> bool { (u: User) => u.email == email }
  function TableHasId(id: string): Table -> bool { (t: Table) => t.id == id }
  function TableHasNumberAndPin(n: int, pin: string): Table -> bool { (t: Table) => t.number == n && t.pin == pin }
  function ProductHasId(id: string): Product -> bool { (p: Product) => p.id == id }
  function OrderHasId(id: string): Order -> bool { (o: Order) => o.id == id }
  function CallHasId(id: string): Call -> bool { (c: Call) => c.id == id }
  function OpenCallFor(tableId: string): Call -> bool { (c: Call) => c.tableId == tableId && c.status == Open }

  // ---------------------------------------------------------------------
  // Auth

  function RoleName(r: Role): string {
    match r
    case Admin => "admin"
    case Staff => "staff"
    case Client => "client"
  }

  function ScopeName(s: Scope): string {
    match s
    case KitchenScope => "kitchen"
    case Floor => "floor"
  }

  function OptScopeName(s: Option<Scope>): Option<string> {
    match s
    case None => None
    case Some(x) => Some(ScopeName(x))
  }

  /** `const { password, ...rest } = user`. */
  function WithoutPassword(u: User): (p: PublicUser)
    ensures p.id == u.id && p.email == u.email && p.name == u.name && p.role == u.role &&
      p.scope == u.scope && p.createdAt == u.createdAt
  {
    PublicUser(u.id, u.email, u.name, u.role, u.scope, u.createdAt)
  }

  /** `login(email, password)` at time `now`: the first user with that email, if its hash matches.
      Once that user is found, `verifyPassword` throws `btoa`'s error for a password it refuses. */
  function Login(db: Db, email: string, password: string, now: int): (r: Result<(string, PublicUser), string>)
    ensures r.Failure? ==> r.error == InvalidCredentials || r.error == AuthUtils.InvalidCharacter
    ensures r.Failure? && r.error == AuthUtils.InvalidCharacter <==>
      !AuthUtils.BtoaAccepts(password) && exists u | u in db.users :: u.email == email
    ensures r.Success? ==> exists i | 0 <= i < |db.users| ::
      db.users[i].email == email && AuthUtils.VerifyPassword(password, db.users[i].password) == Success(true) &&
      r.value.1 == WithoutPassword(db.users[i]) &&
      forall j | 0 <= j < i :: db.users[j].email != email
    ensures (forall u | u in db.users :: u.email != email) ==> r == Failure(InvalidCredentials)
    ensures r.Success? ==> exists u | u in db.users :: r.value.0 == AuthUtils.GenerateJwt(StaffPayload(u), now)
  {
    match Seqs.FindIndex(db.users, UserHasEmail(email))
    case None => Failure(InvalidCredentials)
    case Some(i) =>
      var u := db.users[i];
      assert u in db.users;
      match AuthUtils.VerifyPassword(password, u.password)
      case Failure(e) => Failure(e)
      case Success(ok) =>
      if !ok then Failure(InvalidCredentials)
      else
        Success((AuthUtils.GenerateJwt(StaffPayload(u), now), WithoutPassword(u)))
  }

  /** The claims of a staff token: `{ userId, role, scope }`, with no expiry of its own. */
  function StaffPayload(u: User): AuthUtils.Payload {
    AuthUtils.Payload(Some(u.id), None, Some(RoleName(u.role)), OptScopeName(u.scope), None, None)
  }

  /** The token a table session gets: `generateJWT({ tableId, role: 'client' })`. */
  function ClientToken(tableId: string, now: int): string {
    AuthUtils.GenerateJwt(AuthUtils.Payload(None, Some(tableId), Some("client"), None, None, None), now)
  }

  /** `loginTable(tableNumber, pin)`: succeeds exactly when some table has both that number and that pin. */
  function LoginTable(db: Db, tableNumber: int, pin: string, now: int): (r: Result<(string, Table), string>)
    ensures r.Failure? ==> r.error == InvalidTablePin
    ensures r.Success? <==> exists t | t in db.tables :: t.number == tableNumber && t.pin == pin
    ensures r.Success? ==>
      r.value.1 in db.tables && r.value.1.number == tableNumber && r.value.1.pin == pin &&
      r.value.0 == ClientToken(r.value.1.id, now)
  {
    match Seqs.Find(db.tables, TableHasNumberAndPin(tableNumber, pin))
    case None => Failure(InvalidTablePin)
    case Some(t) => Success((ClientToken(t.id, now), t))
  }

  /** `loginWithQR(tableToken)`: the token must verify and name an existing table. */
  function LoginWithQR(db: Db, tableToken: string, now: int): (r: Result<(string, Table), string>)
    ensures r.Failure? ==> r.error == InvalidTableToken
    ensures r.Success? ==>
      r.value.1 in db.tables && AuthUtils.VerifyJwt(tableToken, now).Success? &&
      AuthUtils.VerifyJwt(tableToken, now).value.tableId == Some(r.value.1.id)
    ensures AuthUtils.VerifyJwt(tableToken, now).Failure? ==> r.Failure?
  {
    match AuthUtils.VerifyJwt(tableToken, now)
    case Failure(_) => Failure(InvalidTableToken)
    case Success(payload) =>
      if payload.tableId.None? then Failure(InvalidTableToken)
      else match Seqs.Find(db.tables, TableHasId(payload.tableId.value))
        case None => Failure(InvalidTableToken)
        case Some(t) => Success((ClientToken(t.id, now), t))
  }

  // ---------------------------------------------------------------------
  // Partial updates (`{ ...old, ...updates }`): `None` is a key absent from `updates`

  datatype ProductPatch = ProductPatch(
    id: Option<string>, name: Option<string>, description: Option<string>, price: Option<real>,
    category: Option<string>, image: Option<string>, available: Option<bool>,
    allergens: Option<seq<string>>, tags: Option<seq<string>>, preparationTime: Option<int>)

  function MergeProduct(p: Product, u: ProductPatch): Product {
    Product(u.id.GetOr(p.id), u.name.GetOr(p.name), u.description.GetOr(p.description),
            u.price.GetOr(p.price), u.category.GetOr(p.category), u.image.GetOr(p.image),
            u.available.GetOr(p.available), u.allergens.GetOr(p.allergens), u.tags.GetOr(p.tags),
            u.preparationTime.GetOr(p.preparationTime))
  }

  datatype TablePatch = TablePatch(
    id: Option<string>, number: Option<int>, token: Option<string>, pin: Option<string>,
    qrCode: Option<string>, status: Option<TableStatus>, capacity: Option<int>)

  function MergeTable(t: Table, u: TablePatch): Table {
    Table(u.id.GetOr(t.id), u.number.GetOr(t.number), u.token.GetOr(t.token), u.pin.GetOr(t.pin),
          if u.qrCode.Some? then u.qrCode else t.qrCode, u.status.GetOr(t.status), u.capacity.GetOr(t.capacity))
  }

  datatype OrderPatch = OrderPatch(
    id: Option<string>, tableId: Option<string>, items: Option<seq<OrderItem>>, status: Option<OrderStatus>,
    total: Option<real>, createdAt: Option<int>, updatedAt: Option<int>, staffId: Option<string>)

  function MergeOrder(o: Order, u: OrderPatch): Order {
    Order(u.id.GetOr(o.id), u.tableId.GetOr(o.tableId), u.items.GetOr(o.items), u.status.GetOr(o.status),
          u.total.GetOr(o.total), u.createdAt.GetOr(o.createdAt), u.updatedAt.GetOr(o.updatedAt),
          if u.staffId.Some? then u.staffId else o.staffId)
  }

  datatype CallPatch = CallPatch(
    id: Option<string>, tableId: Option<string>, reason: Option<Reason>, message: Option<string>,
    status: Option<CallStatus>, createdAt: Option<int>, acceptedBy: Option<string>,
    acceptedAt: Option<int>, closedAt: Option<int>)

  function MergeCall(c: Call, u: CallPatch): Call {
    Call(u.id.GetOr(c.id), u.tableId.GetOr(c.tableId), u.reason.GetOr(c.reason),
         if u.message.Some? then u.message else c.message, u.status.GetOr(c.status),
         u.createdAt.GetOr(c.createdAt), if u.acceptedBy.Some? then u.acceptedBy else c.acceptedBy,
         if u.acceptedAt.Some? then u.acceptedAt else c.acceptedAt,
         if u.closedAt.Some? then u.closedAt else c.closedAt)
  }

  const NoProductChanges := ProductPatch(None, None, None, None, None, None, None, None, None, None)

  /** A spread keeps every field the patch does not mention, and spreading the same patch again changes nothing. */
  lemma MergeProductLaws(p: Product, u: ProductPatch)
    ensures MergeProduct(p, NoProductChanges) == p
    ensures MergeProduct(MergeProduct(p, u), u) == MergeProduct(p, u)
    ensures u.price.None? ==> MergeProduct(p, u).price == p.price
    ensures u.id.None? ==> MergeProduct(p, u).id == p.id
  {
  }

  // ---------------------------------------------------------------------
  // Products

  /** `createProduct(product)` with `freshId` standing for `generateId()`. */
  function CreateProduct(db: Db, draft: Product, freshId: string): (r: Reply<Product>)
    ensures r.result == Success(draft.(id := freshId))
    ensures r.db == db.(products := db.products + [draft.(id := freshId)])
    ensures r.posts == []
  {
    var p := draft.(id := freshId);
    Reply(db.(products := db.products + [p]), Success(p), [])
  }

  /** Creating a product under an id no product has and then deleting that id gives back
      the database it started from. */
  lemma CreateThenDeleteRestores(db: Db, draft: Product, freshId: string)
    requires forall p | p in db.products :: p.id != freshId
    ensures var c := CreateProduct(db, draft, freshId);
      c.result.Success? && DeleteProduct(c.db, freshId) == Reply(db, Success(()), [])
  {
    var c := CreateProduct(db, draft, freshId);
    var ps := c.db.products;
    assert ps[|db.products|].id == freshId;
    assert forall j | 0 <= j < |db.products| :: ps[j].id != freshId by {
      forall j | 0 <= j < |db.products| ensures ps[j].id != freshId {
        assert ps[j] == db.products[j];
      }
    }
    var f := Seqs.FindIndex(ps, ProductHasId(freshId));
    assert f == Some(|db.products|);
    assert ps[..|db.products|] + ps[|db.products| + 1..] == db.products;
  }

  /** `updateProduct(id, updates)`. */
  function UpdateProduct(db: Db, id: string, u: ProductPatch): (r: Reply<Product>)
    ensures r.posts == []
    ensures (forall p | p in db.products :: p.id != id) ==> r == Reply(db, Failure(ProductNotFound), [])
    ensures r.result.Failure? ==> r.db == db && r.result.error == ProductNotFound
    ensures r.result.Success? ==> exists i | 0 <= i < |db.products| ::
      db.products[i].id == id && (forall j | 0 <= j < i :: db.products[j].id != id) &&
      r.result.value == MergeProduct(db.products[i], u) &&
      r.db == db.(products := db.products[i := MergeProduct(db.products[i], u)])
  {
    match Seqs.FindIndex(db.products, ProductHasId(id))
    case None => Reply(db, Failure(ProductNotFound), [])
    case Some(i) =>
      var p := MergeProduct(db.products[i], u);
      Reply(db.(products := db.products[i := p]), Success(p), [])
  }

  /** `deleteProduct(id)`: removes the first product with that id, keeping the others in order. */
  function DeleteProduct(db: Db, id: string): (r: Reply<()>)
    ensures r.posts == []
    ensures (forall p | p in db.products :: p.id != id) ==> r == Reply(db, Failure(ProductNotFound), [])
    ensures r.result.Failure? ==> r.db == db && r.result.error == ProductNotFound
    ensures r.result.Success? ==> exists i | 0 <= i < |db.products| ::
      db.products[i].id == id && (forall j | 0 <= j < i :: db.products[j].id != id) &&
      r.db == db.(products := db.products[..i] + db.products[i + 1..])
  {
    match Seqs.FindIndex(db.products, ProductHasId(id))
    case None => Reply(db, Failure(ProductNotFound), [])
    case Some(i) =>
      assert db.products[i] in db.products;
      Reply(db.(products := db.products[..i] + db.products[i + 1..]), Success(()), [])
  }

  // ---------------------------------------------------------------------
  // Tables

  /** `updateTable(id, updates)`: merges, broadcasts the merged table. */
  function UpdateTable(db: Db, id: string, u: TablePatch): (r: Reply<Table>)
    ensures (forall t | t in db.tables :: t.id != id) ==> r == Reply(db, Failure(TableNotFound), [])
    ensures r.result.Failure? ==> r.db == db && r.posts == [] && r.result.error == TableNotFound
    ensures r.result.Success? ==>
      r.posts == [BroadcastTable(r.result.value)] &&
      exists i | 0 <= i < |db.tables| ::
        db.tables[i].id == id && (forall j | 0 <= j < i :: db.tables[j].id != id) &&
        r.result.value == MergeTable(db.tables[i], u) &&
        r.db == db.(tables := db.tables[i := MergeTable(db.tables[i], u)])
  {
    match Seqs.FindIndex(db.tables, TableHasId(id))
    case None => Reply(db, Failure(TableNotFound), [])
    case Some(i) =>
      var t := MergeTable(db.tables[i], u);
      Reply(db.(tables := db.tables[i := t]), Success(t), [BroadcastTable(t)])
  }

  // ---------------------------------------------------------------------
  // Orders

  /** The caller's part of a new order (`Omit<Order, 'id' | 'createdAt' | 'updatedAt'>`). */
  datatype OrderDraft = OrderDraft(
    tableId: string, items: seq<OrderItem>, status: OrderStatus, total: real, staffId: Option<string>)

  /** `createOrder(order)` at time `now`. */
  function CreateOrder(db: Db, draft: OrderDraft, freshId: string, now: int): (r: Reply<Order>)
    ensures r.result.Success?
    ensures var o := r.result.value;
      o.id == freshId && o.createdAt == now && o.updatedAt == now &&
      o.tableId == draft.tableId && o.items == draft.items && o.status == draft.status &&
      o.total == draft.total && o.staffId == draft.staffId
    ensures r.db == db.(orders := db.orders + [r.result.value])
    ensures r.posts == [BroadcastOrder(r.result.value)]
  {
    var o := Order(freshId, draft.tableId, draft.items, draft.status, draft.total, now, now, draft.staffId);
    Reply(db.(orders := db.orders + [o]), Success(o), [BroadcastOrder(o)])
  }

  /** `updateOrder(id, updates)` at time `now`: `updatedAt` is always now, whatever the updates say. */
  function UpdateOrder(db: Db, id: string, u: OrderPatch, now: int): (r: Reply<Order>)
    ensures (forall o | o in db.orders :: o.id != id) ==> r == Reply(db, Failure(OrderNotFound), [])
    ensures r.result.Failure? ==> r.db == db && r.posts == [] && r.result.error == OrderNotFound
    ensures r.result.Success? ==>
      r.result.value.updatedAt == now && r.posts == [BroadcastOrder(r.result.value)] &&
      exists i | 0 <= i < |db.orders| ::
        db.orders[i].id == id && (forall j | 0 <= j < i :: db.orders[j].id != id) &&
        r.result.value == MergeOrder(db.orders[i], u).(updatedAt := now) &&
        r.db == db.(orders := db.orders[i := r.result.value])
  {
    match Seqs.FindIndex(db.orders, OrderHasId(id))
    case None => Reply(db, Failure(OrderNotFound), [])
    case Some(i) =>
      var o := MergeOrder(db.orders[i], u).(updatedAt := now);
      Reply(db.(orders := db.orders[i := o]), Success(o), [BroadcastOrder(o)])
  }

  // ---------------------------------------------------------------------
  // Calls

  /** The caller's part of a new call (`Omit<Call, 'id' | 'createdAt'>`). */
  datatype CallDraft = CallDraft(
    tableId: string, reason: Reason, message: Option<string>, status: CallStatus,
    acceptedBy: Option<string>, acceptedAt: Option<int>, closedAt: Option<int>)

  /** `createCall(call)` at time `now`: refused while the table has an open call. */
  function CreateCall(db: Db, draft: CallDraft, freshId: string, now: int): (r: Reply<Call>)
    ensures r.result.Failure? <==> exists c | c in db.calls :: c.tableId == draft.tableId && c.status == Open
    ensures r.result.Failure? ==> r == Reply(db, Failure(OpenCallExists), [])
    ensures r.result.Success? ==>
      var c := r.result.value;
      c == Call(freshId, draft.tableId, draft.reason, draft.message, draft.status, now,
                draft.acceptedBy, draft.acceptedAt, draft.closedAt) &&
      r.db == db.(calls := db.calls + [c]) && r.posts == [BroadcastCall(c)]
  {
    match Seqs.Find(db.calls, OpenCallFor(draft.tableId))
    case Some(_) => Reply(db, Failure(OpenCallExists), [])
    case None =>
      var c := Call(freshId, draft.tableId, draft.reason, draft.message, draft.status, now,
                    draft.acceptedBy, draft.acceptedAt, draft.closedAt);
      Reply(db.(calls := db.calls + [c]), Success(c), [BroadcastCall(c)])
  }

  /** The call `updateCall` stores: the merge, then `acceptedAt` / `closedAt`
      stamped with now when the update sets that status and the stored call had no stamp. */
  function StampedCall(prev: Call, u: CallPatch, now: int): (c: Call)
    ensures u.status == Some(Accepted) && prev.acceptedAt.None? ==> c.acceptedAt == Some(now)
    ensures !(u.status == Some(Accepted) && prev.acceptedAt.None?) ==> c.acceptedAt == MergeCall(prev, u).acceptedAt
    ensures u.status == Some(Closed) && prev.closedAt.None? ==> c.closedAt == Some(now)
    ensures !(u.status == Some(Closed) && prev.closedAt.None?) ==> c.closedAt == MergeCall(prev, u).closedAt
    ensures c.(acceptedAt := prev.acceptedAt, closedAt := prev.closedAt) ==
      MergeCall(prev, u).(acceptedAt := prev.acceptedAt, closedAt := prev.closedAt)
  {
    var merged := MergeCall(prev, u);
    var a := if u.status == Some(Accepted) && prev.acceptedAt.None? then merged.(acceptedAt := Some(now)) else merged;
    if u.status == Some(Closed) && prev.closedAt.None? then a.(closedAt := Some(now)) else a
  }

  /** `updateCall(id, updates)` at time `now`. */
  function UpdateCall(db: Db, id: string, u: CallPatch, now: int): (r: Reply<Call>)
    ensures (forall c | c in db.calls :: c.id != id) ==> r == Reply(db, Failure(CallNotFound), [])
    ensures r.result.Failure? ==> r.db == db && r.posts == [] && r.result.error == CallNotFound
    ensures r.result.Success? ==>
      r.posts == [BroadcastCall(r.result.value)] &&
      exists i | 0 <= i < |db.calls| ::
        db.calls[i].id == id && (forall j | 0 <= j < i :: db.calls[j].id != id) &&
        r.result.value == StampedCall(db.calls[i], u, now) &&
        r.db == db.(calls := db.calls[i := r.result.value])
  {
    match Seqs.FindIndex(db.calls, CallHasId(id))
    case None => Reply(db, Failure(CallNotFound), [])
    case Some(i) =>
      var c := StampedCall(db.calls[i], u, now);
      Reply(db.(calls := db.calls[i := c]), Success(c), [BroadcastCall(c)])
  }

  /** A patch that sets only the status. */
  function StatusPatch(s: CallStatus): CallPatch {
    CallPatch(None, None, None, None, Some(s), None, None, None, None)
  }

  /** Accepting a call twice keeps the first acceptance time; closing likewise. */
  lemma StampsAreSetOnce(c: Call, s: CallStatus, t1: int, t2: int)
    requires s == Accepted || s == Closed
    ensures var once := StampedCall(c, StatusPatch(s), t1);
      StampedCall(once, StatusPatch(s), t2) == once
    ensures s == Accepted && c.acceptedAt.None? ==> StampedCall(c, StatusPatch(s), t1).acceptedAt == Some(t1)
    ensures s == Closed && c.closedAt.None? ==> StampedCall(c, StatusPatch(s), t1).closedAt == Some(t1)
    ensures s == Accepted ==> StampedCall(c, StatusPatch(s), t1).closedAt == c.closedAt
  {
  }

  /** After a refusal nothing is added, and closing or accepting the open call lets the table call again. */
  lemma OnlyOpenCallsBlock(db: Db, draft: CallDraft, freshId: string, now: int)
    requires forall c | c in db.calls && c.tableId == draft.tableId :: c.status != Open
    ensures CreateCall(db, draft, freshId, now).result.Success?
    ensures |CreateCall(db, draft, freshId, now).db.calls| == |db.calls| + 1
  {
  }

  // ---------------------------------------------------------------------
  // Users

  /** `getUsers()`: every user, in order, without the password. */
  function GetUsers(db: Db): (r: seq<PublicUser>)
    ensures |r| == |db.users|
    ensures forall i | 0 <= i < |r| :: r[i] == WithoutPassword(db.users[i])
  {
    seq(|db.users|, i requires 0 <= i < |db.users| => WithoutPassword(db.users[i]))
  }

  /** The caller's part of a new user; the password is in clear. */
  datatype UserDraft = UserDraft(email: string, password: string, name: string, role: Role, scope: Option<Scope>)

  /** `createUser(user)` at time `now`: stores the hash of the password, or rejects with
      `btoa`'s error, adding nobody, when the password has a character it refuses. */
  function CreateUser(db: Db, draft: UserDraft, freshId: string, now: int): (r: Reply<PublicUser>)
    ensures r.posts == []
    ensures r.result.Failure? <==> !AuthUtils.BtoaAccepts(draft.password)
    ensures r.result.Failure? ==> r.result.error == AuthUtils.InvalidCharacter && r.db == db
    ensures r.result.Success? ==>
      && |r.db.users| == |db.users| + 1 && r.db.users[..|db.users|] == db.users
      && r.db == db.(users := r.db.users)
      && var u := r.db.users[|db.users|];
        && u.id == freshId && u.email == draft.email && u.name == draft.name && u.role == draft.role
        && u.scope == draft.scope && u.createdAt == now
        && AuthUtils.VerifyPassword(draft.password, u.password) == Success(true)
        && r.result.value == WithoutPassword(u)
  {
    match AuthUtils.HashPassword(draft.password)
    case Failure(e) => Reply(db, Failure(e), [])
    case Success(hashed) =>
      var u := User(freshId, draft.email, hashed, draft.name, draft.role, draft.scope, now);
      assert (db.users + [u])[..|db.users|] == db.users;
      Reply(db.(users := db.users + [u]), Success(WithoutPassword(u)), [])
  }

  /** A created user can log in with the clear password, unless an earlier user has the same email. */
  lemma CreatedUserCanLogIn(db: Db, draft: UserDraft, freshId: string, now: int, later: int)
    requires forall u | u in db.users :: u.email != draft.email
    ensures var c := CreateUser(db, draft, freshId, now);
      c.result.Success? ==>
        Login(c.db, draft.email, draft.password, later).Success? &&
        Login(c.db, draft.email, draft.password, later).value.1 == c.result.value
  {
    var c := CreateUser(db, draft, freshId, now);
    if c.result.Failure? { return; }
    var after := c.db;
    AuthUtils.PasswordCheck(draft.password, draft.password);
    var fi := Seqs.FindIndex(after.users, UserHasEmail(draft.email));
    assert after.users[|db.users|].email == draft.email;
    assert fi.Some? && fi.value == |db.users| by {
      forall j | 0 <= j < |db.users| ensures after.users[j].email != draft.email {
        assert after.users[j] == db.users[j];
        assert db.users[j] in db.users;
      }
    }
  }

  // ---------------------------------------------------------------------
  // Seed data

  function SeedUsers(now: int): (users: seq<User>)
    ensures |users| == 3
    ensures forall i, j | 0 <= i < j < |users| :: users[i].email != users[j].email
  {
    [User("user_admin", "admin@rest.com", AuthUtils.Hashed("admin123"), "Administrador", Admin, None, now),
     User("user_staff_floor", "garcom@rest.com", AuthUtils.Hashed("staff123"), "João Silva", Staff, Some(Floor), now),
     User("user_staff_kitchen", "cozinha@rest.com", AuthUtils.Hashed("kds123"), "Maria Santos", Staff, Some(KitchenScope), now)]
  }

  const OneDay: int := 86400000

  /** Seed table `i` (0-based). `roll` stands for the `Math.random()` draw made for it. */
  function SeedTable(i: nat, now: int, roll: real): Table {
    var id := "table_" + NatToString(i + 1);
    Table(id, i + 1,
          AuthUtils.GenerateJwt(AuthUtils.Payload(None, Some(id), None, None, Some(now + OneDay), None), now),
          PadStart(NatToString(i + 1), 4, '0'),
          None,
          if i == 6 then Occupied else if roll > 0.7 then Occupied else Free,
          if i < 4 then 2 else if i < 8 then 4 else 6)
  }

  /** The twelve seeded tables; `rolls(i)` is the random draw for table `i`. The
      explicit `tables[6].pin = '0007'` of the seed writes the value table 7 already has. */
  function SeedTables(now: int, rolls: nat -> real): (tables: seq<Table>)
    ensures |tables| == 12
    ensures forall i | 0 <= i < 12 :: tables[i] == SeedTable(i, now, rolls(i))
    ensures forall i | 0 <= i < 12 ::
      tables[i].number == i + 1 && |tables[i].pin| == 4 && AllDigits(tables[i].pin) && DigitsValue(tables[i].pin) == i + 1
    ensures forall i | 0 <= i < 12 :: tables[i].capacity == (if i < 4 then 2 else if i < 8 then 4 else 6)
    ensures tables[6].status == Occupied && tables[6].pin == "0007"
  {
    var ts := seq(12, i requires 0 <= i < 12 => SeedTable(i, now, rolls(i)));
    forall i | 0 <= i < 12
      ensures ts[i].number == i + 1 && |ts[i].pin| == 4 && AllDigits(ts[i].pin) && DigitsValue(ts[i].pin) == i + 1
    {
      assert ts[i] == SeedTable(i, now, rolls(i));
      SeedPin(i + 1);
    }
    SeedPin(7);
    ts[6 := ts[6].(pin := "0007")]
  }

  lemma SeedPin(n: nat)
    requires 1 <= n <= 12
    ensures var p := PadStart(NatToString(n), 4, '0');
      |p| == 4 && AllDigits(p) && DigitsValue(p) == n && (n == 7 ==> p == "0007")
  {
    var s := NatToString(n);
    DigitsValueOfNatToString(n);
    var p := PadStart(s, 4, '0');
    if n < 10 {
      assert |s| == 1;
      assert p == "000" + s;
      PaddedValue("000", s);
      if n == 7 {
        assert s == "7";
      }
    } else {
      assert |s| == 2 by {
        assert n / 10 < 10;
      }
      assert p == "00" + s;
      PaddedValue("00", s);
    }
  }

  /** Leading zeros do not change a decimal value. */
  lemma {:induction false} PaddedValue(zeros: string, s: string)
    requires forall i | 0 <= i < |zeros| :: zeros[i] == '0'
    requires AllDigits(s)
    ensures AllDigits(zeros + s) && DigitsValue(zeros + s) == DigitsValue(s)
    decreases |s|
  {
    var t := zeros + s;
    if |s| == 0 {
      assert t == zeros;
      AllZeros(zeros);
    } else {
      PaddedValue(zeros, s[..|s| - 1]);
      assert t[..|t| - 1] == zeros + s[..|s| - 1];
      DigitsValueStep(t);
      DigitsValueStep(s);
    }
  }

  lemma {:induction false} AllZeros(zeros: string)
    requires forall i | 0 <= i < |zeros| :: zeros[i] == '0'
    ensures AllDigits(zeros) && DigitsValue(zeros) == 0
    decreases |zeros|
  {
    if |zeros| > 0 {
      AllZeros(zeros[..|zeros| - 1]);
      DigitsValueStep(zeros);
    }
  }

  /** Every seeded table token logs into its own table for one day. */
  lemma SeedTokensLogIn(now: int, rolls: nat -> real, i: nat, later: int)
    requires i < 12 && 0 <= now <= later <= now + OneDay
    ensures var tables := SeedTables(now, rolls);
      LoginWithQR(Db([], tables, [], [], []), tables[i].token, later) ==
        Success((ClientToken(tables[i].id, later), tables[i]))
  {
    var tables := SeedTables(now, rolls);
    var id := "table_" + NatToString(i + 1);
    var p := AuthUtils.Payload(None, Some(id), None, None, Some(now + OneDay), None);
    AuthUtils.VerifyGenerated(p, now, later);
    assert tables[i] == SeedTable(i, now, rolls(i));
    assert tables[i].id == id && tables[i].token == AuthUtils.GenerateJwt(p, now);
    assert AuthUtils.Stamp(p, now).exp == Some(now + OneDay);
    forall j | 0 <= j < 12 && j != i ensures tables[j].id != tables[i].id {
      assert tables[j] == SeedTable(j, now, rolls(j));
      SeedIdsDistinct(i, j);
    }
    QrLoginFindsTable(Db([], tables, [], [], []), tables[i].token, later, i);
  }

  /** A token that verifies and names table `i`, whose id no other table shares, logs into table `i`. */
  lemma QrLoginFindsTable(db: Db, token: string, now: int, i: nat)
    requires i < |db.tables|
    requires AuthUtils.VerifyJwt(token, now).Success?
    requires AuthUtils.VerifyJwt(token, now).value.tableId == Some(db.tables[i].id)
    requires forall j | 0 <= j < |db.tables| && j != i :: db.tables[j].id != db.tables[i].id
    ensures LoginWithQR(db, token, now) == Success((ClientToken(db.tables[i].id, now), db.tables[i]))
  {
    var k := Seqs.FindIndex(db.tables, TableHasId(db.tables[i].id));
    assert k == Some(i);
  }

  lemma SeedIdsDistinct(i: nat, j: nat)
    ensures i != j ==> "table_" + NatToString(i + 1) != "table_" + NatToString(j + 1)
  {
    var a := "table_" + NatToString(i + 1);
    var b := "table_" + NatToString(j + 1);
    if a == b {
      assert a[6..] == NatToString(i + 1);
      assert b[6..] == NatToString(j + 1);
      NatToStringInjective(i + 1, j + 1);
    }
  }

  const SeedProducts: seq<Product> :=
    [Product("prod_1", "Hambúrguer Artesanal", "Hambúrguer 200g com queijo, bacon, alface e tomate", 32.90,
             "Lanches", "https://images.unsplash.com/photo-1568901346375-23c9450c58cd?w=400", true,
             ["Glúten", "Lactose"], ["Novo", "Mais Vendido"], 15),
     Product("prod_2", "Pizza Margherita", "Molho de tomate, mussarela, manjericão e azeite", 45.00,
             "Pizzas", "https://images.unsplash.com/photo-1513104890138-7c749659a591?w=400", true,
             ["Glúten", "Lactose"], ["Vegetariano"], 20),
     Product("prod_3", "Salada Caesar", "Alface romana, croutons, parmesão e molho caesar", 28.50,
             "Saladas", "https://images.unsplash.com/photo-1551248429-40975aa4de74?w=400", true,
             ["Lactose"], ["Vegetariano", "Leve"], 8),
     Product("prod_4", "Salmão Grelhado", "Salmão grelhado com legumes no vapor", 58.90,
             "Peixes", "https://images.unsplash.com/photo-1467003909585-2f8a72700288?w=400", true,
             ["Peixe"], ["Premium", "Sem Glúten"], 25),
     Product("prod_5", "Coca-Cola 350ml", "Refrigerante gelado", 8.90,
             "Bebidas", "https://images.unsplash.com/photo-1629203851122-3726ecdf080e?w=400", true,
             [], [], 2)]

  /** Every seeded product has a positive price and is available. */
  lemma SeedProductsOnSale()
    ensures |SeedProducts| == 5
    ensures forall i | 0 <= i < |SeedProducts| :: SeedProducts[i].price > 0.0 && SeedProducts[i].available
  {
  }

  /** The two seeded orders, created 15 and 25 minutes before `now`. */
  function SeedOrders(now: int): (orders: seq<Order>)
    ensures |orders| == 2
    ensures forall i | 0 <= i < |orders| :: orders[i].createdAt < orders[i].updatedAt <= now
  {
    [Order("order_1", "table_3",
           [OrderItem("prod_1", 2, None, None), OrderItem("prod_5", 2, None, None)],
           Preparing, 83.70, now - 15 * 60000, now - 10 * 60000, None),
     Order("order_2", "table_7",
           [OrderItem("prod_2", 1, None, None), OrderItem("prod_3", 1, None, None)],
           Ready, 73.50, now - 25 * 60000, now - 5 * 60000, None)]
  }

  /** The seeded order 2 is priced right: one pizza and one salad. The seeded order 1 claims
      83.70 for two burgers and two colas, ten cents more than their catalogue price of 83.60. */
  lemma SeedOrderTotals(now: int)
    ensures var o, ps := SeedOrders(now)[1], SeedProducts;
      o.items[0].productId == ps[1].id && o.items[1].productId == ps[2].id &&
      o.total == o.items[0].quantity as real * ps[1].price + o.items[1].quantity as real * ps[2].price
    ensures var o, ps := SeedOrders(now)[0], SeedProducts;
      o.items[0].productId == ps[0].id && o.items[1].productId == ps[4].id &&
      o.items[0].quantity as real * ps[0].price + o.items[1].quantity as real * ps[4].price == 83.60 &&
      o.total == 83.60 + 0.10
  {
  }

  /** The seeded database (`seedData()`). */
  function Seed(now: int, rolls: nat -> real): (db: Db)
    ensures |db.users| == 3 && |db.tables| == 12 && |db.products| == 5 && |db.orders| == 2 && db.calls == []
  {
    Db(SeedUsers(now), SeedTables(now, rolls), SeedProducts, SeedOrders(now), [])
  }

  /** The three demo accounts log in with their documented passwords and roles; a wrong
      password is refused, and one with a character `btoa` refuses throws its error. */
  lemma SeedLogins(now: int, rolls: nat -> real, later: int)
    ensures var db := Seed(now, rolls);
      Login(db, "admin@rest.com", "admin123", later).Success? &&
      Login(db, "admin@rest.com", "admin123", later).value.1.role == Admin &&
      Login(db, "cozinha@rest.com", "kds123", later).Success? &&
      Login(db, "cozinha@rest.com", "kds123", later).value.1.scope == Some(KitchenScope) &&
      Login(db, "admin@rest.com", "staff123", later) == Failure(InvalidCredentials) &&
      Login(db, "admin@rest.com", "senha\U{20ac}", later) == Failure(AuthUtils.InvalidCharacter)
  {
    SeedUserLogins(Seed(now, rolls), now, later);
  }

  lemma SeedUserLogins(db: Db, now: int, later: int)
    requires db.users == SeedUsers(now)
    ensures Login(db, "admin@rest.com", "admin123", later).Success?
    ensures Login(db, "admin@rest.com", "admin123", later).value.1.role == Admin
    ensures Login(db, "cozinha@rest.com", "kds123", later).Success?
    ensures Login(db, "cozinha@rest.com", "kds123", later).value.1.scope == Some(KitchenScope)
    ensures Login(db, "admin@rest.com", "staff123", later) == Failure(InvalidCredentials)
    ensures Login(db, "admin@rest.com", "senha\U{20ac}", later) == Failure(AuthUtils.InvalidCharacter)
  {
    assert AuthUtils.BtoaAccepts("admin123") && AuthUtils.BtoaAccepts("kds123") && AuthUtils.BtoaAccepts("staff123");
    AuthUtils.PasswordCheck("admin123", "staff123");
    LoginAt(db, "admin@rest.com", "admin123", later, 0);
    LoginAt(db, "cozinha@rest.com", "kds123", later, 2);
    LoginAt(db, "admin@rest.com", "staff123", later, 0);
    var wide := "senha\U{20ac}";
    assert !AuthUtils.BtoaAccepts(wide) by {
      assert wide[5] as int == 0x20ac;
    }
    LoginAt(db, "admin@rest.com", wide, later, 0);
  }

  /** Logging in with the email of user `i`, when no earlier user has it, checks user `i`'s password. */
  lemma LoginAt(db: Db, email: string, password: string, now: int, i: nat)
    requires i < |db.users| && db.users[i].email == email
    requires forall j | 0 <= j < i :: db.users[j].email != email
    ensures Login(db, email, password, now).Success? <==> AuthUtils.VerifyPassword(password, db.users[i].password) == Success(true)
    ensures Login(db, email, password, now).Success? ==> Login(db, email, password, now).value.1 == WithoutPassword(db.users[i])
  {
    assert Seqs.FindIndex(db.users, UserHasEmail(email)) == Some(i);
  }
}

=== FILE: mock_menu.dfy ===
/** The menu demo data and its helpers (`src/mocks/menu.ts`): the categories, the
    menu items, and the lookup and filter helpers. The module-level item list
    the helpers read is passed in. */
module MockMenu {
  import opened Wrappers
  import Seqs

  datatype Category = Category(id: string, name: string, description: Option<string>, icon: string, order: int)

  datatype Variation = Variation(id: string, name: string, priceModifier: real)

  datatype ExtraKind = Sauce | Side | Protein | Topping
  datatype Extra = Extra(id: string, name: string, price: real, kind: ExtraKind)

  /** `MenuItem`; an absent optional flag reads as false. */
  datatype MenuItem = MenuItem(
    id: string, name: string, description: string, price: real, image: string, category: string,
    tags: seq<string>, allergens: seq<string>,
    isNew: bool, isBestSeller: bool, isVegetarian: bool, isVegan: bool, isGlutenFree: bool,
    spicyLevel: Option<int>, preparationTime: int, calories: Option<int>,
    variations: seq<Variation>, extras: seq<Extra>)

  // ---------------------------------------------------------------------
  // Seed data

  /** `categories`. */
  function SeedCategories(): (cs: seq<Category>)
    ensures |cs| == 6
  {
    [Category("entradas", "Entradas", Some("Para começar bem"), "🥗", 1),
     Category("pratos", "Pratos Principais", Some("Nossos melhores pratos"), "🍽️", 2),
     Category("massas", "Massas", Some("Frescas e artesanais"), "🍝", 3),
     Category("carnes", "Carnes", Some("Grelhadas na perfeição"), "🥩", 4),
     Category("bebidas", "Bebidas", Some("Refrescantes e especiais"), "🥤", 5),
     Category("sobremesas", "Sobremesas", Some("Finalize com doçura"), "🍰", 6)]
  }

  /** The seeded descriptions, by position. */
  const Description0 := "Pão artesanal com tomate confitado, mussarela de búfala, manjericão fresco e azeite extra virgem"
  const Description1 := "Nossa famosa coxinha recheada com costela desfiada e catupiry, empanada na hora"
  const Description2 := "Filé de salmão grelhado com ervas finas, acompanhado de risotto de camarão e legumes salteados"
  const Description3 := "Quinoa, grão-de-bico, abacate, tomate cereja, pepino, brócolis no vapor e tahine"
  const Description4 := "Massa fresca com moluscos, alho, vinho branco, salsa e pimenta calabresa"
  const Description5 := "Nhoque artesanal de abóbora com molho de gorgonzola, nozes e sálvia"
  const Description6 := "Picanha maturada grelhada no ponto, acompanha farofa, vinagrete e pão de alho"
  const Description7 := "Cachaça artesanal, maracujá fresco, açúcar mascavo e gelo"
  const Description8 := "Couve, maçã verde, gengibre, limão e água de coco"
  const Description9 := "Bolinho quente de chocolate com recheio cremoso, acompanha sorvete de baunilha"
  const Description10 := "Receita tradicional italiana com café espresso, mascarpone e cacau"

  /** The image URL of a seeded item: an Unsplash photo cropped to 400 by 300. */
  function Photo(key: string): string {
    "https://images.unsplash.com/photo-" + key + "?w=400&h=300&fit=crop"
  }

  const Entrada1: MenuItem :=
    MenuItem("entrada-1", "Bruschetta Mediterrânea", Description0,
      32.90, Photo("1572695157366-5e585ab2b69f"),
      "entradas", ["vegetariano", "mediterrâneo"], ["glúten", "lactose"],
      true, false, true, false, false, None, 8, Some(280), [],
      [Extra("extra-1", "Queijo extra", 5.00, Topping), Extra("extra-2", "Rúcula", 3.00, Topping)])

  const Entrada2: MenuItem :=
    MenuItem("entrada-2", "Coxinha de Costela", Description1,
      18.90, Photo("1603133872878-684f208fb84b"),
      "entradas", ["tradicional", "frito"], ["glúten", "lactose", "ovo"],
      false, true, false, false, false, None, 12, Some(350),
      [Variation("var-1", "Tradicional (2 unidades)", 0.0), Variation("var-2", "Combo (4 unidades)", 14.00)], [])

  const Prato1: MenuItem :=
    MenuItem("prato-1", "Salmão Grelhado com Risotto", Description2,
      89.90, Photo("1467003909585-2f8a72700288"),
      "pratos", ["peixe", "gourmet"], ["peixe", "crustáceos", "lactose"],
      false, true, false, false, false, None, 25, Some(650),
      [Variation("var-3", "Risotto de camarão", 0.0), Variation("var-4", "Risotto de cogumelos", -5.00)], [])

  const Prato2: MenuItem :=
    MenuItem("prato-2", "Bowl Vegano Power", Description3,
      42.90, Photo("1512621776951-a57141f2eefd"),
      "pratos", ["vegano", "saudável", "bowl"], ["gergelim"],
      false, false, false, true, true, None, 15, Some(420), [], [])

  const Massa1: MenuItem :=
    MenuItem("massa-1", "Linguine alle Vongole", Description4,
      67.90, Photo("1551892374-ecf8754cf8b0"),
      "massas", ["italiana", "frutos-do-mar"], ["glúten", "moluscos", "álcool"],
      false, false, false, false, false, Some(2), 20, Some(580), [], [])

  const Massa2: MenuItem :=
    MenuItem("massa-2", "Gnocchi de Abóbora", Description5,
      54.90, Photo("1473093295043-cdd812d0e601"),
      "massas", ["italiana", "vegetariano"], ["glúten", "lactose", "nozes"],
      false, false, true, false, false, None, 18, Some(520), [], [])

  const Carne1: MenuItem :=
    MenuItem("carne-1", "Picanha Premium 400g", Description6,
      124.90, Photo("1558030006-450675393462"),
      "carnes", ["churrasco", "premium"], ["glúten"],
      false, true, false, false, false, None, 30, Some(850),
      [Variation("var-5", "Mal passada", 0.0), Variation("var-6", "Ao ponto", 0.0),
       Variation("var-7", "Bem passada", 0.0)],
      [Extra("extra-3", "Queijo coalho", 12.00, Side), Extra("extra-4", "Mandioca frita", 8.00, Side)])

  const Bebida1: MenuItem :=
    MenuItem("bebida-1", "Caipirinha de Maracujá", Description7,
      24.90, Photo("1551538827-9c037cb4f32a"),
      "bebidas", ["coquetéis", "tradicional"], ["álcool"],
      false, false, false, false, false, None, 5, Some(180), [], [])

  const Bebida2: MenuItem :=
    MenuItem("bebida-2", "Suco Verde Detox", Description8,
      16.90, Photo("1610970881699-44a5587cabec"),
      "bebidas", ["saudável", "detox", "sem açúcar"], [],
      false, false, false, true, true, None, 3, Some(85), [], [])

  const Sobremesa1: MenuItem :=
    MenuItem("sobremesa-1", "Petit Gâteau de Chocolate", Description9,
      28.90, Photo("1606313564200-e75d5e30476c"),
      "sobremesas", ["chocolate", "quente"], ["glúten", "lactose", "ovo"],
      false, true, false, false, false, None, 12, Some(420), [], [])

  const Sobremesa2: MenuItem :=
    MenuItem("sobremesa-2", "Tiramisù da Casa", Description10,
      26.90, Photo("1571877227200-a0d98ea607e9"),
      "sobremesas", ["italiano", "café"], ["glúten", "lactose", "ovo", "álcool"],
      false, false, false, false, false, None, 8, Some(380), [], [])

  /** The `k`-th entry of `menuItems`. */
  function SeedItem(k: nat): MenuItem
    requires k < 11
  {
    if k == 0 then Entrada1
    else if k == 1 then Entrada2
    else if k == 2 then Prato1
    else if k == 3 then Prato2
    else if k == 4 then Massa1
    else if k == 5 then Massa2
    else if k == 6 then Carne1
    else if k == 7 then Bebida1
    else if k == 8 then Bebida2
    else if k == 9 then Sobremesa1
    else Sobremesa2
  }

  /** `menuItems`. */
  function SeedItems(): (items: seq<MenuItem>)
    ensures |items| == 11
  {
    seq(11, k requires 0 <= k < 11 => SeedItem(k))
  }

  /** The ids of some items, in order. */
  function Ids(items: seq<MenuItem>): (ids: seq<string>)
    ensures |ids| == |items|
    ensures forall i | 0 <= i < |items| :: ids[i] == items[i].id
  {
    seq(|items|, i requires 0 <= i < |items| => items[i].id)
  }

  /** The ids of the declared categories, in order. */
  function CategoryIds(cs: seq<Category>): (ids: seq<string>)
    ensures |ids| == |cs|
    ensures forall i | 0 <= i < |cs| :: ids[i] == cs[i].id
  {
    seq(|cs|, i requires 0 <= i < |cs| => cs[i].id)
  }

  /** The seeded ids, in order. */
  const SeedIds: seq<string> :=
    ["entrada-1", "entrada-2", "prato-1", "prato-2", "massa-1", "massa-2",
     "carne-1", "bebida-1", "bebida-2", "sobremesa-1", "sobremesa-2"]

  /** The category of each seeded item, in order. */
  const SeedItemCategories: seq<string> :=
    ["entradas", "entradas", "pratos", "pratos", "massas", "massas",
     "carnes", "bebidas", "bebidas", "sobremesas", "sobremesas"]

  /** The id and category of every seeded item. */
  lemma SeedItemKeys(k: nat)
    requires k < 11
    ensures SeedItem(k).id == SeedIds[k]
    ensures SeedItem(k).category == SeedItemCategories[k]
  {
    if k < 4 {
      if k == 0 {} else if k == 1 {} else if k == 2 {} else {}
    } else if k < 8 {
      if k == 4 {} else if k == 5 {} else if k == 6 {} else {}
    } else {
      if k == 8 {} else if k == 9 {} else {}
    }
  }

  lemma SeedIdListDistinct()
    ensures forall i, j | 0 <= i < j < |SeedIds| :: SeedIds[i] != SeedIds[j]
  {
  }

  /** The seeded items have distinct ids. */
  lemma SeedIdsDistinct()
    ensures var ids := Ids(SeedItems());
      forall i, j | 0 <= i < j < |ids| :: ids[i] != ids[j]
  {
    forall i, j | 0 <= i < j < 11 ensures SeedItems()[i].id != SeedItems()[j].id {
      SeedItemKeys(i);
      SeedItemKeys(j);
      SeedIdListDistinct();
    }
  }

  /** Every seeded item belongs to a declared category. */
  lemma SeedCategoriesDeclared()
    ensures forall m | m in SeedItems() :: m.category in CategoryIds(SeedCategories())
  {
    var declared := CategoryIds(SeedCategories());
    assert declared == ["entradas", "pratos", "massas", "carnes", "bebidas", "sobremesas"];
    forall m | m in SeedItems() ensures m.category in declared {
      var k :| 0 <= k < 11 && SeedItems()[k] == m;
      SeedItemKeys(k);
    }
  }

  // ---------------------------------------------------------------------
  // Helpers

  function InCategory(c: string): MenuItem -> bool { (m: MenuItem) => m.category == c }
  function HasId(id: string): MenuItem -> bool { (m: MenuItem) => m.id == id }
  function IsNew(): MenuItem -> bool { (m: MenuItem) => m.isNew }
  function IsBestSeller(): MenuItem -> bool { (m: MenuItem) => m.isBestSeller }

  /** `tags.some(tag => item.tags.includes(tag))`. */
  predicate HasSomeTag(m: MenuItem, tags: seq<string>) {
    exists i | 0 <= i < |tags| :: tags[i] in m.tags
  }

  function TaggedWithAny(tags: seq<string>): MenuItem -> bool { (m: MenuItem) => HasSomeTag(m, tags) }

  /** `getItemsByCategory(categoryId)`. */
  function ItemsByCategory(items: seq<MenuItem>, c: string): (r: seq<MenuItem>)
    ensures forall m :: m in r <==> m in items && m.category == c
  {
    Seqs.Filter(items, InCategory(c))
  }

  /** `getItemById(id)`: the first item with that id. */
  function ItemById(items: seq<MenuItem>, id: string): (r: Option<MenuItem>)
    ensures r.Some? ==> exists i | 0 <= i < |items| ::
      items[i] == r.value && r.value.id == id && forall j | 0 <= j < i :: items[j].id != id
    ensures r.None? <==> forall m | m in items :: m.id != id
  {
    Seqs.Find(items, HasId(id))
  }

  /** `filterItemsByTags(items, tags)`: no tags keeps the list; otherwise the items carrying
      at least one of the tags, in order. */
  function FilterItemsByTags(items: seq<MenuItem>, tags: seq<string>): (r: seq<MenuItem>)
    ensures tags == [] ==> r == items
    ensures tags != [] ==> forall m :: m in r <==> m in items && exists t | t in tags :: t in m.tags
    ensures tags != [] ==> r == Seqs.Filter(items, TaggedWithAny(tags))
  {
    if |tags| == 0 then items else Seqs.Filter(items, TaggedWithAny(tags))
  }

  /** Asking for more tags never drops an item. */
  lemma MoreTagsKeepItems(items: seq<MenuItem>, tags: seq<string>, more: seq<string>)
    requires tags != []
    ensures forall m | m in FilterItemsByTags(items, tags) :: m in FilterItemsByTags(items, tags + more)
  {
    forall m | m in FilterItemsByTags(items, tags)
      ensures m in FilterItemsByTags(items, tags + more)
    {
      var i :| 0 <= i < |tags| && tags[i] in m.tags;
      assert (tags + more)[i] == tags[i];
    }
  }

  /** `getNewItems()`. */
  function NewItems(items: seq<MenuItem>): (r: seq<MenuItem>)
    ensures forall m :: m in r <==> m in items && m.isNew
  {
    Seqs.Filter(items, IsNew())
  }

  /** `getBestSellers()`. */
  function BestSellers(items: seq<MenuItem>): (r: seq<MenuItem>)
    ensures forall m :: m in r <==> m in items && m.isBestSeller
  {
    Seqs.Filter(items, IsBestSeller())
  }

  /** The helpers keep the relative order of the items they select. */
  lemma HelpersKeepOrder(a: seq<MenuItem>, b: seq<MenuItem>, c: string, tags: seq<string>)
    ensures ItemsByCategory(a + b, c) == ItemsByCategory(a, c) + ItemsByCategory(b, c)
    ensures FilterItemsByTags(a + b, tags) == FilterItemsByTags(a, tags) + FilterItemsByTags(b, tags)
    ensures NewItems(a + b) == NewItems(a) + NewItems(b)
    ensures BestSellers(a + b) == BestSellers(a) + BestSellers(b)
  {
    Seqs.FilterAppend(a, b, InCategory(c));
    Seqs.FilterAppend(a, b, TaggedWithAny(tags));
    Seqs.FilterAppend(a, b, IsNew());
    Seqs.FilterAppend(a, b, IsBestSeller());
  }
}

=== FILE: mock_orders.dfy ===
/** The kitchen demo data and its helpers (`src/mocks/orders.ts`): orders with
    subtotal, service charge and total, kitchen-display tickets, the ticket
    filters and the elapsed-time helpers. The module-level ticket list the
    helpers read is passed in; the seeds take `now` for `Date.now()`. */
module MockOrders {
  import opened Wrappers
  import Seqs
  import Elapsed

  datatype PriceTag = PriceTag(id: string, name: string, price: real)

  datatype OrderItem = OrderItem(
    id: string, menuItemId: string, name: string, quantity: int, unitPrice: real, totalPrice: real,
    variations: seq<PriceTag>, extras: seq<PriceTag>, specialInstructions: Option<string>, allergens: seq<string>)

  datatype OrderStatus = Pending | Preparing | Ready | Delivered | Cancelled
  datatype Station = Kitchen | Bar | Dessert
  datatype Priority = Low | Normal | High | Urgent

  datatype Order = Order(
    id: string, tableNumber: int, tableToken: string, status: OrderStatus, station: Station,
    items: seq<OrderItem>, subtotal: real, serviceCharge: real, total: real,
    createdAt: int, updatedAt: int, estimatedTime: int, actualTime: Option<int>,
    priority: Priority, customerNotes: Option<string>)

  datatype TicketStatus = TicketPending | TicketPreparing | TicketReady

  datatype Ticket = Ticket(
    id: string, orderId: string, tableNumber: int, status: TicketStatus, station: Station,
    items: seq<OrderItem>, createdAt: int, startedAt: Option<int>, completedAt: Option<int>,
    estimatedTime: int, elapsedTime: int, isOverdue: bool, priority: Priority,
    specialInstructions: Option<string>)

  function StationName(s: Station): string {
    match s
    case Kitchen => "kitchen"
    case Bar => "bar"
    case Dessert => "dessert"
  }

  function TicketStatusName(s: TicketStatus): string {
    match s
    case TicketPending => "pending"
    case TicketPreparing => "preparing"
    case TicketReady => "ready"
  }

  const MinuteMs: int := 60 * 1000

  // ---------------------------------------------------------------------
  // Seed data

  function Item(id: string, menuItemId: string, name: string, quantity: int, unitPrice: real, totalPrice: real,
                variations: seq<PriceTag>, extras: seq<PriceTag>, note: Option<string>, allergens: seq<string>): OrderItem {
    OrderItem(id, menuItemId, name, quantity, unitPrice, totalPrice, variations, extras, note, allergens)
  }

  function Order1Items(): seq<OrderItem> {
    [Item("item-001", "prato-1", "Salmão Grelhado com Risotto", 1, 89.90, 89.90,
          [PriceTag("var-3", "Risotto de camarão", 0.0)], [], Some("Salmão mal passado"),
          ["peixe", "crustáceos", "lactose"]),
     Item("item-002", "entrada-1", "Bruschetta Mediterrânea", 2, 32.90, 65.80,
          [], [PriceTag("extra-2", "Rúcula", 3.00)], None, ["glúten", "lactose"])]
  }

  function Order2Items(): seq<OrderItem> {
    [Item("item-003", "carne-1", "Picanha Premium 400g", 1, 124.90, 124.90,
          [PriceTag("var-6", "Ao ponto", 0.0)],
          [PriceTag("extra-3", "Queijo coalho", 12.00), PriceTag("extra-4", "Mandioca frita", 8.00)],
          None, ["glúten"])]
  }

  function Order3Items(): seq<OrderItem> {
    [Item("item-004", "bebida-1", "Caipirinha de Maracujá", 2, 24.90, 49.80, [], [], None, ["álcool"]),
     Item("item-005", "bebida-2", "Suco Verde Detox", 1, 16.90, 16.90, [], [], None, [])]
  }

  /** `mockOrders`, created relative to `now`. */
  function SeedOrders(now: int): (orders: seq<Order>)
    ensures |orders| == 3
  {
    [Order("order-001", 7, "mesa-7-abc123", Preparing, Kitchen, Order1Items(), 155.70, 15.57, 171.27,
           now - 15 * MinuteMs, now - 5 * MinuteMs, 25, None, Normal, Some("Aniversário - se possível, uma surpresa!")),
     Order("order-002", 3, "mesa-3-def456", Pending, Kitchen, Order2Items(), 144.90, 14.49, 159.39,
           now - 8 * MinuteMs, now - 8 * MinuteMs, 30, None, High, None),
     Order("order-003", 12, "mesa-12-ghi789", Ready, Bar, Order3Items(), 66.70, 6.67, 73.37,
           now - 20 * MinuteMs, now - 2 * MinuteMs, 5, Some(18), Normal, None)]
  }

  /** `mockKDSTickets`, created relative to `now`. */
  function SeedTickets(now: int): (tickets: seq<Ticket>)
    ensures |tickets| == 5
  {
    var orders := SeedOrders(now);
    [Ticket("ticket-001", "order-001", 7, TicketPreparing, Kitchen, orders[0].items,
            now - 15 * MinuteMs, Some(now - 10 * MinuteMs), None, 25, 15, false, Normal,
            Some("Salmão mal passado, aniversário!")),
     Ticket("ticket-002", "order-002", 3, TicketPending, Kitchen, orders[1].items,
            now - 8 * MinuteMs, None, None, 30, 8, false, High, None),
     Ticket("ticket-003", "order-003", 12, TicketReady, Bar, orders[2].items,
            now - 20 * MinuteMs, Some(now - 18 * MinuteMs), Some(now - 2 * MinuteMs), 5, 18, true, Normal, None),
     Ticket("ticket-004", "order-004", 5, TicketPending, Dessert,
            [Item("item-006", "sobremesa-1", "Petit Gâteau de Chocolate", 2, 28.90, 57.80, [], [], None,
                  ["glúten", "lactose", "ovo"])],
            now - 5 * MinuteMs, None, None, 12, 5, false, Normal, None),
     Ticket("ticket-005", "order-005", 9, TicketPreparing, Kitchen,
            [Item("item-007", "massa-1", "Linguine alle Vongole", 1, 67.90, 67.90, [], [], Some("Extra picante"),
                  ["glúten", "moluscos", "álcool"])],
            now - 12 * MinuteMs, Some(now - 8 * MinuteMs), None, 20, 12, false, Normal, Some("Extra picante"))]
  }

  /** An item's price with its extras (`unitPrice` + the extras' prices, per unit). */
  function ItemPrice(i: OrderItem): real {
    i.quantity as real * (i.unitPrice + Seqs.SumReal(i.extras, (e: PriceTag) => e.price))
  }

  /** The arithmetic the seeded orders keep. */
  predicate ConsistentOrder(o: Order) {
    && o.total == o.subtotal + o.serviceCharge
    && o.serviceCharge * 10.0 == o.subtotal
    && (forall i | 0 <= i < |o.items| :: o.items[i].totalPrice == o.items[i].quantity as real * o.items[i].unitPrice)
  }

  /** Every seeded order has total = subtotal + 10% service charge, and every line total is quantity × unit price. */
  lemma SeedOrdersConsistent(now: int)
    ensures forall o | o in SeedOrders(now) :: ConsistentOrder(o)
  {
    var os := SeedOrders(now);
    assert ConsistentOrder(os[0]) by { assert os[0].items == Order1Items(); }
    assert ConsistentOrder(os[1]) by { assert os[1].items == Order2Items(); }
    assert ConsistentOrder(os[2]) by { assert os[2].items == Order3Items(); }
  }

  /** The seeded subtotals are the sums of the line totals, with the extras of order-002 counted in. */
  lemma SeedSubtotals(now: int)
    ensures var os := SeedOrders(now);
      os[0].subtotal == os[0].items[0].totalPrice + os[0].items[1].totalPrice &&
      os[1].subtotal == ItemPrice(os[1].items[0]) &&
      os[2].subtotal == os[2].items[0].totalPrice + os[2].items[1].totalPrice
  {
    var extras := Order2Items()[0].extras;
    assert Seqs.SumReal(extras, (e: PriceTag) => e.price) == 20.0 by {
      assert extras[1..][1..] == [];
    }
  }

  /** Every seeded ticket is flagged overdue exactly when its elapsed time exceeds its estimate. */
  lemma SeedTicketsOverdueRule(now: int)
    ensures forall t | t in SeedTickets(now) :: t.isOverdue <==> t.elapsedTime > t.estimatedTime
  {
  }

  // ---------------------------------------------------------------------
  // Helpers

  function AtStation(station: string): Ticket -> bool { (t: Ticket) => StationName(t.station) == station }
  function HasStatus(status: string): Ticket -> bool { (t: Ticket) => TicketStatusName(t.status) == status }
  function Overdue(): Ticket -> bool { (t: Ticket) => t.isOverdue }

  /** `getTicketsByStation(station)`. */
  function TicketsByStation(tickets: seq<Ticket>, station: string): (r: seq<Ticket>)
    ensures forall t :: t in r <==> t in tickets && StationName(t.station) == station
  {
    Seqs.Filter(tickets, AtStation(station))
  }

  /** `getTicketsByStatus(status)`. */
  function TicketsByStatus(tickets: seq<Ticket>, status: string): (r: seq<Ticket>)
    ensures forall t :: t in r <==> t in tickets && TicketStatusName(t.status) == status
  {
    Seqs.Filter(tickets, HasStatus(status))
  }

  /** `getOverdueTickets()`. */
  function OverdueTickets(tickets: seq<Ticket>): (r: seq<Ticket>)
    ensures forall t :: t in r <==> t in tickets && t.isOverdue
  {
    Seqs.Filter(tickets, Overdue())
  }

  /** The filters keep the relative order: filtering a concatenation filters each part. */
  lemma TicketFiltersKeepOrder(a: seq<Ticket>, b: seq<Ticket>, station: string, status: string)
    ensures TicketsByStation(a + b, station) == TicketsByStation(a, station) + TicketsByStation(b, station)
    ensures TicketsByStatus(a + b, status) == TicketsByStatus(a, status) + TicketsByStatus(b, status)
    ensures OverdueTickets(a + b) == OverdueTickets(a) + OverdueTickets(b)
  {
    Seqs.FilterAppend(a, b, AtStation(station));
    Seqs.FilterAppend(a, b, HasStatus(status));
    Seqs.FilterAppend(a, b, Overdue());
  }

  /** A status tag that is none of the three ticket statuses selects nothing. */
  lemma UnknownStatusSelectsNothing(tickets: seq<Ticket>, status: string)
    requires status != "pending" && status != "preparing" && status != "ready"
    ensures TicketsByStatus(tickets, status) == []
  {
    Seqs.FilterNonePass(tickets, HasStatus(status));
  }

  /** `calculateElapsedTime(createdAt)` at time `now`. */
  function CalculateElapsedTime(createdAt: int, now: int): (m: int)
    ensures MinuteMs * m <= now - createdAt < MinuteMs * (m + 1)
  {
    Elapsed.ElapsedMinutes(createdAt, now)
  }

  /** `formatElapsedTime(minutes)`: the compact form, which reads back as the minutes it shows. */
  function FormatElapsedTime(minutes: int): (s: string)
    ensures minutes >= 0 ==> Elapsed.ParseDuration(s, "m") == Some(minutes)
  {
    if minutes >= 0 then
      Elapsed.CompactRoundTrip(minutes);
      Elapsed.Compact(minutes)
    else Elapsed.Compact(minutes)
  }
}

=== FILE: mock_tables.dfy ===
/** The floor demo data and its helpers (`src/mocks/tables.ts`): the 5×5 table
    grid, the waiter calls and the staff list, the lookup and filter helpers,
    the call-overdue rule, the call elapsed-time text and the two colour maps.
    The module-level lists the helpers read are passed in; the seeds take `now`
    for `Date.now()`. */
module MockTables {
  import opened Wrappers
  import Seqs
  import Elapsed
  import opened JsObject

  datatype TableStatus = Available | Occupied | Reserved | NeedsService | NeedsCleaning | OutOfOrder

  datatype Position = Position(x: int, y: int)

  /** The order a table is running: its id, total, start time and item count. */
  datatype CurrentOrder = CurrentOrder(id: string, total: real, startTime: int, itemCount: int)

  datatype Table = Table(
    id: string, number: int, capacity: int, status: TableStatus, section: string, position: Position,
    currentOrder: Option<CurrentOrder>, lastService: Option<int>, qrToken: string)

  datatype CallType = Water | Utensils | Bill | Assistance | Complaint | OrderReady
  datatype Priority = Low | Normal | High | Urgent
  datatype CallStatus = Pending | Attending | Resolved

  /** A waiter call; `estimatedResponseTime` and `elapsedTime` are in minutes. */
  datatype WaiterCall = WaiterCall(
    id: string, tableNumber: int, kind: CallType, message: Option<string>, priority: Priority,
    status: CallStatus, createdAt: int, respondedAt: Option<int>, resolvedAt: Option<int>,
    assignedWaiterId: Option<string>, estimatedResponseTime: int, elapsedTime: int)

  datatype StaffRole = Waiter | Bartender | Chef | Manager
  datatype StaffStatus = StaffAvailable | Busy | Break | Offline

  datatype Staff = Staff(id: string, name: string, role: StaffRole, status: StaffStatus, assignedSection: Option<string>)

  function TableStatusName(s: TableStatus): string {
    match s
    case Available => "available"
    case Occupied => "occupied"
    case Reserved => "reserved"
    case NeedsService => "needs_service"
    case NeedsCleaning => "needs_cleaning"
    case OutOfOrder => "out_of_order"
  }

  function PriorityName(p: Priority): string {
    match p
    case Low => "low"
    case Normal => "normal"
    case High => "high"
    case Urgent => "urgent"
  }

  const MinuteMs: int := 60 * 1000

  // ---------------------------------------------------------------------
  // Seed data

  /** `mockTables`: the 25 tables of the 5×5 grid, times relative to `now`. */
  function SeedTables(now: int): (tables: seq<Table>)
    ensures |tables| == 25
  {
    [
     Table("table-01", 1, 2, Available, "A", Position(1, 1), None, None, "mesa-1-qr001"),
     Table("table-02", 2, 4, Occupied, "A", Position(2, 1), Some(CurrentOrder("order-001", 171.27, now - 45 * MinuteMs, 3)), None, "mesa-2-qr002"),
     Table("table-03", 3, 4, Occupied, "A", Position(3, 1), Some(CurrentOrder("order-002", 159.39, now - 25 * MinuteMs, 1)), None, "mesa-3-qr003"),
     Table("table-04", 4, 6, NeedsService, "A", Position(4, 1), None, None, "mesa-4-qr004"),
     Table("table-05", 5, 2, Available, "A", Position(5, 1), None, None, "mesa-5-qr005"),
     Table("table-06", 6, 4, Reserved, "B", Position(1, 2), None, None, "mesa-6-qr006"),
     Table("table-07", 7, 4, Occupied, "B", Position(2, 2), Some(CurrentOrder("order-003", 73.37, now - 60 * MinuteMs, 2)), None, "mesa-7-qr007"),
     Table("table-08", 8, 8, Occupied, "B", Position(3, 2), Some(CurrentOrder("order-004", 342.80, now - 35 * MinuteMs, 6)), None, "mesa-8-qr008"),
     Table("table-09", 9, 4, NeedsCleaning, "B", Position(4, 2), None, Some(now - 10 * MinuteMs), "mesa-9-qr009"),
     Table("table-10", 10, 2, Available, "B", Position(5, 2), None, None, "mesa-10-qr010"),
     Table("table-11", 11, 6, Available, "C", Position(1, 3), None, None, "mesa-11-qr011"),
     Table("table-12", 12, 4, Occupied, "C", Position(2, 3), Some(CurrentOrder("order-005", 89.50, now - 20 * MinuteMs, 2)), None, "mesa-12-qr012"),
     Table("table-13", 13, 4, Available, "C", Position(3, 3), None, None, "mesa-13-qr013"),
     Table("table-14", 14, 2, OutOfOrder, "C", Position(4, 3), None, None, "mesa-14-qr014"),
     Table("table-15", 15, 4, Available, "C", Position(5, 3), None, None, "mesa-15-qr015"),
     Table("table-16", 16, 2, Reserved, "D", Position(1, 4), None, None, "mesa-16-qr016"),
     Table("table-17", 17, 4, Available, "D", Position(2, 4), None, None, "mesa-17-qr017"),
     Table("table-18", 18, 6, NeedsService, "D", Position(3, 4), None, None, "mesa-18-qr018"),
     Table("table-19", 19, 4, Available, "D", Position(4, 4), None, None, "mesa-19-qr019"),
     Table("table-20", 20, 8, Occupied, "D", Position(5, 4), Some(CurrentOrder("order-006", 245.60, now - 40 * MinuteMs, 4)), None, "mesa-20-qr020"),
     Table("table-21", 21, 2, Available, "E", Position(1, 5), None, None, "mesa-21-qr021"),
     Table("table-22", 22, 4, Available, "E", Position(2, 5), None, None, "mesa-22-qr022"),
     Table("table-23", 23, 4, NeedsCleaning, "E", Position(3, 5), None, Some(now - 5 * MinuteMs), "mesa-23-qr023"),
     Table("table-24", 24, 6, Available, "E", Position(4, 5), None, None, "mesa-24-qr024"),
     Table("table-25", 25, 4, Available, "E", Position(5, 5), None, None, "mesa-25-qr025")
    ]
  }

  /** `mockWaiterCalls`, created relative to `now`. */
  function SeedCalls(now: int): (calls: seq<WaiterCall>)
    ensures |calls| == 5
  {
    [WaiterCall("call-001", 4, Water, None, Normal, Pending, now - 3 * MinuteMs, None, None, None, 5, 3),
     WaiterCall("call-002", 7, Bill, None, High, Attending, now - 8 * MinuteMs, Some(now - 2 * MinuteMs), None,
                Some("waiter-001"), 3, 8),
     WaiterCall("call-003", 18, Assistance, Some("Cliente precisa de ajuda com alergia alimentar"), Urgent, Pending,
                now - 1 * MinuteMs, None, None, None, 2, 1),
     WaiterCall("call-004", 12, OrderReady, None, High, Resolved, now - 15 * MinuteMs, Some(now - 12 * MinuteMs),
                Some(now - 10 * MinuteMs), Some("waiter-002"), 2, 15),
     WaiterCall("call-005", 20, Utensils, None, Low, Pending, now - 6 * MinuteMs, None, None, None, 8, 6)]
  }

  /** `mockStaff` (the avatar URLs are left out). */
  function SeedStaff(): (staff: seq<Staff>)
    ensures |staff| == 6
  {
    [Staff("waiter-001", "Ana Silva", Waiter, Busy, Some("A")),
     Staff("waiter-002", "Carlos Santos", Waiter, StaffAvailable, Some("B")),
     Staff("waiter-003", "Maria Oliveira", Waiter, StaffAvailable, Some("C")),
     Staff("bartender-001", "João Costa", Bartender, StaffAvailable, None),
     Staff("chef-001", "Pedro Ferreira", Chef, Busy, None),
     Staff("manager-001", "Laura Mendes", Manager, StaffAvailable, None)]
  }

  /** The seeded grid is numbered 1..25 in order, so numbers are distinct. */
  lemma SeedTablesNumbered(now: int)
    ensures var ts := SeedTables(now);
      forall i | 0 <= i < |ts| :: ts[i].number == i + 1
  {
  }

  /** Exactly the occupied seeded tables carry a current order. */
  lemma SeedCurrentOrders(now: int)
    ensures var ts := SeedTables(now);
      forall i | 0 <= i < |ts| :: ts[i].currentOrder.Some? <==> ts[i].status == Occupied
  {
  }

  /** Distinct positions in the seeded list hold distinct table numbers. */
  lemma SeedNumbersDistinct(now: int)
    ensures var ts := SeedTables(now);
      forall i, j | 0 <= i < j < |ts| :: ts[i].number != ts[j].number
  {
    SeedTablesNumbered(now);
  }

  // ---------------------------------------------------------------------
  // Helpers

  function HasNumber(n: int): Table -> bool { (t: Table) => t.number == n }
  function HasStatus(s: TableStatus): Table -> bool { (t: Table) => t.status == s }
  function InSection(section: string): Table -> bool { (t: Table) => t.section == section }
  function IsPending(): WaiterCall -> bool { (c: WaiterCall) => c.status == Pending }
  function HasPriority(p: Priority): WaiterCall -> bool { (c: WaiterCall) => c.priority == p }
  function IsOverdue(): WaiterCall -> bool {
    (c: WaiterCall) => c.elapsedTime > c.estimatedResponseTime && c.status == Pending
  }
  function IsFree(): Staff -> bool { (s: Staff) => s.status == StaffAvailable }
  function AssignedTo(section: string): Staff -> bool { (s: Staff) => s.assignedSection == Some(section) }

  /** `getTableByNumber(number)`: the first table with that number. */
  function GetTableByNumber(tables: seq<Table>, n: int): (r: Option<Table>)
    ensures r.Some? ==> exists i | 0 <= i < |tables| ::
      tables[i] == r.value && r.value.number == n && forall j | 0 <= j < i :: tables[j].number != n
    ensures r.None? <==> forall j | 0 <= j < |tables| :: tables[j].number != n
  {
    Seqs.Find(tables, HasNumber(n))
  }

  /** On the seeded grid, exactly the numbers 1..25 are found, each at its own slot. */
  lemma SeedLookup(now: int, n: int)
    ensures 1 <= n <= 25 ==> GetTableByNumber(SeedTables(now), n) == Some(SeedTables(now)[n - 1])
    ensures !(1 <= n <= 25) ==> GetTableByNumber(SeedTables(now), n) == None
  {
    var ts := SeedTables(now);
    SeedTablesNumbered(now);
    var r := GetTableByNumber(ts, n);
    if r.Some? {
      var i :| 0 <= i < |ts| && ts[i] == r.value && r.value.number == n;
    }
  }

  /** `getTablesByStatus(status)`. */
  function TablesByStatus(tables: seq<Table>, status: TableStatus): (r: seq<Table>)
    ensures forall t :: t in r <==> t in tables && t.status == status
  {
    Seqs.Filter(tables, HasStatus(status))
  }

  /** `getTablesBySection(section)`. */
  function TablesBySection(tables: seq<Table>, section: string): (r: seq<Table>)
    ensures forall t :: t in r <==> t in tables && t.section == section
  {
    Seqs.Filter(tables, InSection(section))
  }

  /** `getPendingCalls()`. */
  function PendingCalls(calls: seq<WaiterCall>): (r: seq<WaiterCall>)
    ensures forall c :: c in r <==> c in calls && c.status == Pending
  {
    Seqs.Filter(calls, IsPending())
  }

  /** `getCallsByPriority(priority)`. */
  function CallsByPriority(calls: seq<WaiterCall>, p: Priority): (r: seq<WaiterCall>)
    ensures forall c :: c in r <==> c in calls && c.priority == p
  {
    Seqs.Filter(calls, HasPriority(p))
  }

  /** `getOverdueCalls()`: pending calls that have waited longer than their estimate. */
  function OverdueCalls(calls: seq<WaiterCall>): (r: seq<WaiterCall>)
    ensures forall c :: c in r <==> c in calls && c.status == Pending && c.elapsedTime > c.estimatedResponseTime
  {
    Seqs.Filter(calls, IsOverdue())
  }

  /** `getAvailableStaff()`. */
  function AvailableStaff(staff: seq<Staff>): (r: seq<Staff>)
    ensures forall s :: s in r <==> s in staff && s.status == StaffAvailable
  {
    Seqs.Filter(staff, IsFree())
  }

  /** `getStaffBySection(section)`: staff without a section never match. */
  function StaffBySection(staff: seq<Staff>, section: string): (r: seq<Staff>)
    ensures forall s :: s in r <==> s in staff && s.assignedSection == Some(section)
  {
    Seqs.Filter(staff, AssignedTo(section))
  }

  /** The filters keep the relative order of the records they select. */
  lemma FiltersKeepOrder(a: seq<Table>, b: seq<Table>, c1: seq<WaiterCall>, c2: seq<WaiterCall>,
                         status: TableStatus, section: string, p: Priority)
    ensures TablesByStatus(a + b, status) == TablesByStatus(a, status) + TablesByStatus(b, status)
    ensures TablesBySection(a + b, section) == TablesBySection(a, section) + TablesBySection(b, section)
    ensures PendingCalls(c1 + c2) == PendingCalls(c1) + PendingCalls(c2)
    ensures CallsByPriority(c1 + c2, p) == CallsByPriority(c1, p) + CallsByPriority(c2, p)
    ensures OverdueCalls(c1 + c2) == OverdueCalls(c1) + OverdueCalls(c2)
  {
    Seqs.FilterAppend(a, b, HasStatus(status));
    Seqs.FilterAppend(a, b, InSection(section));
    Seqs.FilterAppend(c1, c2, IsPending());
    Seqs.FilterAppend(c1, c2, HasPriority(p));
    Seqs.FilterAppend(c1, c2, IsOverdue());
  }

  /** None of the seeded calls is overdue: the two calls past their estimate are already
      being attended or resolved. */
  lemma SeedCallsNotOverdue(now: int)
    ensures OverdueCalls(SeedCalls(now)) == []
  {
    var cs := SeedCalls(now);
    assert !IsOverdue()(cs[0]) && !IsOverdue()(cs[1]) && !IsOverdue()(cs[2]);
    assert !IsOverdue()(cs[3]) && !IsOverdue()(cs[4]);
    Seqs.FilterNonePass(cs, IsOverdue());
  }

  /** The seeded pending calls are call-001, call-003 and call-005, in that order. */
  lemma SeedPendingCalls(now: int)
    ensures var cs := SeedCalls(now);
      PendingCalls(cs) == [cs[0], cs[2], cs[4]]
  {
    var cs := SeedCalls(now);
    KeepFirstThirdFifth(cs, IsPending());
  }

  lemma KeepFirstThirdFifth<T(!new)>(s: seq<T>, p: T -> bool)
    requires |s| == 5 && p(s[0]) && !p(s[1]) && p(s[2]) && !p(s[3]) && p(s[4])
    ensures Seqs.Filter(s, p) == [s[0], s[2], s[4]]
  {
    Seqs.FilterAt(s, 4, p);
    assert s[5..] == [];
    Seqs.FilterAt(s, 3, p);
    Seqs.FilterAt(s, 2, p);
    var f2 := Seqs.Filter(s[2..], p);
    ConsOne(s[2], [s[4]]);
    assert f2 == [s[2], s[4]];
    Seqs.FilterAt(s, 1, p);
    Seqs.FilterAt(s, 0, p);
    assert s[0..] == s;
    ConsOne(s[0], [s[2], s[4]]);
  }

  lemma ConsOne<T>(x: T, t: seq<T>)
    ensures |t| == 1 ==> [x] + t == [x, t[0]]
    ensures |t| == 2 ==> [x] + t == [x, t[0], t[1]]
  {
  }

  /** `formatCallElapsedTime(minutes)`: the padded form, which reads back as the minutes it shows. */
  function FormatCallElapsedTime(minutes: int): (s: string)
    ensures Elapsed.ParseDuration(s, "min") == Some(minutes)
  {
    Elapsed.PaddedRoundTrip(minutes);
    Elapsed.Padded(minutes)
  }

  /** `getTableStatusColor(status)`, on the raw tag: the `|| 'muted'` fallback covers any
      other tag, except a name the object literal inherits, which the lookup returns. */
  function TableStatusColor(status: string): (c: JsObject.Value)
    ensures c.Inherited? <==> status in JsObject.PrototypeNames
    ensures c.Inherited? ==> c.name == status
    ensures status == "available" ==> c == Own("success")
    ensures status == "occupied" ==> c == Own("primary")
    ensures status == "reserved" ==> c == Own("accent")
    ensures status == "needs_service" ==> c == Own("warning")
    ensures status == "out_of_order" ==> c == Own("destructive")
    ensures c == Own("muted") <==>
      status !in JsObject.PrototypeNames && status != "available" && status != "occupied" &&
      status != "reserved" && status != "needs_service" && status != "out_of_order"
  {
    if status in JsObject.PrototypeNames then Inherited(status)
    else
      match status
      case "available" => Own("success")
      case "occupied" => Own("primary")
      case "reserved" => Own("accent")
      case "needs_service" => Own("warning")
      case "needs_cleaning" => Own("muted")
      case "out_of_order" => Own("destructive")
      case _ => Own("muted")
  }

  /** `getCallPriorityColor(priority)`, on the raw tag, with the `|| 'primary'` fallback for
      any other tag that the object literal does not inherit. */
  function CallPriorityColor(priority: string): (c: JsObject.Value)
    ensures c.Inherited? <==> priority in JsObject.PrototypeNames
    ensures c.Inherited? ==> c.name == priority
    ensures priority == "low" ==> c == Own("muted")
    ensures priority == "high" ==> c == Own("warning")
    ensures priority == "urgent" ==> c == Own("destructive")
    ensures c == Own("primary") <==>
      priority !in JsObject.PrototypeNames && priority != "low" && priority != "high" && priority != "urgent"
  {
    if priority in JsObject.PrototypeNames then Inherited(priority)
    else
      match priority
      case "low" => Own("muted")
      case "normal" => Own("primary")
      case "high" => Own("warning")
      case "urgent" => Own("destructive")
      case _ => Own("primary")
  }

  /** Every table status and every call priority gets a colour of its own: the colour
      identifies the status and the priority. */
  lemma ColoursIdentify(s1: TableStatus, s2: TableStatus, p1: Priority, p2: Priority)
    ensures TableStatusColor(TableStatusName(s1)) == TableStatusColor(TableStatusName(s2)) ==> s1 == s2
    ensures CallPriorityColor(PriorityName(p1)) == CallPriorityColor(PriorityName(p2)) ==> p1 == p2
  {
  }
}

=== FILE: order_ticket.dfy ===
/** An order card of the realtime views (`src/components/molecules/OrderTicket.tsx`):
    elapsed time, the overdue rule, the item-count label, the status colour and
    the transition its button offers. `now` stands for `Date.now()`. */
module OrderTicketView {
  import opened Wrappers
  import opened Text
  import Elapsed
  import Realtime

  /** Whole minutes since the order was created. */
  function ElapsedSince(o: Realtime.Order, now: int): (m: int)
    ensures Elapsed.MsPerMinute * m <= now - o.createdAt < Elapsed.MsPerMinute * (m + 1)
  {
    Elapsed.ElapsedMinutes(o.createdAt, now)
  }

  /** `formatElapsedTime(createdAt)`: the compact form of the whole minutes elapsed. */
  function FormatElapsedTime(createdAt: int, now: int): (s: string)
    ensures createdAt <= now ==> Elapsed.ParseDuration(s, "m") == Some(Elapsed.ElapsedMinutes(createdAt, now))
  {
    var m := Elapsed.ElapsedMinutes(createdAt, now);
    if m >= 0 then
      Elapsed.CompactRoundTrip(m);
      Elapsed.Compact(m)
    else Elapsed.Compact(m)
  }

  /** `isOverdue`: more than thirty whole minutes. */
  predicate IsOverdue(o: Realtime.Order, now: int) {
    ElapsedSince(o, now) > 30
  }

  /** The overdue styling: overdue and not yet delivered. */
  predicate OverdueStyled(o: Realtime.Order, now: int) {
    IsOverdue(o, now) && o.status != Realtime.Delivered
  }

  /** An order becomes overdue exactly when 31 full minutes have passed. */
  lemma OverdueThreshold(o: Realtime.Order, now: int)
    ensures IsOverdue(o, now) <==> now - o.createdAt >= 31 * Elapsed.MsPerMinute
    ensures o.status == Realtime.Delivered ==> !OverdueStyled(o, now)
  {
  }

  /** The item count line: `<n> item` for exactly one item, `<n> itens` otherwise. */
  function ItemCountLabel(n: nat): (s: string)
    ensures s == NatToString(n) + " item" <==> n == 1
    ensures n != 1 ==> s == NatToString(n) + " itens"
  {
    NatToString(n) + " " + (if n == 1 then "item" else "itens")
  }

  /** `getStatusColor(status)`. */
  function StatusColor(status: string): (c: string)
    ensures status == "pending" ==> c == "warning"
    ensures status == "preparing" ==> c == "default"
    ensures status == "ready" ==> c == "success"
    ensures status != "pending" && status != "preparing" && status != "ready" ==> c == "secondary"
  {
    match status
    case "pending" => "warning"
    case "preparing" => "default"
    case "ready" => "success"
    case "delivered" => "secondary"
    case _ => "secondary"
  }

  /** The transition the card's button offers: none for ready or delivered. */
  function OfferedMove(status: Realtime.OrderStatus): (next: Option<Realtime.OrderStatus>)
    ensures status == Realtime.Pending ==> next == Some(Realtime.Preparing)
    ensures status == Realtime.Preparing ==> next == Some(Realtime.Ready)
    ensures next.None? <==> status == Realtime.Ready || status == Realtime.Delivered
  {
    match status
    case Pending => Some(Realtime.Preparing)
    case Preparing => Some(Realtime.Ready)
    case Ready => None
    case Delivered => None
  }
}

=== FILE: product_catalog.dfy ===
/** The admin product list (`src/pages/ProductCatalog.tsx`): the search and category
    filter, deleting a product, and the counts on the category buttons. The page's
    product list is the state the operations take and return. */
module ProductCatalog {
  import opened Text
  import Seqs
  import MockMenu

  type MenuItem = MockMenu.MenuItem

  /** `matchesSearch`: the name or the description contains the search text, ignoring case. */
  predicate MatchesSearch(p: MenuItem, term: string) {
    ContainsIgnoringCase(p.name, term) || ContainsIgnoringCase(p.description, term)
  }

  /** `matchesCategory`: `all` passes every product. */
  predicate MatchesCategory(p: MenuItem, selected: string) {
    selected == "all" || p.category == selected
  }

  function Shown(term: string, selected: string): MenuItem -> bool {
    (p: MenuItem) => MatchesSearch(p, term) && MatchesCategory(p, selected)
  }

  /** `filteredProducts`: the products passing both tests, in list order. */
  function FilteredProducts(products: seq<MenuItem>, term: string, selected: string): (r: seq<MenuItem>)
    ensures forall p :: p in r <==> p in products && MatchesSearch(p, term) && MatchesCategory(p, selected)
  {
    Seqs.Filter(products, Shown(term, selected))
  }

  /** The listing keeps the product order: filtering a concatenation filters each part. */
  lemma FilteredProductsKeepOrder(a: seq<MenuItem>, b: seq<MenuItem>, term: string, selected: string)
    ensures FilteredProducts(a + b, term, selected) ==
            FilteredProducts(a, term, selected) + FilteredProducts(b, term, selected)
  {
    Seqs.FilterAppend(a, b, Shown(term, selected));
  }

  /** With no search text and `all` selected, every product is shown, in order. */
  lemma EmptySearchShowsAll(products: seq<MenuItem>)
    ensures FilteredProducts(products, "", "all") == products
  {
    forall p | p in products ensures Shown("", "all")(p) {
      ContainsEmpty(ToLower(p.name));
    }
    Seqs.FilterAllPass(products, Shown("", "all"));
  }

  function OtherThan(id: string): MenuItem -> bool { (p: MenuItem) => p.id != id }

  /** `handleDelete(productId)`: the products with that id go, the rest keep their order. */
  function HandleDelete(products: seq<MenuItem>, id: string): (r: (seq<MenuItem>, string))
    ensures forall p :: p in r.0 <==> p in products && p.id != id
    ensures (forall p | p in products :: p.id != id) ==> r.0 == products
    ensures r.1 == "Produto removido"
  {
    NoMatchKeepsAll(products, id);
    (Seqs.Filter(products, OtherThan(id)), "Produto removido")
  }

  lemma NoMatchKeepsAll(products: seq<MenuItem>, id: string)
    ensures (forall p | p in products :: p.id != id) ==> Seqs.Filter(products, OtherThan(id)) == products
  {
    if forall p | p in products :: p.id != id {
      Seqs.FilterAllPass(products, OtherThan(id));
    }
  }

  /** `toggleStatus(productId)`: only the toast; no product changes, availability included. */
  function ToggleStatus(products: seq<MenuItem>, id: string): (r: (seq<MenuItem>, string))
    ensures r.0 == products
    ensures r.1 == "Status atualizado"
  {
    (products, "Status atualizado")
  }

  /** Deleting keeps the list order: deleting from a concatenation deletes from each part. */
  lemma DeleteKeepsOrder(a: seq<MenuItem>, b: seq<MenuItem>, id: string)
    ensures HandleDelete(a + b, id).0 == HandleDelete(a, id).0 + HandleDelete(b, id).0
  {
    Seqs.FilterAppend(a, b, OtherThan(id));
  }

  function InCategory(c: string): MenuItem -> bool { (p: MenuItem) => p.category == c }

  /** The count on a category button. */
  function CategoryCount(products: seq<MenuItem>, c: string): (n: nat)
    ensures n <= |products|
    ensures n == Seqs.Count(products, InCategory(c))
  {
    Seqs.CountIsFilterLength(products, InCategory(c));
    |Seqs.Filter(products, InCategory(c))|
  }

  /** The `Todos` button counts every product, which is what the list shows with no search text;
      a category button counts what that category shows with no search text. */
  lemma CountsMatchListing(products: seq<MenuItem>, c: string)
    requires c != "all"
    ensures |FilteredProducts(products, "", "all")| == |products|
    ensures |FilteredProducts(products, "", c)| == CategoryCount(products, c)
  {
    EmptySearchShowsAll(products);
    forall p | p in products ensures MatchesSearch(p, "") {
      ContainsEmpty(ToLower(p.name));
    }
    SameFilter(products, Shown("", c), InCategory(c));
  }

  lemma {:induction false} SameFilter(s: seq<MenuItem>, p: MenuItem -> bool, q: MenuItem -> bool)
    requires forall x | x in s :: p(x) == q(x)
    ensures Seqs.Filter(s, p) == Seqs.Filter(s, q)
    decreases |s|
  {
    if |s| > 0 {
      SameFilter(s[1..], p, q);
      Seqs.FilterStep(s, p);
      Seqs.FilterStep(s, q);
    }
  }
}

=== FILE: product_form.dfy ===
/** The product editor (`src/pages/ProductForm.tsx`): edit mode, single-field edits,
    the tag and allergen lists kept free of duplicates, and the submit validation.
    The form holds `Partial<MenuItem>`, so every scalar field holds a JavaScript value
    of any kind; the toast and the navigation are returned. */
module ProductForm {
  import opened Wrappers
  import opened Text
  import Seqs
  import MockMenu

  /** The JavaScript values the scalar fields take; `Unset` is `undefined`. */
  datatype Value = Text(s: string) | Number(x: real) | Flag(b: bool) | Unset

  /** JavaScript truthiness (`NaN` is not modelled). */
  predicate Truthy(v: Value) {
    match v
    case Text(s) => s != ""
    case Number(x) => x != 0.0
    case Flag(b) => b
    case Unset => false
  }

  /** The scalar fields `handleInputChange` is called with. */
  datatype Field =
    | Name | Description | Price | Image | Category | PreparationTime
    | IsNew | IsBestSeller | IsVegetarian | IsVegan | IsGlutenFree | SpicyLevel | Calories

  datatype Scalars = Scalars(
    name: Value, description: Value, price: Value, image: Value, category: Value, preparationTime: Value,
    isNew: Value, isBestSeller: Value, isVegetarian: Value, isVegan: Value, isGlutenFree: Value,
    spicyLevel: Value, calories: Value)

  /** The form: its scalar fields, its two lists, and the two pending text inputs. */
  datatype Form = Form(fields: Scalars, tags: seq<string>, allergens: seq<string>, newTag: string, newAllergen: string)

  /** The initial `formData`. */
  const Initial: Form := Form(
    Scalars(Text(""), Text(""), Number(0.0), Text(""), Text(""), Number(15.0),
            Flag(false), Flag(false), Flag(false), Flag(false), Flag(false), Unset, Unset),
    [], [], "", "")

  /** `isEditing`: any route id but `new`, including a missing one. */
  function IsEditing(id: Option<string>): (editing: bool)
    ensures editing <==> id != Some("new")
  {
    match id
    case Some(s) => s != "new"
    case None => true
  }

  /** An optional number as the form holds it: absent is `undefined`. */
  function OptionalNumber(n: Option<int>): Value {
    match n
    case Some(x) => Number(x as real)
    case None => Unset
  }

  /** The scalar fields of a menu item, as `setFormData(product)` copies them. */
  function ScalarsOf(m: MockMenu.MenuItem): Scalars {
    Scalars(Text(m.name), Text(m.description), Number(m.price), Text(m.image), Text(m.category), Number(m.preparationTime as real),
            Flag(m.isNew), Flag(m.isBestSeller), Flag(m.isVegetarian), Flag(m.isVegan), Flag(m.isGlutenFree),
            OptionalNumber(m.spicyLevel), OptionalNumber(m.calories))
  }

  /** The edit-mode effect: when editing and the route id names a product, the form takes
      that product's fields and lists; otherwise it stays as it is. The pending inputs are
      not part of `formData` and keep their text. */
  function LoadForEdit(form: Form, id: Option<string>, items: seq<MockMenu.MenuItem>): (r: Form)
    ensures !IsEditing(id) || id.None? || MockMenu.ItemById(items, id.value).None? ==> r == form
    ensures IsEditing(id) && id.Some? && MockMenu.ItemById(items, id.value).Some? ==>
      exists i | 0 <= i < |items| ::
        && items[i].id == id.value
        && r.fields == ScalarsOf(items[i]) && r.tags == items[i].tags && r.allergens == items[i].allergens
    ensures r.newTag == form.newTag && r.newAllergen == form.newAllergen
  {
    if IsEditing(id) && id.Some? then
      match MockMenu.ItemById(items, id.value)
      case Some(m) => form.(fields := ScalarsOf(m), tags := m.tags, allergens := m.allergens)
      case None => form
    else form
  }

  /** A loaded product with a name, a description, a category and a non-zero price is saved
      unchanged as an update. */
  lemma LoadedProductSaves(form: Form, m: MockMenu.MenuItem)
    requires m.id != "new" && m.name != "" && m.description != "" && m.category != "" && m.price != 0.0
    ensures HandleSubmit(LoadForEdit(form, Some(m.id), [m]), IsEditing(Some(m.id))) ==
      Saved("Produto atualizado", "/admin/products")
  {
    assert MockMenu.HasId(m.id)(m);
    assert LoadForEdit(form, Some(m.id), [m]).fields == ScalarsOf(m);
  }

  /** Reading one field. */
  function Get(f: Scalars, field: Field): Value {
    match field
    case Name => f.name
    case Description => f.description
    case Price => f.price
    case Image => f.image
    case Category => f.category
    case PreparationTime => f.preparationTime
    case IsNew => f.isNew
    case IsBestSeller => f.isBestSeller
    case IsVegetarian => f.isVegetarian
    case IsVegan => f.isVegan
    case IsGlutenFree => f.isGlutenFree
    case SpicyLevel => f.spicyLevel
    case Calories => f.calories
  }

  /** `handleInputChange(field, value)`: the named field takes the value, every other field
      and both lists keep theirs. */
  function HandleInputChange(form: Form, field: Field, value: Value): (r: Form)
    ensures Get(r.fields, field) == value
    ensures forall g | g != field :: Get(r.fields, g) == Get(form.fields, g)
    ensures r.tags == form.tags && r.allergens == form.allergens
    ensures r.newTag == form.newTag && r.newAllergen == form.newAllergen
  {
    var f := form.fields;
    var fields := match field
      case Name => f.(name := value)
      case Description => f.(description := value)
      case Price => f.(price := value)
      case Image => f.(image := value)
      case Category => f.(category := value)
      case PreparationTime => f.(preparationTime := value)
      case IsNew => f.(isNew := value)
      case IsBestSeller => f.(isBestSeller := value)
      case IsVegetarian => f.(isVegetarian := value)
      case IsVegan => f.(isVegan := value)
      case IsGlutenFree => f.(isGlutenFree := value)
      case SpicyLevel => f.(spicyLevel := value)
      case Calories => f.(calories := value);
    form.(fields := fields)
  }

  /** Setting a field back to the value it had restores the form. */
  lemma InputChangeUndone(form: Form, field: Field, value: Value)
    ensures HandleInputChange(HandleInputChange(form, field, value), field, Get(form.fields, field)) == form
  {
    var r := HandleInputChange(HandleInputChange(form, field, value), field, Get(form.fields, field));
    assert forall g :: Get(r.fields, g) == Get(form.fields, g);
    assert Get(r.fields, Name) == Get(form.fields, Name);
  }

  // ---------------------------------------------------------------------
  // Tag and allergen lists

  predicate NoDuplicates(s: seq<string>) {
    forall i, j | 0 <= i < j < |s| :: s[i] != s[j]
  }

  /** The list step shared by `addTag` and `addAllergen`: the trimmed input is appended when it
      is non-empty and not yet listed (and the input is cleared); otherwise nothing changes. */
  function AddUnique(list: seq<string>, input: string): (r: (seq<string>, string))
    ensures var t := Trim(input);
      if t != "" && t !in list then r == (list + [t], "") else r == (list, input)
    ensures forall x :: x in r.0 <==> x in list || (x == Trim(input) && x != "")
    ensures NoDuplicates(list) ==> NoDuplicates(r.0)
  {
    var t := Trim(input);
    if t != "" && t !in list then (list + [t], "") else (list, input)
  }

  function OtherThan(v: string): string -> bool { (x: string) => x != v }

  /** The list step shared by `removeTag` and `removeAllergen`: every copy of the value goes,
      the rest keep their order. */
  function RemoveAll(list: seq<string>, v: string): (r: seq<string>)
    ensures forall x :: x in r <==> x in list && x != v
    ensures v !in list ==> r == list
    ensures NoDuplicates(list) ==> NoDuplicates(r)
  {
    if v !in list then
      Seqs.FilterAllPass(list, OtherThan(v));
      Seqs.Filter(list, OtherThan(v))
    else
      FilterKeepsNoDuplicates(list, OtherThan(v));
      Seqs.Filter(list, OtherThan(v))
  }

  lemma {:induction false} FilterKeepsNoDuplicates(list: seq<string>, p: string -> bool)
    ensures NoDuplicates(list) ==> NoDuplicates(Seqs.Filter(list, p))
    decreases |list|
  {
    if |list| > 0 && NoDuplicates(list) {
      FilterKeepsNoDuplicates(list[1..], p);
      Seqs.FilterStep(list, p);
      var rest := Seqs.Filter(list[1..], p);
      assert list[0] !in list[1..];
      assert list[0] !in rest;
    }
  }

  /** Adding a fresh trimmed value and then removing it gives back the list. */
  lemma RemoveUndoesAdd(list: seq<string>, input: string)
    requires NoDuplicates(list)
    requires Trim(input) != "" && Trim(input) !in list
    ensures RemoveAll(AddUnique(list, input).0, Trim(input)) == list
  {
    var t := Trim(input);
    Seqs.FilterAppend(list, [t], OtherThan(t));
    Seqs.FilterAllPass(list, OtherThan(t));
  }

  /** `addTag()`. */
  function AddTag(form: Form): (r: Form)
    ensures (r.tags, r.newTag) == AddUnique(form.tags, form.newTag)
    ensures r.fields == form.fields && r.allergens == form.allergens && r.newAllergen == form.newAllergen
  {
    var step := AddUnique(form.tags, form.newTag);
    form.(tags := step.0, newTag := step.1)
  }

  /** `removeTag(tag)`. */
  function RemoveTag(form: Form, tag: string): (r: Form)
    ensures r.tags == RemoveAll(form.tags, tag)
    ensures r.fields == form.fields && r.allergens == form.allergens && r.newTag == form.newTag
  {
    form.(tags := RemoveAll(form.tags, tag))
  }

  /** `addAllergen()`. */
  function AddAllergen(form: Form): (r: Form)
    ensures (r.allergens, r.newAllergen) == AddUnique(form.allergens, form.newAllergen)
    ensures r.fields == form.fields && r.tags == form.tags && r.newTag == form.newTag
  {
    var step := AddUnique(form.allergens, form.newAllergen);
    form.(allergens := step.0, newAllergen := step.1)
  }

  /** `removeAllergen(allergen)`. */
  function RemoveAllergen(form: Form, allergen: string): (r: Form)
    ensures r.allergens == RemoveAll(form.allergens, allergen)
    ensures r.fields == form.fields && r.tags == form.tags && r.newAllergen == form.newAllergen
  {
    form.(allergens := RemoveAll(form.allergens, allergen))
  }

  /** Both lists start empty and stay free of duplicates under every list action. */
  predicate ListsClean(form: Form) {
    NoDuplicates(form.tags) && NoDuplicates(form.allergens)
  }

  lemma ListActionsKeepClean(form: Form, v: string)
    requires ListsClean(form)
    ensures ListsClean(Initial)
    ensures ListsClean(AddTag(form)) && ListsClean(AddAllergen(form))
    ensures ListsClean(RemoveTag(form, v)) && ListsClean(RemoveAllergen(form, v))
  {
  }

  // ---------------------------------------------------------------------
  // Submitting

  datatype Submit = Rejected(toast: string) | Saved(toast: string, navigate: string)

  /** `handleSubmit()`: name, description, category and price must all be truthy; otherwise
      an error toast and no navigation. */
  function HandleSubmit(form: Form, editing: bool): (r: Submit)
    ensures r.Rejected? <==>
      !Truthy(form.fields.name) || !Truthy(form.fields.description) ||
      !Truthy(form.fields.category) || !Truthy(form.fields.price)
    ensures r.Rejected? ==> r.toast == "Erro de validação"
    ensures r.Saved? ==>
      r.navigate == "/admin/products" && r.toast == (if editing then "Produto atualizado" else "Produto criado")
  {
    var f := form.fields;
    if !Truthy(f.name) || !Truthy(f.description) || !Truthy(f.category) || !Truthy(f.price) then
      Rejected("Erro de validação")
    else
      Saved(if editing then "Produto atualizado" else "Produto criado", "/admin/products")
  }

  /** The untouched form is rejected, and so is any form whose price is 0. */
  lemma ZeroPriceRejected(form: Form, editing: bool)
    ensures HandleSubmit(Initial, editing).Rejected?
    ensures form.fields.price == Number(0.0) ==> HandleSubmit(form, editing).Rejected?
  {
  }
}

=== FILE: qr_generator.dfy ===
/** The QR code admin page (`src/pages/QRCodeGenerator.tsx`): table tokens, adding a
    table under a number not yet used, regenerating a token and removing a table.
    `origin` stands for `window.location.origin`, `now` for the clock, and `random`
    for the base-36 characters taken from `Math.random()`. Each operation returns its
    toast as a (title, description) pair. */
module QrGenerator {
  import opened Wrappers
  import opened Text
  import Seqs
  import TableMenu

  datatype TableQr = TableQr(id: string, number: int, token: string, url: string, createdAt: int)

  /** The page state: the table list and the number offered for the next table. */
  datatype Page = Page(tables: seq<TableQr>, newTableNumber: int)

  function Number(t: TableQr): int { t.number }

  /** The characters `Math.random().toString(36).substring(2, 8)` can produce. */
  predicate IsRandomPart(r: string) {
    |r| <= 6 && forall i | 0 <= i < |r| :: '0' <= r[i] <= '9' || 'a' <= r[i] <= 'z'
  }

  /** `generateToken(tableNumber)`: `mesa-`, the number, a dash and the random part. */
  function GenerateToken(n: int, random: string): (token: string)
    ensures |token| > 6 + |random| && token[..5] == "mesa-"
    ensures token[|token| - |random| - 1..] == "-" + random
  {
    "mesa-" + IntToString(n) + "-" + random
  }

  /** The page link for a token. */
  function Url(origin: string, token: string): (u: string)
    ensures |u| == |origin| + 3 + |token|
    ensures u[..|origin|] == origin && u[|origin|..] == "/m/" + token
  {
    origin + "/m/" + token
  }

  /** A token generated for table `n >= 1` is read back as `n` by the table menu. */
  lemma TokenRoundTrip(n: int, random: string)
    requires n >= 1 && IsRandomPart(random)
    ensures TableMenu.TableNumber(Some(GenerateToken(n, random))) == n
  {
    assert GenerateToken(n, random) == "mesa-" + NatToString(n) + "-" + random;
    TableMenu.TableNumberOfToken(n, random);
  }

  /** A token generated for table 0 or a negative number is read back as table 1. */
  lemma NonPositiveTokenReadsAsOne(n: int, random: string)
    requires n <= 0 && IsRandomPart(random)
    ensures TableMenu.TableNumber(Some(GenerateToken(n, random))) == 1
  {
    var token := GenerateToken(n, random);
    assert token == "mesa-" + (IntToString(n) + "-" + random);
    ContainsPrefix(token, "mesa-");
    assert token == "mesa" + ['-'] + (IntToString(n) + ['-'] + random);
    SplitOnFirstPiece("mesa", '-', IntToString(n) + ['-'] + random);
    if n == 0 {
      ZeroPiece(random);
    } else {
      NegativePiece(n, random);
    }
  }

  /** After `mesa-`, the token of table 0 splits into the piece `0`, which parses as 0. */
  lemma ZeroPiece(random: string)
    ensures SplitOn(IntToString(0) + ['-'] + random, '-')[0] == "0"
    ensures ParseIntJs("0") == Some(0)
  {
    assert IntToString(0) == "0";
    SplitOnFirstPiece("0", '-', random);
    ParseIntJsOfNatToString(0);
  }

  /** After `mesa-`, the token of a negative table splits into an empty piece, which does not parse. */
  lemma NegativePiece(n: int, random: string)
    requires n < 0
    ensures SplitOn(IntToString(n) + ['-'] + random, '-')[0] == ""
    ensures ParseIntJs("").None?
  {
    var d := NatToString(-n);
    assert IntToString(n) + ['-'] + random == "" + ['-'] + (d + ['-'] + random);
    SplitOnFirstPiece("", '-', d + ['-'] + random);
    assert LeadingDigits("") == "";
  }

  // ---------------------------------------------------------------------
  // The table list

  /** Sorted by number with no number used twice. */
  predicate StrictlySorted(tables: seq<TableQr>) {
    forall i, j | 0 <= i < j < |tables| :: tables[i].number < tables[j].number
  }

  predicate HasNumber(tables: seq<TableQr>, n: int) {
    exists i | 0 <= i < |tables| :: tables[i].number == n
  }

  /** The initial list, created at `now`. */
  function Initial(origin: string, now: int): (p: Page)
    ensures StrictlySorted(p.tables) && p.newTableNumber == 8
  {
    Page([TableQr("1", 1, "mesa-1-abc123", Url(origin, "mesa-1-abc123"), now),
          TableQr("2", 2, "mesa-2-def456", Url(origin, "mesa-2-def456"), now),
          TableQr("3", 7, "mesa-7-demo", Url(origin, "mesa-7-demo"), now)], 8)
  }

  /** Inserting a table under an unused number keeps the list strictly sorted. */
  lemma {:induction false} InsertKeepsStrict(tables: seq<TableQr>, t: TableQr)
    requires StrictlySorted(tables) && !HasNumber(tables, t.number)
    ensures Seqs.SortedBy(tables, Number)
    ensures StrictlySorted(Seqs.InsertByKey(tables, t, Number))
    decreases |tables|
  {
    var r := Seqs.InsertByKey(tables, t, Number);
    if |tables| > 0 && t.number >= tables[0].number {
      assert t.number > tables[0].number;
      var rest := tables[1..];
      assert forall i | 0 <= i < |rest| :: rest[i] == tables[i + 1];
      InsertKeepsStrict(rest, t);
      var ins := Seqs.InsertByKey(rest, t, Number);
      assert r == [tables[0]] + ins;
      assert ins[0].number > tables[0].number;
      forall i, j | 0 <= i < j < |r| ensures r[i].number < r[j].number {
        if i == 0 && j > 1 {
          assert ins[0].number < ins[j - 1].number;
        }
      }
    }
  }

  /** The outcome of pressing the add button. */
  datatype Added = Rejected(toast: (string, string)) | Created(page: Page, table: TableQr, toast: (string, string))

  /** `addTable()`: a number already in the list is rejected and nothing changes; otherwise
      the new table is added, the list is re-sorted by number and the offered number goes up by one. */
  function AddTable(page: Page, origin: string, random: string, now: int): (r: Added)
    ensures r.Rejected? <==> HasNumber(page.tables, page.newTableNumber)
    ensures r.Rejected? ==> r.toast == ("Erro", "Já existe uma mesa com este número.")
    ensures r.Created? ==>
      r.toast == ("Mesa criada", "QR Code para Mesa " + IntToString(page.newTableNumber) + " gerado com sucesso.")
    ensures r.Created? ==>
      && r.table == TableQr(IntToString(now), page.newTableNumber, GenerateToken(page.newTableNumber, random),
                            Url(origin, GenerateToken(page.newTableNumber, random)), now)
      && Seqs.SortedBy(r.page.tables, Number)
      && multiset(r.page.tables) == multiset(page.tables) + multiset{r.table}
      && r.page.newTableNumber == page.newTableNumber + 1
    ensures r.Created? && StrictlySorted(page.tables) ==> StrictlySorted(r.page.tables)
  {
    var n := page.newTableNumber;
    if HasNumber(page.tables, n) then Rejected(("Erro", "Já existe uma mesa com este número."))
    else
      var token := GenerateToken(n, random);
      var t := TableQr(IntToString(now), n, token, Url(origin, token), now);
      AppendSortKeepsStrict(page.tables, t);
      Created(Page(Seqs.SortByKey(page.tables + [t], Number), n + 1), t,
              ("Mesa criada", "QR Code para Mesa " + IntToString(n) + " gerado com sucesso."))
  }

  /** Appending a table under an unused number to a strictly sorted list and sorting keeps it strict. */
  lemma AppendSortKeepsStrict(tables: seq<TableQr>, t: TableQr)
    ensures StrictlySorted(tables) && !HasNumber(tables, t.number) ==>
      StrictlySorted(Seqs.SortByKey(tables + [t], Number))
  {
    if StrictlySorted(tables) && !HasNumber(tables, t.number) {
      InsertKeepsStrict(tables, t);
      Seqs.SortAfterAppend(tables, t, Number);
    }
  }

  /** After an accepted add, the list holds exactly the old tables and the new one. */
  lemma AddTableContents(page: Page, origin: string, random: string, now: int)
    ensures var r := AddTable(page, origin, random, now);
      r.Created? ==> forall t :: t in r.page.tables <==> t in page.tables || t == r.table
  {
    var r := AddTable(page, origin, random, now);
    if r.Created? {
      forall t ensures t in r.page.tables <==> t in page.tables || t == r.table {
        assert t in r.page.tables <==> t in multiset(r.page.tables);
        assert t in page.tables <==> t in multiset(page.tables);
      }
    }
  }

  function HasId(id: string): TableQr -> bool { (t: TableQr) => t.id == id }

  function Regenerated(origin: string, random: string, now: int): TableQr -> TableQr {
    (t: TableQr) => t.(token := GenerateToken(t.number, random), url := Url(origin, GenerateToken(t.number, random)),
                       createdAt := now)
  }

  /** `regenerateToken(tableId)`: the table with that id gets a new token, link and creation
      time under its own number; every other table is unchanged. The toast is raised
      whether or not a table has that id. */
  function RegenerateToken(tables: seq<TableQr>, id: string, origin: string, random: string, now: int)
    : (r: (seq<TableQr>, (string, string)))
    ensures |r.0| == |tables|
    ensures forall i | 0 <= i < |r.0| :: tables[i].id != id ==> r.0[i] == tables[i]
    ensures forall i | 0 <= i < |r.0| :: tables[i].id == id ==>
      && r.0[i].id == id && r.0[i].number == tables[i].number
      && r.0[i].token == GenerateToken(tables[i].number, random)
      && r.0[i].url == Url(origin, r.0[i].token) && r.0[i].createdAt == now
    ensures StrictlySorted(tables) ==> StrictlySorted(r.0)
    ensures r.1 == ("Token regenerado", "Novo QR Code gerado para a mesa.")
  {
    (Seqs.MapWhere(tables, HasId(id), Regenerated(origin, random, now)), ("Token regenerado", "Novo QR Code gerado para a mesa."))
  }

  function OtherThan(id: string): TableQr -> bool { (t: TableQr) => t.id != id }

  /** `removeTable(tableId)`: the tables with that id go, the rest keep their order;
      the toast is raised whether or not a table had that id. */
  function RemoveTable(tables: seq<TableQr>, id: string): (r: (seq<TableQr>, (string, string)))
    ensures forall t :: t in r.0 <==> t in tables && t.id != id
    ensures StrictlySorted(tables) ==> StrictlySorted(r.0)
    ensures r.1 == ("Mesa removida", "QR Code removido com sucesso.")
  {
    FilterKeepsStrict(tables, OtherThan(id));
    (Seqs.Filter(tables, OtherThan(id)), ("Mesa removida", "QR Code removido com sucesso."))
  }

  lemma FilterKeepsStrict(tables: seq<TableQr>, p: TableQr -> bool)
    ensures StrictlySorted(tables) ==> StrictlySorted(Seqs.Filter(tables, p))
  {
    if StrictlySorted(tables) {
      assert Seqs.StrictlyIncreasingBy(tables, Number);
      Seqs.FilterKeepsStrictlyIncreasing(tables, p, Number);
      var r := Seqs.Filter(tables, p);
      assert forall i | 0 <= i < |r| :: Number(r[i]) == r[i].number;
    }
  }

  /** Every operation keeps the list sorted with unique numbers, starting from the initial list. */
  lemma OperationsKeepUnique(page: Page, origin: string, random: string, now: int, id: string)
    requires StrictlySorted(page.tables)
    ensures StrictlySorted(Initial(origin, now).tables)
    ensures AddTable(page, origin, random, now).Created? ==> StrictlySorted(AddTable(page, origin, random, now).page.tables)
    ensures StrictlySorted(RegenerateToken(page.tables, id, origin, random, now).0)
    ensures StrictlySorted(RemoveTable(page.tables, id).0)
  {
  }
}

=== FILE: realtime.dfy ===
/** The real-time service (`src/services/realTimeService.ts`): orders and waiter
    calls kept as whole lists under two storage keys, a listener registry per
    event name, and mutators that read the whole list, change it, write it
    back and notify listeners.

    Browser facilities become explicit values: the key-value store is a
    `Store` of two `Slot`s, listeners are opaque handler ids, and a call to
    `emit` returns the `Delivery` trace of the handler invocations it makes.
    The service listens to the window's `storage` event and, after every
    mutation, dispatches a synthetic one in the same tab; that dispatch is
    synchronous, so its deliveries follow the direct ones in the trace. */
module Realtime {
  import opened Wrappers
  import opened Text
  import Seqs

  // ---------------------------------------------------------------------
  // Records

  datatype OrderStatus = Pending | Preparing | Ready | Delivered
  datatype Station = Kitchen | Bar | Dessert

  /** The item shape the table menu sends with an order (`items: any[]`). */
  datatype OrderLine = OrderLine(
    id: string, menuItemId: string, name: string, quantity: int,
    unitPrice: real, totalPrice: real, allergens: seq<string>)

  /** `RealtimeOrder`; dates are milliseconds since the epoch. */
  datatype Order = Order(
    id: string, tableNumber: int, items: seq<OrderLine>, status: OrderStatus,
    station: Station, total: real, createdAt: int, updatedAt: int)

  /** The fields a caller supplies to `addOrder`. */
  datatype OrderDraft = OrderDraft(
    tableNumber: int, items: seq<OrderLine>, status: OrderStatus, station: Station, total: real)

  datatype CallType = Water | Utensils | Bill | Assistance | Complaint
  datatype Priority = Low | Normal | High | Urgent
  datatype CallStatus = CallPending | Attending | Resolved

  /** `RealtimeCall`. */
  datatype Call = Call(
    id: string, tableNumber: int, kind: CallType, message: Option<string>,
    priority: Priority, status: CallStatus, createdAt: int)

  /** The fields a caller supplies to `addCall`. */
  datatype CallDraft = CallDraft(
    tableNumber: int, kind: CallType, message: Option<string>, priority: Priority, status: CallStatus)

  // ---------------------------------------------------------------------
  // Storage

  const OrdersKey := "restaurant_orders"
  const CallsKey := "restaurant_calls"

  /** What `localStorage.getItem` finds under a key: nothing, the empty text
      (also falsy), text that does not parse as a list, or a stored list. */
  datatype Slot<T> = Missing | Blank | Corrupt | Json(items: seq<T>)

  datatype Store = Store(orders: Slot<Order>, calls: Slot<Call>)

  /** `JSON.parse(getItem(key) || '[]')`, with `[]` when parsing throws. */
  function Read<T>(slot: Slot<T>): (r: seq<T>)
    ensures slot.Json? ==> r == slot.items
    ensures !slot.Json? ==> r == []
  {
    match slot
    case Json(items) => items
    case _ => []
  }

  /** `getOrders()`: the stored orders, or none when the slot is unreadable. */
  function GetOrders(store: Store): (r: seq<Order>)
    ensures store.orders.Json? ==> r == store.orders.items
    ensures !store.orders.Json? ==> r == []
  {
    Read(store.orders)
  }

  /** `getCalls()`. */
  function GetCalls(store: Store): (r: seq<Call>)
    ensures store.calls.Json? ==> r == store.calls.items
    ensures !store.calls.Json? ==> r == []
  {
    Read(store.calls)
  }

  /** A falsy `getItem` result gets an empty list; anything else is left alone. */
  function InitSlot<T>(slot: Slot<T>): (r: Slot<T>)
    ensures slot.Missing? || slot.Blank? ==> r == Json([])
    ensures slot.Corrupt? || slot.Json? ==> r == slot
  {
    if slot.Missing? || slot.Blank? then Json([]) else slot
  }

  /** `initializeStorage()`. */
  function InitializeStorage(store: Store): (r: Store)
    ensures r.orders == InitSlot(store.orders) && r.calls == InitSlot(store.calls)
  {
    Store(InitSlot(store.orders), InitSlot(store.calls))
  }

  /** Initialising twice is the same as initialising once, and it never
      changes a slot that already holds text. */
  lemma InitializeStorageIdempotent(store: Store)
    ensures InitializeStorage(InitializeStorage(store)) == InitializeStorage(store)
    ensures store.orders.Json? || store.orders.Corrupt? ==> InitializeStorage(store).orders == store.orders
    ensures store.calls.Json? || store.calls.Corrupt? ==> InitializeStorage(store).calls == store.calls
    ensures GetOrders(InitializeStorage(store)) == GetOrders(store)
    ensures GetCalls(InitializeStorage(store)) == GetCalls(store)
  {
  }

  // ---------------------------------------------------------------------
  // Listener registry and delivery trace

  type HandlerId = nat
  type Registry = map<string, seq<HandlerId>>

  const OrdersUpdated := "orders_updated"
  const CallsUpdated := "calls_updated"

  datatype Payload = OrdersPayload(orders: seq<Order>) | CallsPayload(calls: seq<Call>)

  /** One invocation `callback(data)` made by `emit`. */
  datatype Delivery = Delivery(handler: HandlerId, event: string, payload: Payload)

  function Handlers(reg: Registry, event: string): seq<HandlerId> {
    if event in reg then reg[event] else []
  }

  /** `on(event, callback)`: appends, so a handler registered twice is listed twice. */
  function On(reg: Registry, event: string, h: HandlerId): (r: Registry)
    ensures Handlers(r, event) == Handlers(reg, event) + [h]
    ensures forall e | e != event :: Handlers(r, e) == Handlers(reg, e)
  {
    reg[event := Handlers(reg, event) + [h]]
  }

  /** `off(event, callback)`: removes the first registration of the handler, if any. */
  function Off(reg: Registry, event: string, h: HandlerId): (r: Registry)
    ensures h !in Handlers(reg, event) ==> r == reg
    ensures h in Handlers(reg, event) ==>
      var hs := Handlers(reg, event);
      exists k | 0 <= k < |hs| :: hs[k] == h && h !in hs[..k] && Handlers(r, event) == hs[..k] + hs[k + 1..]
    ensures multiset(Handlers(r, event)) == multiset(Handlers(reg, event)) - multiset{h}
    ensures forall e | e != event :: Handlers(r, e) == Handlers(reg, e)
  {
    if event in reg && h in reg[event] then reg[event := Seqs.RemoveFirst(reg[event], h)] else reg
  }

  /** `emit(event, data)`: each handler of `event` once per registration, in registration order. */
  function Emit(reg: Registry, event: string, data: Payload): (r: seq<Delivery>)
    ensures |r| == |Handlers(reg, event)|
    ensures forall i | 0 <= i < |r| :: r[i] == Delivery(Handlers(reg, event)[i], event, data)
  {
    Deliveries(Handlers(reg, event), event, data)
  }

  /** `handlers.forEach(callback => callback(data))`. */
  function Deliveries(hs: seq<HandlerId>, event: string, data: Payload): (r: seq<Delivery>)
    ensures |r| == |hs|
    ensures forall i | 0 <= i < |r| :: r[i] == Delivery(hs[i], event, data)
    decreases |hs|
  {
    if |hs| == 0 then [] else Deliveries(hs[..|hs| - 1], event, data) + [Delivery(hs[|hs| - 1], event, data)]
  }

  function HandledBy(h: HandlerId): Delivery -> bool {
    (d: Delivery) => d.handler == h
  }

  /** The number of deliveries a handler receives in a trace. */
  function DeliveriesTo(trace: seq<Delivery>, h: HandlerId): nat {
    Seqs.Count(trace, HandledBy(h))
  }

  /** The number of times a handler is registered for an event. */
  function Registrations(reg: Registry, event: string, h: HandlerId): nat {
    multiset(Handlers(reg, event))[h]
  }

  /** A handler receives one delivery per registration; handlers of other events receive nothing. */
  lemma EmitDeliversPerRegistration(reg: Registry, event: string, data: Payload, h: HandlerId)
    ensures DeliveriesTo(Emit(reg, event, data), h) == Registrations(reg, event, h)
    ensures forall d | d in Emit(reg, event, data) :: d.event == event && d.handler in Handlers(reg, event)
  {
    DeliveriesMatchHandlers(Handlers(reg, event), event, data, h);
  }

  lemma {:induction false} DeliveriesMatchHandlers(hs: seq<HandlerId>, event: string, data: Payload, h: HandlerId)
    ensures DeliveriesTo(Deliveries(hs, event, data), h) == multiset(hs)[h]
    decreases |hs|
  {
    if |hs| > 0 {
      var init := hs[..|hs| - 1];
      var last := Delivery(hs[|hs| - 1], event, data);
      DeliveriesMatchHandlers(init, event, data, h);
      Seqs.CountAppend(Deliveries(init, event, data), [last], HandledBy(h));
      assert hs == init + [hs[|hs| - 1]];
    }
  }

  /** Registering the same handler twice makes it fire twice per emit. */
  lemma OnTwiceFiresTwice(reg: Registry, event: string, data: Payload, h: HandlerId)
    ensures DeliveriesTo(Emit(On(On(reg, event, h), event, h), event, data), h) ==
      DeliveriesTo(Emit(reg, event, data), h) + 2
  {
    var reg2 := On(On(reg, event, h), event, h);
    EmitDeliversPerRegistration(reg2, event, data, h);
    EmitDeliversPerRegistration(reg, event, data, h);
    assert Handlers(reg2, event) == Handlers(reg, event) + [h] + [h];
  }

  /** `off` undoes exactly one registration. */
  lemma OffRemovesOneRegistration(reg: Registry, event: string, data: Payload, h: HandlerId)
    requires Registrations(reg, event, h) > 0
    ensures DeliveriesTo(Emit(Off(reg, event, h), event, data), h) ==
      DeliveriesTo(Emit(reg, event, data), h) - 1
  {
    EmitDeliversPerRegistration(Off(reg, event, h), event, data, h);
    EmitDeliversPerRegistration(reg, event, data, h);
  }

  // ---------------------------------------------------------------------
  // The service

  datatype Service = Service(store: Store, listeners: Registry)

  /** The singleton's constructor: storage is initialised and nobody listens yet. */
  function Create(store: Store): (s: Service)
    ensures s.store == InitializeStorage(store) && s.listeners == map[]
  {
    Service(InitializeStorage(store), map[])
  }

  /** `handleStorageChange(e)`: a change under one of the two keys re-reads that
      list and emits it; any other key (or `null`, from `clear()`) is ignored. */
  function HandleStorageChange(s: Service, key: Option<string>): (trace: seq<Delivery>)
    ensures key == Some(OrdersKey) ==> trace == Emit(s.listeners, OrdersUpdated, OrdersPayload(GetOrders(s.store)))
    ensures key == Some(CallsKey) ==> trace == Emit(s.listeners, CallsUpdated, CallsPayload(GetCalls(s.store)))
    ensures key != Some(OrdersKey) && key != Some(CallsKey) ==> trace == []
  {
    if key == Some(OrdersKey) then Emit(s.listeners, OrdersUpdated, OrdersPayload(GetOrders(s.store)))
    else if key == Some(CallsKey) then Emit(s.listeners, CallsUpdated, CallsPayload(GetCalls(s.store)))
    else []
  }

  /** The result of a mutator: the new service state, the value returned, and the deliveries made. */
  datatype Step<T> = Step(service: Service, value: T, trace: seq<Delivery>)

  /** `'order-' + Date.now() + '-' + suffix`, where `suffix` stands for the random base-36 text. */
  function OrderId(now: int, suffix: string): string {
    "order-" + IntToString(now) + "-" + suffix
  }

  function CallId(now: int, suffix: string): string {
    "call-" + IntToString(now) + "-" + suffix
  }

  /** Writes the orders back, emits them, then handles the synthetic storage event. */
  function PublishOrders(s: Service, orders: seq<Order>): (r: (Service, seq<Delivery>))
    ensures r.0 == s.(store := s.store.(orders := Json(orders)))
    ensures r.1 == Emit(s.listeners, OrdersUpdated, OrdersPayload(orders)) +
      Emit(s.listeners, OrdersUpdated, OrdersPayload(orders))
  {
    var s' := s.(store := s.store.(orders := Json(orders)));
    (s', Emit(s.listeners, OrdersUpdated, OrdersPayload(orders)) + HandleStorageChange(s', Some(OrdersKey)))
  }

  function PublishCalls(s: Service, calls: seq<Call>): (r: (Service, seq<Delivery>))
    ensures r.0 == s.(store := s.store.(calls := Json(calls)))
    ensures r.1 == Emit(s.listeners, CallsUpdated, CallsPayload(calls)) +
      Emit(s.listeners, CallsUpdated, CallsPayload(calls))
  {
    var s' := s.(store := s.store.(calls := Json(calls)));
    (s', Emit(s.listeners, CallsUpdated, CallsPayload(calls)) + HandleStorageChange(s', Some(CallsKey)))
  }

  /** `addOrder(order)` at time `now`. */
  function AddOrder(s: Service, draft: OrderDraft, now: int, suffix: string): (r: Step<Order>)
    ensures StartsWith(r.value.id, "order-")
    ensures r.value.createdAt == now && r.value.updatedAt == now
    ensures r.value.tableNumber == draft.tableNumber && r.value.items == draft.items &&
      r.value.status == draft.status && r.value.station == draft.station && r.value.total == draft.total
    ensures r.service.store.orders == Json(GetOrders(s.store) + [r.value])
    ensures r.service.store.calls == s.store.calls && r.service.listeners == s.listeners
  {
    var o := Order(OrderId(now, suffix), draft.tableNumber, draft.items, draft.status,
                   draft.station, draft.total, now, now);
    var p := PublishOrders(s, GetOrders(s.store) + [o]);
    Step(p.0, o, p.1)
  }

  function HasOrderId(id: string): Order -> bool {
    (o: Order) => o.id == id
  }

  function HasCallId(id: string): Call -> bool {
    (c: Call) => c.id == id
  }

  /** A pending call from the given table. */
  function PendingFrom(table: int): Call -> bool {
    (c: Call) => c.tableNumber == table && c.status == CallPending
  }

  /** `updateOrderStatus(orderId, status)` at time `now`: an unknown id does nothing; otherwise
      the list is written back and announced twice, by the direct emit and the storage event. */
  function UpdateOrderStatus(s: Service, orderId: string, status: OrderStatus, now: int): (r: Step<()>)
    ensures r.service.listeners == s.listeners && r.service.store.calls == s.store.calls
    ensures |GetOrders(r.service.store)| == |GetOrders(s.store)|
    ensures (forall o | o in GetOrders(s.store) :: o.id != orderId) ==> r == Step(s, (), [])
    ensures (exists o | o in GetOrders(s.store) :: o.id == orderId) ==>
      r.trace == Emit(s.listeners, OrdersUpdated, OrdersPayload(GetOrders(r.service.store))) +
                 Emit(s.listeners, OrdersUpdated, OrdersPayload(GetOrders(r.service.store)))
  {
    var orders := GetOrders(s.store);
    match Seqs.FindIndex(orders, HasOrderId(orderId))
    case None => Step(s, (), [])
    case Some(i) =>
      var p := PublishOrders(s, orders[i := orders[i].(status := status, updatedAt := now)]);
      Step(p.0, (), p.1)
  }

  /** `addCall(call)` at time `now`: no check for an existing call from the same table. */
  function AddCall(s: Service, draft: CallDraft, now: int, suffix: string): (r: Step<Call>)
    ensures StartsWith(r.value.id, "call-")
    ensures r.value.createdAt == now
    ensures r.value.tableNumber == draft.tableNumber && r.value.kind == draft.kind &&
      r.value.message == draft.message && r.value.priority == draft.priority && r.value.status == draft.status
    ensures r.service.store.calls == Json(GetCalls(s.store) + [r.value])
    ensures r.service.store.orders == s.store.orders && r.service.listeners == s.listeners
  {
    var c := Call(CallId(now, suffix), draft.tableNumber, draft.kind, draft.message,
                  draft.priority, draft.status, now);
    var p := PublishCalls(s, GetCalls(s.store) + [c]);
    Step(p.0, c, p.1)
  }

  /** `updateCallStatus(callId, status)`: only the status changes; calls carry no update stamp.
      An unknown id does nothing; otherwise the list is written back and announced twice. */
  function UpdateCallStatus(s: Service, callId: string, status: CallStatus): (r: Step<()>)
    ensures r.service.listeners == s.listeners && r.service.store.orders == s.store.orders
    ensures |GetCalls(r.service.store)| == |GetCalls(s.store)|
    ensures (forall c | c in GetCalls(s.store) :: c.id != callId) ==> r == Step(s, (), [])
    ensures (exists c | c in GetCalls(s.store) :: c.id == callId) ==>
      r.trace == Emit(s.listeners, CallsUpdated, CallsPayload(GetCalls(r.service.store))) +
                 Emit(s.listeners, CallsUpdated, CallsPayload(GetCalls(r.service.store)))
  {
    var calls := GetCalls(s.store);
    match Seqs.FindIndex(calls, HasCallId(callId))
    case None => Step(s, (), [])
    case Some(i) =>
      var p := PublishCalls(s, calls[i := calls[i].(status := status)]);
      Step(p.0, (), p.1)
  }

  /** `clearAll()`: both lists emptied and announced with `[]`; no storage event is dispatched. */
  function ClearAll(s: Service): (r: Step<()>)
    ensures r.service.store == Store(Json([]), Json([]))
    ensures r.service.listeners == s.listeners
    ensures r.trace == Emit(s.listeners, OrdersUpdated, OrdersPayload([])) +
      Emit(s.listeners, CallsUpdated, CallsPayload([]))
  {
    var cleared := InitializeStorage(Store(Missing, Missing));
    Step(s.(store := cleared),
         (),
         Emit(s.listeners, OrdersUpdated, OrdersPayload([])) + Emit(s.listeners, CallsUpdated, CallsPayload([])))
  }

  // ---------------------------------------------------------------------
  // Properties of the mutators

  /** Adding an order keeps every earlier order in place and puts the new one last. */
  lemma AddOrderAppends(s: Service, draft: OrderDraft, now: int, suffix: string)
    ensures var r := AddOrder(s, draft, now, suffix);
      var after := GetOrders(r.service.store);
      |after| == |GetOrders(s.store)| + 1 &&
      after[..|after| - 1] == GetOrders(s.store) && after[|after| - 1] == r.value
  {
  }

  /** One added order reaches each same-tab `orders_updated` listener twice: once
      from the direct emit and once from the synthetic storage event. */
  lemma AddOrderDeliversTwice(s: Service, draft: OrderDraft, now: int, suffix: string, h: HandlerId)
    ensures var r := AddOrder(s, draft, now, suffix);
      DeliveriesTo(r.trace, h) == 2 * Registrations(s.listeners, OrdersUpdated, h) &&
      forall d | d in r.trace :: d.event == OrdersUpdated && d.payload == OrdersPayload(GetOrders(r.service.store))
  {
    var r := AddOrder(s, draft, now, suffix);
    var e := Emit(s.listeners, OrdersUpdated, OrdersPayload(GetOrders(r.service.store)));
    assert r.trace == e + e;
    Seqs.CountAppend(e, e, HandledBy(h));
    EmitDeliversPerRegistration(s.listeners, OrdersUpdated, OrdersPayload(GetOrders(r.service.store)), h);
  }

  /** The same double delivery for calls. */
  lemma AddCallDeliversTwice(s: Service, draft: CallDraft, now: int, suffix: string, h: HandlerId)
    ensures var r := AddCall(s, draft, now, suffix);
      DeliveriesTo(r.trace, h) == 2 * Registrations(s.listeners, CallsUpdated, h) &&
      forall d | d in r.trace :: d.event == CallsUpdated && d.payload == CallsPayload(GetCalls(r.service.store))
  {
    var r := AddCall(s, draft, now, suffix);
    var e := Emit(s.listeners, CallsUpdated, CallsPayload(GetCalls(r.service.store)));
    assert r.trace == e + e;
    Seqs.CountAppend(e, e, HandledBy(h));
    EmitDeliversPerRegistration(s.listeners, CallsUpdated, CallsPayload(GetCalls(r.service.store)), h);
  }

  /** `addCall` accepts a second pending call from a table that already has one. */
  lemma AddCallAcceptsDuplicates(s: Service, draft: CallDraft, now: int, suffix: string)
    requires exists c | c in GetCalls(s.store) :: c.tableNumber == draft.tableNumber && c.status == CallPending
    requires draft.status == CallPending
    ensures var after := GetCalls(AddCall(s, draft, now, suffix).service.store);
      |after| == |GetCalls(s.store)| + 1 &&
      |Seqs.Filter(after, PendingFrom(draft.tableNumber))| >= 2
  {
    var r := AddCall(s, draft, now, suffix);
    var p := PendingFrom(draft.tableNumber);
    var before := GetCalls(s.store);
    Seqs.FilterAppend(before, [r.value], p);
    var c :| c in before && p(c);
    assert c in Seqs.Filter(before, p);
  }

  /** An unknown order id writes nothing and notifies nobody. */
  lemma UpdateOrderStatusUnknown(s: Service, orderId: string, status: OrderStatus, now: int)
    requires forall o | o in GetOrders(s.store) :: o.id != orderId
    ensures UpdateOrderStatus(s, orderId, status, now) == Step(s, (), [])
  {
    var orders := GetOrders(s.store);
    assert Seqs.FindIndex(orders, HasOrderId(orderId)).None? by {
      forall j | 0 <= j < |orders| ensures orders[j].id != orderId {
        assert orders[j] in orders;
      }
    }
  }

  /** With a known id, only the first order with that id changes, and only its
      status and update time; the list is written back and announced twice. */
  lemma UpdateOrderStatusKnown(s: Service, orderId: string, status: OrderStatus, now: int)
    requires exists o | o in GetOrders(s.store) :: o.id == orderId
    ensures var before := GetOrders(s.store);
      var r := UpdateOrderStatus(s, orderId, status, now);
      var after := GetOrders(r.service.store);
      r.service.store.orders.Json? && r.service.store.calls == s.store.calls &&
      r.service.listeners == s.listeners &&
      r.trace == Emit(s.listeners, OrdersUpdated, OrdersPayload(after)) +
                 Emit(s.listeners, OrdersUpdated, OrdersPayload(after)) &&
      |after| == |before| &&
      exists i | 0 <= i < |before| ::
        before[i].id == orderId && (forall j | 0 <= j < i :: before[j].id != orderId) &&
        after[i] == before[i].(status := status, updatedAt := now) &&
        forall j | 0 <= j < |before| && j != i :: after[j] == before[j]
  {
    var before := GetOrders(s.store);
    var o :| o in before && o.id == orderId;
    var k :| 0 <= k < |before| && before[k] == o;
    assert HasOrderId(orderId)(before[k]);
    var i := Seqs.FindIndex(before, HasOrderId(orderId)).value;
    var updated := before[i := before[i].(status := status, updatedAt := now)];
    var r := UpdateOrderStatus(s, orderId, status, now);
    assert r.service.store == s.store.(orders := Json(updated));
    assert GetOrders(r.service.store) == updated;
  }

  /** An unknown call id writes nothing and notifies nobody. */
  lemma UpdateCallStatusUnknown(s: Service, callId: string, status: CallStatus)
    requires forall c | c in GetCalls(s.store) :: c.id != callId
    ensures UpdateCallStatus(s, callId, status) == Step(s, (), [])
  {
    var calls := GetCalls(s.store);
    assert Seqs.FindIndex(calls, HasCallId(callId)).None? by {
      forall j | 0 <= j < |calls| ensures calls[j].id != callId {
        assert calls[j] in calls;
      }
    }
  }

  /** With a known id, only that call's status changes; no timestamp is touched. */
  lemma UpdateCallStatusKnown(s: Service, callId: string, status: CallStatus)
    requires exists c | c in GetCalls(s.store) :: c.id == callId
    ensures var before := GetCalls(s.store);
      var r := UpdateCallStatus(s, callId, status);
      var after := GetCalls(r.service.store);
      r.service.store.calls.Json? && r.service.store.orders == s.store.orders &&
      r.service.listeners == s.listeners &&
      r.trace == Emit(s.listeners, CallsUpdated, CallsPayload(after)) +
                 Emit(s.listeners, CallsUpdated, CallsPayload(after)) &&
      |after| == |before| &&
      exists i | 0 <= i < |before| ::
        before[i].id == callId && (forall j | 0 <= j < i :: before[j].id != callId) &&
        after[i] == before[i].(status := status) &&
        forall j | 0 <= j < |before| && j != i :: after[j] == before[j]
  {
    var before := GetCalls(s.store);
    var c :| c in before && c.id == callId;
    var k :| 0 <= k < |before| && before[k] == c;
    assert HasCallId(callId)(before[k]);
    var i := Seqs.FindIndex(before, HasCallId(callId)).value;
    var updated := before[i := before[i].(status := status)];
    var r := UpdateCallStatus(s, callId, status);
    assert r.service.store == s.store.(calls := Json(updated));
    assert GetCalls(r.service.store) == updated;
  }

  /** Ids made at different times differ when the random part has no dash: the
      time can be read back from the id. */
  lemma OrderIdsDifferAcrossTimes(t1: nat, t2: nat, s1: string, s2: string)
    requires forall i | 0 <= i < |s1| :: s1[i] != '-'
    requires forall i | 0 <= i < |s2| :: s2[i] != '-'
    requires t1 != t2
    ensures OrderId(t1, s1) != OrderId(t2, s2)
  {
    OrderIdPieces(t1, s1);
    OrderIdPieces(t2, s2);
    NatToStringInjective(t1, t2);
  }

  lemma OrderIdPieces(t: nat, suffix: string)
    requires forall i | 0 <= i < |suffix| :: suffix[i] != '-'
    ensures SplitOn(OrderId(t, suffix), '-') == ["order", NatToString(t), suffix]
  {
    var n := NatToString(t);
    assert forall i | 0 <= i < |n| :: n[i] != '-' by {
      assert AllDigits(n);
    }
    assert OrderId(t, suffix) == "order" + ['-'] + (n + ['-'] + suffix);
    SplitOnFirstPiece("order", '-', n + ['-'] + suffix);
    SplitOnFirstPiece(n, '-', suffix);
    SplitOnNoSeparator(suffix, '-');
  }
}

=== FILE: realtime_store.dfy ===
/** The consumer side of the broadcasts (`src/store/realTimeStore.ts`): a store
    holding orders, calls and tables, whose updaters replace records by id, plus
    the routing of `BroadcastChannel` messages to those updaters.

    Playing the notification sound is returned as a flag instead of touching
    `AudioContext`. The records are the ones the mock back end posts. */
module RealtimeStore {
  import opened Wrappers
  import Seqs
  import MockApi

  type Order = MockApi.Order
  type Call = MockApi.Call
  type Table = MockApi.Table

  datatype Store = Store(orders: seq<Order>, calls: seq<Call>, tables: seq<Table>, soundEnabled: bool)

  /** The store as created: empty lists, sound on. */
  const Initial := Store([], [], [], true)

  // ---------------------------------------------------------------------
  // Whole-list setters

  function SetOrders(st: Store, orders: seq<Order>): (r: Store)
    ensures r.orders == orders && r.calls == st.calls && r.tables == st.tables && r.soundEnabled == st.soundEnabled
  {
    st.(orders := orders)
  }

  function SetCalls(st: Store, calls: seq<Call>): (r: Store)
    ensures r.calls == calls && r.orders == st.orders && r.tables == st.tables && r.soundEnabled == st.soundEnabled
  {
    st.(calls := calls)
  }

  function SetTables(st: Store, tables: seq<Table>): (r: Store)
    ensures r.tables == tables && r.orders == st.orders && r.calls == st.calls && r.soundEnabled == st.soundEnabled
  {
    st.(tables := tables)
  }

  // ---------------------------------------------------------------------
  // Replace by id

  /** The constant function, the `? order :` arm of the maps below. */
  function Always<T>(x: T): T -> T { (_: T) => x }

  /** `orders.map(o => o.id === order.id ? order : o)`. */
  function ReplaceOrder(orders: seq<Order>, order: Order): (r: seq<Order>)
    ensures |r| == |orders|
    ensures forall i | 0 <= i < |r| :: r[i] == if orders[i].id == order.id then order else orders[i]
  {
    Seqs.MapWhere(orders, MockApi.OrderHasId(order.id), Always(order))
  }

  function ReplaceCall(calls: seq<Call>, call: Call): (r: seq<Call>)
    ensures |r| == |calls|
    ensures forall i | 0 <= i < |r| :: r[i] == if calls[i].id == call.id then call else calls[i]
  {
    Seqs.MapWhere(calls, MockApi.CallHasId(call.id), Always(call))
  }

  function ReplaceTable(tables: seq<Table>, table: Table): (r: seq<Table>)
    ensures |r| == |tables|
    ensures forall i | 0 <= i < |r| :: r[i] == if tables[i].id == table.id then table else tables[i]
  {
    Seqs.MapWhere(tables, MockApi.TableHasId(table.id), Always(table))
  }

  /** `updateOrder(order)`: the incoming order takes the place of every order with its id;
      the order list keeps its length, and nothing else in the store changes. */
  function UpdateOrder(st: Store, order: Order): (r: Store)
    ensures r.calls == st.calls && r.tables == st.tables && r.soundEnabled == st.soundEnabled
    ensures |r.orders| == |st.orders|
    ensures forall i | 0 <= i < |r.orders| :: st.orders[i].id == order.id ==> r.orders[i] == order
    ensures forall i | 0 <= i < |r.orders| :: st.orders[i].id != order.id ==> r.orders[i] == st.orders[i]
  {
    st.(orders := ReplaceOrder(st.orders, order))
  }

  /** `updateTable(table)`: the incoming table takes the place of every table with its id;
      the table list keeps its length, and nothing else in the store changes. */
  function UpdateTable(st: Store, table: Table): (r: Store)
    ensures r.orders == st.orders && r.calls == st.calls && r.soundEnabled == st.soundEnabled
    ensures |r.tables| == |st.tables|
    ensures forall i | 0 <= i < |r.tables| :: st.tables[i].id == table.id ==> r.tables[i] == table
    ensures forall i | 0 <= i < |r.tables| :: st.tables[i].id != table.id ==> r.tables[i] == st.tables[i]
  {
    st.(tables := ReplaceTable(st.tables, table))
  }

  /** `updateCall(call)`: the new list, and whether the notification sound plays. The
      sound plays for a call whose id was not in the list, that is open, with sound on. */
  function UpdateCall(st: Store, call: Call): (r: (Store, bool))
    ensures r.0 == st.(calls := ReplaceCall(st.calls, call))
    ensures r.1 <==> (forall c | c in st.calls :: c.id != call.id) && call.status == MockApi.Open && st.soundEnabled
  {
    var existing := Seqs.Find(st.calls, MockApi.CallHasId(call.id));
    (st.(calls := ReplaceCall(st.calls, call)), existing.None? && call.status == MockApi.Open && st.soundEnabled)
  }

  /** `toggleSound()`. */
  function ToggleSound(st: Store): (r: Store)
    ensures r.soundEnabled != st.soundEnabled
    ensures r.orders == st.orders && r.calls == st.calls && r.tables == st.tables
  {
    st.(soundEnabled := !st.soundEnabled)
  }

  lemma ToggleSoundTwice(st: Store)
    ensures ToggleSound(ToggleSound(st)) == st
  {
  }

  // ---------------------------------------------------------------------
  // Properties of replace-by-id

  /** An update never inserts: every record afterwards is an old one or the incoming one,
      and an unknown id leaves the list as it was. */
  lemma ReplaceOrderNeverInserts(orders: seq<Order>, order: Order)
    ensures forall o | o in ReplaceOrder(orders, order) :: o in orders || o == order
    ensures (forall o | o in orders :: o.id != order.id) ==> ReplaceOrder(orders, order) == orders
    ensures order in ReplaceOrder(orders, order) <==> exists o | o in orders :: o.id == order.id
  {
    var r := ReplaceOrder(orders, order);
    if exists o | o in orders :: o.id == order.id {
      var o :| o in orders && o.id == order.id;
      var i :| 0 <= i < |orders| && orders[i] == o;
      assert r[i] == order;
    }
  }

  lemma ReplaceCallNeverInserts(calls: seq<Call>, call: Call)
    ensures forall c | c in ReplaceCall(calls, call) :: c in calls || c == call
    ensures (forall c | c in calls :: c.id != call.id) ==> ReplaceCall(calls, call) == calls
    ensures call in ReplaceCall(calls, call) <==> exists c | c in calls :: c.id == call.id
  {
    var r := ReplaceCall(calls, call);
    if exists c | c in calls :: c.id == call.id {
      var c :| c in calls && c.id == call.id;
      var i :| 0 <= i < |calls| && calls[i] == c;
      assert r[i] == call;
    }
  }

  lemma ReplaceTableNeverInserts(tables: seq<Table>, table: Table)
    ensures forall t | t in ReplaceTable(tables, table) :: t in tables || t == table
    ensures (forall t | t in tables :: t.id != table.id) ==> ReplaceTable(tables, table) == tables
    ensures table in ReplaceTable(tables, table) <==> exists t | t in tables :: t.id == table.id
  {
    var r := ReplaceTable(tables, table);
    if exists t | t in tables :: t.id == table.id {
      var t :| t in tables && t.id == table.id;
      var i :| 0 <= i < |tables| && tables[i] == t;
      assert r[i] == table;
    }
  }

  /** Replaying the same broadcast changes nothing more. */
  lemma ReplaceOrderIdempotent(orders: seq<Order>, order: Order)
    ensures ReplaceOrder(ReplaceOrder(orders, order), order) == ReplaceOrder(orders, order)
  {
  }

  /** Of two broadcasts for the same record, the later wins. */
  lemma ReplaceOrderLastWins(orders: seq<Order>, a: Order, b: Order)
    requires a.id == b.id
    ensures ReplaceOrder(ReplaceOrder(orders, a), b) == ReplaceOrder(orders, b)
  {
  }

  /** The sound plays at most once per call id: once the call is in the list, a rebroadcast is silent. */
  lemma KnownCallIsSilent(st: Store, call: Call)
    requires exists c | c in st.calls :: c.id == call.id
    ensures !UpdateCall(st, call).1
    ensures call in UpdateCall(st, call).0.calls
  {
    ReplaceCallNeverInserts(st.calls, call);
  }

  /** A brand-new open call rings with sound on, but is not added to the list (replace-by-id does not insert). */
  lemma NewCallRingsButIsNotAdded(st: Store, call: Call)
    requires forall c | c in st.calls :: c.id != call.id
    requires call.status == MockApi.Open && st.soundEnabled
    ensures UpdateCall(st, call) == (st, true)
  {
    ReplaceCallNeverInserts(st.calls, call);
  }

  // ---------------------------------------------------------------------
  // Channel routing (`initializeRealTime`)

  /** The listener on one channel: only its own type tag reaches its updater. The source
      dispatches on the tag alone and passes `data` on untyped; the model also asks that the
      record be of the updater's kind, which every post of `MockApi` satisfies
      (`BroadcastsAreRouted`), so the two agree on everything the back end sends. */
  function Receive(st: Store, msg: MockApi.Post): (r: (Store, bool))
    ensures msg.channel == "orders" && msg.kind == MockApi.OrderUpdate && msg.data.OrderData? ==>
      r == (UpdateOrder(st, msg.data.order), false)
    ensures msg.channel == "calls" && msg.kind == MockApi.CallUpdate && msg.data.CallData? ==>
      r == UpdateCall(st, msg.data.call)
    ensures msg.channel == "tables" && msg.kind == MockApi.TableUpdate && msg.data.TableData? ==>
      r == (UpdateTable(st, msg.data.table), false)
    ensures !Routed(msg) ==> r == (st, false)
  {
    if msg.channel == "orders" && msg.kind == MockApi.OrderUpdate && msg.data.OrderData? then
      (UpdateOrder(st, msg.data.order), false)
    else if msg.channel == "calls" && msg.kind == MockApi.CallUpdate && msg.data.CallData? then
      UpdateCall(st, msg.data.call)
    else if msg.channel == "tables" && msg.kind == MockApi.TableUpdate && msg.data.TableData? then
      (UpdateTable(st, msg.data.table), false)
    else (st, false)
  }

  /** A message some listener acts on: the right tag, on the right channel, with a matching record. */
  predicate Routed(msg: MockApi.Post) {
    (msg.channel == "orders" && msg.kind == MockApi.OrderUpdate && msg.data.OrderData?) ||
    (msg.channel == "calls" && msg.kind == MockApi.CallUpdate && msg.data.CallData?) ||
    (msg.channel == "tables" && msg.kind == MockApi.TableUpdate && msg.data.TableData?)
  }

  /** Each broadcast of the back end is routed to the updater of its own kind. */
  lemma BroadcastsAreRouted(o: Order, c: Call, t: Table)
    ensures Routed(MockApi.BroadcastOrder(o)) && Routed(MockApi.BroadcastCall(c)) && Routed(MockApi.BroadcastTable(t))
  {
  }

  /** A routed message touches only its own list (and never the sound flag). */
  lemma ReceiveTouchesOwnList(st: Store, msg: MockApi.Post)
    ensures var s := Receive(st, msg).0;
      s.soundEnabled == st.soundEnabled &&
      (msg.data.OrderData? ==> s.calls == st.calls && s.tables == st.tables) &&
      (msg.data.CallData? ==> s.orders == st.orders && s.tables == st.tables) &&
      (msg.data.TableData? ==> s.orders == st.orders && s.calls == st.calls)
  {
  }

  /** A tab that receives an order update it already holds shows the new version;
      the number of orders it shows does not change. */
  lemma OrderUpdateReachesKnownOrder(st: Store, before: Order, after: Order)
    requires before in st.orders && before.id == after.id
    ensures var s := Receive(st, MockApi.BroadcastOrder(after)).0;
      after in s.orders && |s.orders| == |st.orders|
  {
    ReplaceOrderNeverInserts(st.orders, after);
  }

  /** Delivering a list of messages in order; the flags say which ones rang. Only a
      routed call message with an open call can ring, and only while the sound is on. */
  function ReceiveAll(st: Store, msgs: seq<MockApi.Post>): (r: (Store, seq<bool>))
    ensures |r.1| == |msgs|
    ensures |r.0.orders| == |st.orders| && |r.0.calls| == |st.calls| && |r.0.tables| == |st.tables|
    ensures r.0.soundEnabled == st.soundEnabled
    ensures forall i | 0 <= i < |msgs| :: r.1[i] ==>
      Routed(msgs[i]) && msgs[i].data.CallData? && msgs[i].data.call.status == MockApi.Open && st.soundEnabled
    decreases |msgs|
  {
    if |msgs| == 0 then (st, [])
    else
      var first := Receive(st, msgs[0]);
      var rest := ReceiveAll(first.0, msgs[1..]);
      (rest.0, [first.1] + rest.1)
  }

  /** One step of `ReceiveAll`: the first message, then the rest from the state it left. */
  lemma ReceiveAllStep(st: Store, msgs: seq<MockApi.Post>)
    requires |msgs| > 0
    ensures var first := Receive(st, msgs[0]);
      var rest := ReceiveAll(first.0, msgs[1..]);
      ReceiveAll(st, msgs).0 == rest.0 && ReceiveAll(st, msgs).1 == [first.1] + rest.1
  {
  }

  /** Delivering `a` and then `b` is delivering `a + b`: the state carries over and the flags concatenate. */
  lemma {:induction false} ReceiveAllAppend(st: Store, a: seq<MockApi.Post>, b: seq<MockApi.Post>)
    ensures var ra := ReceiveAll(st, a);
      var rb := ReceiveAll(ra.0, b);
      ReceiveAll(st, a + b).0 == rb.0 && ReceiveAll(st, a + b).1 == ra.1 + rb.1
    decreases |a|
  {
    if |a| == 0 {
      assert a + b == b;
    } else {
      var ab := a + b;
      assert ab[0] == a[0] && ab[1..] == a[1..] + b;
      var s1 := Receive(st, a[0]);
      ReceiveAllAppend(s1.0, a[1..], b);
      ReceiveAllStep(st, a);
      ReceiveAllStep(st, ab);
      var ra := ReceiveAll(s1.0, a[1..]);
      var rb := ReceiveAll(ra.0, b);
      ConsAppend(s1.1, ra.1, rb.1);
    }
  }

  lemma ConsAppend(x: bool, p: seq<bool>, q: seq<bool>)
    ensures [x] + (p + q) == ([x] + p) + q
  {
  }

  /** The flag of message `i` is what `Receive` says for it, in the state the earlier messages left. */
  lemma ReceiveAllFlags(st: Store, msgs: seq<MockApi.Post>, i: nat)
    requires i < |msgs|
    ensures ReceiveAll(st, msgs).1[i] == Receive(ReceiveAll(st, msgs[..i]).0, msgs[i]).1
  {
    assert msgs == msgs[..i] + msgs[i..];
    ReceiveAllAppend(st, msgs[..i], msgs[i..]);
    var mid := ReceiveAll(st, msgs[..i]).0;
    assert msgs[i..][0] == msgs[i];
  }
}

=== FILE: seqs.dfy ===
/** Generic list operations with the meaning of the JavaScript array methods the
    application uses: `filter`, `map` with a conditional replacement,
    `findIndex` / `find`, `indexOf` + `splice(i, 1)`, and the stable `sort`
    with a numeric comparator. */
module Seqs {
  import opened Wrappers

  // ---------------------------------------------------------------------
  // filter

  /** `s.filter(p)`. */
  function Filter<T(==,!new)>(s: seq<T>, p: T -> bool): (r: seq<T>)
    ensures |r| <= |s|
    ensures forall i | 0 <= i < |r| :: p(r[i])
    ensures forall x :: x in r <==> x in s && p(x)
    decreases |s|
  {
    if |s| == 0 then []
    else
      assert s == [s[0]] + s[1..];
      if p(s[0]) then [s[0]] + Filter(s[1..], p) else Filter(s[1..], p)
  }

  /** One step of `Filter`: the head is kept or dropped, then the tail is filtered. */
  lemma FilterStep<T(!new)>(s: seq<T>, p: T -> bool)
    requires |s| > 0
    ensures Filter(s, p) == (if p(s[0]) then [s[0]] else []) + Filter(s[1..], p)
  {
  }

  /** Filtering distributes over concatenation: the kept elements stay in their order. */
  lemma {:induction false} FilterAppend<T(!new)>(a: seq<T>, b: seq<T>, p: T -> bool)
    ensures Filter(a + b, p) == Filter(a, p) + Filter(b, p)
    decreases |a|
  {
    if |a| > 0 {
      assert (a + b)[1..] == a[1..] + b;
      FilterAppend(a[1..], b, p);
    } else {
      assert a + b == b;
    }
  }

  /** Keys strictly increasing along the list. */
  predicate StrictlyIncreasingBy<T>(s: seq<T>, key: T -> int) {
    forall i, j | 0 <= i < j < |s| :: key(s[i]) < key(s[j])
  }

  /** Filtering keeps a strictly increasing key strictly increasing. */
  lemma {:induction false} FilterKeepsStrictlyIncreasing<T(!new)>(s: seq<T>, p: T -> bool, key: T -> int)
    requires StrictlyIncreasingBy(s, key)
    ensures StrictlyIncreasingBy(Filter(s, p), key)
    decreases |s|
  {
    if |s| > 0 {
      var tail := s[1..];
      assert StrictlyIncreasingBy(tail, key) by {
        forall i, j | 0 <= i < j < |tail| ensures key(tail[i]) < key(tail[j]) {
          assert tail[i] == s[i + 1] && tail[j] == s[j + 1];
        }
      }
      FilterKeepsStrictlyIncreasing(tail, p, key);
      FilterStep(s, p);
      if p(s[0]) {
        forall x | x in tail ensures key(s[0]) < key(x) {
          var m :| 0 <= m < |tail| && tail[m] == x;
          assert tail[m] == s[m + 1];
        }
        StrictCons(s[0], Filter(tail, p), key);
      }
    }
  }

  /** A key below every key of a strictly increasing list can be put in front of it. */
  lemma StrictCons<T>(h: T, t: seq<T>, key: T -> int)
    requires StrictlyIncreasingBy(t, key)
    requires forall x | x in t :: key(h) < key(x)
    ensures StrictlyIncreasingBy([h] + t, key)
  {
    var s := [h] + t;
    forall i, j | 0 <= i < j < |s| ensures key(s[i]) < key(s[j]) {
      assert s[j] == t[j - 1];
      if i > 0 {
        assert s[i] == t[i - 1];
      }
    }
  }

  /** Filtering twice is filtering once by any test that is the conjunction of the two. */
  lemma {:induction false} FilterFilterAs<T(!new)>(s: seq<T>, p: T -> bool, q: T -> bool, pq: T -> bool)
    requires forall x :: pq(x) == (p(x) && q(x))
    ensures Filter(Filter(s, p), q) == Filter(s, pq)
    decreases |s|
  {
    if |s| > 0 {
      FilterFilterAs(s[1..], p, q, pq);
      FilterStep(s, p);
      FilterStep(s, pq);
      if p(s[0]) {
        FilterStep(Filter(s, p), q);
      }
    }
  }

  /** The number of elements passing `p`, `s.filter(p).length`, without building the list. */
  function Count<T>(s: seq<T>, p: T -> bool): (n: nat)
    ensures n <= |s|
    decreases |s|
  {
    if |s| == 0 then 0 else (if p(s[0]) then 1 else 0) + Count(s[1..], p)
  }

  lemma {:induction false} CountAppend<T>(a: seq<T>, b: seq<T>, p: T -> bool)
    ensures Count(a + b, p) == Count(a, p) + Count(b, p)
    decreases |a|
  {
    if |a| > 0 {
      assert (a + b)[1..] == a[1..] + b;
      CountAppend(a[1..], b, p);
    } else {
      assert a + b == b;
    }
  }

  /** Counting agrees with the length of the filtered list. */
  lemma {:induction false} CountIsFilterLength<T(!new)>(s: seq<T>, p: T -> bool)
    ensures Count(s, p) == |Filter(s, p)|
    decreases |s|
  {
    if |s| > 0 {
      CountIsFilterLength(s[1..], p);
    }
  }

  /** A filter that every element passes returns its input unchanged. */
  lemma {:induction false} FilterAllPass<T(!new)>(s: seq<T>, p: T -> bool)
    requires forall i | 0 <= i < |s| :: p(s[i])
    ensures Filter(s, p) == s
    decreases |s|
  {
    if |s| > 0 {
      FilterAllPass(s[1..], p);
    }
  }

  /** One step of `Filter` at position `k` of a sequence. */
  lemma FilterAt<T(!new)>(s: seq<T>, k: nat, p: T -> bool)
    requires k < |s|
    ensures Filter(s[k..], p) == (if p(s[k]) then [s[k]] else []) + Filter(s[k + 1..], p)
  {
    FilterStep(s[k..], p);
    assert s[k..][1..] == s[k + 1..];
  }

  /** A one-element list is kept or dropped as a whole. */
  lemma FilterSingleton<T(!new)>(x: T, p: T -> bool)
    ensures Filter([x], p) == if p(x) then [x] else []
  {
    assert [x][1..] == [];
  }

  /** Filtering a list none of whose elements passes gives the empty list. */
  lemma {:induction false} FilterNonePass<T(!new)>(s: seq<T>, p: T -> bool)
    requires forall i | 0 <= i < |s| :: !p(s[i])
    ensures Filter(s, p) == []
    decreases |s|
  {
    if |s| > 0 {
      FilterNonePass(s[1..], p);
    }
  }

  /** Keeping the elements that pass `p`, then those that pass `q`, keeps those that pass both. */
  lemma {:induction false} FilterFilter<T(!new)>(s: seq<T>, p: T -> bool, q: T -> bool)
    ensures Filter(Filter(s, p), q) == Filter(s, x => p(x) && q(x))
    decreases |s|
  {
    if |s| > 0 {
      FilterFilter(s[1..], p, q);
    }
  }

  /** The elements that pass `p` and those that fail it together account for the whole list. */
  lemma {:induction false} FilterComplement<T(!new)>(s: seq<T>, p: T -> bool)
    ensures |Filter(s, p)| + |Filter(s, x => !p(x))| == |s|
    decreases |s|
  {
    if |s| > 0 {
      FilterComplement(s[1..], p);
    }
  }

  /** When every element passes exactly one of three tests, the three filters split the list. */
  lemma {:induction false} CountPartition3<T>(s: seq<T>, p: T -> bool, q: T -> bool, r: T -> bool)
    requires forall i | 0 <= i < |s| :: (if p(s[i]) then 1 else 0) + (if q(s[i]) then 1 else 0) + (if r(s[i]) then 1 else 0) == 1
    ensures Count(s, p) + Count(s, q) + Count(s, r) == |s|
    decreases |s|
  {
    if |s| > 0 {
      CountPartition3(s[1..], p, q, r);
    }
  }

  /** The same split, stated for the filtered lists. */
  lemma FilterPartition3<T(!new)>(s: seq<T>, p: T -> bool, q: T -> bool, r: T -> bool)
    requires forall i | 0 <= i < |s| :: (if p(s[i]) then 1 else 0) + (if q(s[i]) then 1 else 0) + (if r(s[i]) then 1 else 0) == 1
    ensures |Filter(s, p)| + |Filter(s, q)| + |Filter(s, r)| == |s|
  {
    CountPartition3(s, p, q, r);
    CountIsFilterLength(s, p);
    CountIsFilterLength(s, q);
    CountIsFilterLength(s, r);
  }

  // ---------------------------------------------------------------------
  // reduce: sums

  /** `s.reduce((sum, x) => sum + f(x), 0)` over exact rationals. */
  function SumReal<T>(s: seq<T>, f: T -> real): real
    decreases |s|
  {
    if |s| == 0 then 0.0 else f(s[0]) + SumReal(s[1..], f)
  }

  lemma {:induction false} SumRealAppend<T>(a: seq<T>, b: seq<T>, f: T -> real)
    ensures SumReal(a + b, f) == SumReal(a, f) + SumReal(b, f)
    decreases |a|
  {
    if |a| > 0 {
      assert (a + b)[1..] == a[1..] + b;
      SumRealAppend(a[1..], b, f);
    } else {
      assert a + b == b;
    }
  }
  /** A sum of non-negative terms is non-negative. */
  lemma {:induction false} SumRealNonNegative<T>(s: seq<T>, f: T -> real)
    ensures (forall i | 0 <= i < |s| :: f(s[i]) >= 0.0) ==> SumReal(s, f) >= 0.0
    decreases |s|
  {
    if |s| > 0 && forall i | 0 <= i < |s| :: f(s[i]) >= 0.0 {
      assert forall i | 0 <= i < |s[1..]| :: f(s[1..][i]) >= 0.0 by {
        forall i | 0 <= i < |s[1..]| ensures f(s[1..][i]) >= 0.0 { assert s[1..][i] == s[i + 1]; }
      }
      SumRealNonNegative(s[1..], f);
    }
  }

  /** A sum of terms that are each at least 1 is at least the number of terms. */
  lemma {:induction false} SumIntAtLeastLength<T>(s: seq<T>, f: T -> int)
    ensures (forall i | 0 <= i < |s| :: f(s[i]) >= 1) ==> SumInt(s, f) >= |s|
    decreases |s|
  {
    if |s| > 0 && forall i | 0 <= i < |s| :: f(s[i]) >= 1 {
      assert forall i | 0 <= i < |s[1..]| :: f(s[1..][i]) >= 1 by {
        forall i | 0 <= i < |s[1..]| ensures f(s[1..][i]) >= 1 { assert s[1..][i] == s[i + 1]; }
      }
      SumIntAtLeastLength(s[1..], f);
    }
  }

  /** Replacing one element changes a real sum by the difference of the two terms. */
  lemma SumRealUpdate<T>(s: seq<T>, k: nat, x: T, f: T -> real)
    requires k < |s|
    ensures SumReal(s[k := x], f) == SumReal(s, f) - f(s[k]) + f(x)
  {
    var a, b := s[..k], s[k + 1..];
    assert s == a + [s[k]] + b;
    assert s[k := x] == a + [x] + b;
    SumRealAppend(a + [s[k]], b, f);
    SumRealAppend(a, [s[k]], f);
    SumRealAppend(a + [x], b, f);
    SumRealAppend(a, [x], f);
  }


  /** `s.reduce((sum, x) => sum + f(x), 0)` over integers. */
  function SumInt<T>(s: seq<T>, f: T -> int): int
    decreases |s|
  {
    if |s| == 0 then 0 else f(s[0]) + SumInt(s[1..], f)
  }

  lemma {:induction false} SumIntAppend<T>(a: seq<T>, b: seq<T>, f: T -> int)
    ensures SumInt(a + b, f) == SumInt(a, f) + SumInt(b, f)
    decreases |a|
  {
    if |a| > 0 {
      assert (a + b)[1..] == a[1..] + b;
      SumIntAppend(a[1..], b, f);
    } else {
      assert a + b == b;
    }
  }
  /** Replacing one element changes a sum by the difference of the two terms. */
  lemma SumIntUpdate<T>(s: seq<T>, k: nat, x: T, f: T -> int)
    requires k < |s|
    ensures SumInt(s[k := x], f) == SumInt(s, f) - f(s[k]) + f(x)
  {
    var a, b := s[..k], s[k + 1..];
    assert s == a + [s[k]] + b;
    assert s[k := x] == a + [x] + b;
    SumIntAppend(a + [s[k]], b, f);
    SumIntAppend(a, [s[k]], f);
    SumIntAppend(a + [x], b, f);
    SumIntAppend(a, [x], f);
  }


  // ---------------------------------------------------------------------
  // map with a conditional replacement

  /** `s.map(x => m(x) ? f(x) : x)`. */
  function MapWhere<T>(s: seq<T>, m: T -> bool, f: T -> T): (r: seq<T>)
    ensures |r| == |s|
    ensures forall i | 0 <= i < |s| :: r[i] == if m(s[i]) then f(s[i]) else s[i]
  {
    seq(|s|, i requires 0 <= i < |s| => if m(s[i]) then f(s[i]) else s[i])
  }

  /** When nothing matches, the conditional map is the identity. */
  lemma MapWhereNoMatch<T>(s: seq<T>, m: T -> bool, f: T -> T)
    requires forall i | 0 <= i < |s| :: !m(s[i])
    ensures MapWhere(s, m, f) == s
  {
  }

  // ---------------------------------------------------------------------
  // findIndex / find

  /** `s.findIndex(p)`, with `None` for `-1`. */
  function FindIndex<T>(s: seq<T>, p: T -> bool): (r: Option<nat>)
    ensures r.Some? ==> r.value < |s| && p(s[r.value])
    ensures r.Some? ==> forall j | 0 <= j < r.value :: !p(s[j])
    ensures r.None? <==> forall j | 0 <= j < |s| :: !p(s[j])
    decreases |s|
  {
    if |s| == 0 then None
    else if p(s[0]) then Some(0)
    else match FindIndex(s[1..], p)
      case None => None
      case Some(i) => Some(i + 1)
  }

  /** `s.find(p)`: the first element passing `p`, or `None` (JavaScript's `undefined`). */
  function Find<T>(s: seq<T>, p: T -> bool): (r: Option<T>)
    ensures r.Some? ==> exists i | 0 <= i < |s| ::
      s[i] == r.value && p(s[i]) && forall j | 0 <= j < i :: !p(s[j])
    ensures r.None? <==> forall j | 0 <= j < |s| :: !p(s[j])
  {
    match FindIndex(s, p)
    case None => None
    case Some(i) => Some(s[i])
  }

  // ---------------------------------------------------------------------
  // indexOf + splice

  /** `s.indexOf(x)`, with `None` for `-1`. */
  function IndexOf<T(==,!new)>(s: seq<T>, x: T): (r: Option<nat>)
    ensures r.Some? ==> r.value < |s| && s[r.value] == x && x !in s[..r.value]
    ensures r.None? <==> x !in s
  {
    var i := FindIndex(s, y => y == x);
    if i.None? then None
    else
      assert forall y | y in s[..i.value] :: y != x;
      i
  }

  /** The first position holding `x` is what `indexOf` finds. */
  lemma IndexOfAt<T(!new)>(s: seq<T>, x: T, i: nat)
    requires i < |s| && s[i] == x
    requires forall k | 0 <= k < i :: s[k] != x
    ensures IndexOf(s, x) == Some(i)
  {
    assert x in s;
    var j := IndexOf(s, x).value;
    if j > i {
      PrefixMember(s, j, i);
    }
  }

  /** The first occurrence of `x` in `a + [x] + b` is right after `a` when `a` lacks `x`. */
  lemma IndexOfAfter<T(!new)>(a: seq<T>, x: T, b: seq<T>)
    requires x !in a
    ensures IndexOf(a + [x] + b, x) == Some(|a|)
  {
    var s := a + [x] + b;
    assert s[|a|] == x;
    assert forall k | 0 <= k < |a| :: s[k] == a[k];
    var i := IndexOf(s, x).value;
    if i > |a| {
      PrefixMember(s, i, |a|);
      assert false;
    }
  }

  lemma PrefixMember<T>(s: seq<T>, n: int, k: int)
    ensures 0 <= k < n <= |s| ==> s[k] in s[..n]
  {
    if 0 <= k < n <= |s| {
      assert s[..n][k] == s[k];
    }
  }

  /** `const i = s.indexOf(x); if (i > -1) s.splice(i, 1)`: removes the first occurrence only. */
  function RemoveFirst<T(==,!new)>(s: seq<T>, x: T): (r: seq<T>)
    ensures x !in s ==> r == s
    ensures x in s ==> exists i | 0 <= i < |s| :: s[i] == x && x !in s[..i] && r == s[..i] + s[i + 1..]
    ensures multiset(r) == multiset(s) - multiset{x}
  {
    match IndexOf(s, x)
    case None => s
    case Some(i) =>
      assert s == s[..i] + [s[i]] + s[i + 1..];
      s[..i] + s[i + 1..]
  }

  // ---------------------------------------------------------------------
  // Stable sort by a numeric key (`sort((a, b) => key(a) - key(b))`)

  predicate SortedBy<T>(s: seq<T>, key: T -> int) {
    forall i, j | 0 <= i < j < |s| :: key(s[i]) <= key(s[j])
  }

  /** Inserts `x` after every element whose key is not greater, which keeps the sort stable. */
  function InsertByKey<T(==,!new)>(s: seq<T>, x: T, key: T -> int): (r: seq<T>)
    requires SortedBy(s, key)
    ensures SortedBy(r, key)
    ensures multiset(r) == multiset(s) + multiset{x}
    ensures r[0] == x || (|s| > 0 && r[0] == s[0])
    decreases |s|
  {
    if |s| == 0 then [x]
    else if key(x) < key(s[0]) then
      SortedCons(x, s, key);
      [x] + s
    else
      SortedTail(s, key);
      var rest := InsertByKey(s[1..], x, key);
      InsertBehindHead(s, x, key, rest);
      [s[0]] + rest
  }

  lemma SortedTail<T>(s: seq<T>, key: T -> int)
    requires |s| > 0 && SortedBy(s, key)
    ensures SortedBy(s[1..], key)
  {
  }

  /** Putting the head of a sorted list in front of its tail with `x` inserted. */
  lemma InsertBehindHead<T>(s: seq<T>, x: T, key: T -> int, rest: seq<T>)
    requires |s| > 0 && SortedBy(s, key) && key(s[0]) <= key(x)
    requires SortedBy(rest, key) && multiset(rest) == multiset(s[1..]) + multiset{x}
    requires rest[0] == x || (|s[1..]| > 0 && rest[0] == s[1..][0])
    ensures SortedBy([s[0]] + rest, key)
    ensures multiset([s[0]] + rest) == multiset(s) + multiset{x}
  {
    SortedCons(s[0], rest, key);
    assert s == [s[0]] + s[1..];
  }

  /** A key not above the first key of a sorted list can be put in front of it. */
  lemma SortedCons<T>(h: T, t: seq<T>, key: T -> int)
    requires SortedBy(t, key)
    requires |t| > 0 ==> key(h) <= key(t[0])
    ensures SortedBy([h] + t, key)
  {
    var s := [h] + t;
    forall i, j | 0 <= i < j < |s| ensures key(s[i]) <= key(s[j]) {
      if i == 0 && j > 1 {
        assert key(t[0]) <= key(t[j - 1]);
      }
    }
  }

  /** The stable sort of `s`, built by inserting its elements one at a time. */
  function SortByKey<T(==,!new)>(s: seq<T>, key: T -> int): (r: seq<T>)
    ensures SortedBy(r, key)
    ensures multiset(r) == multiset(s)
    decreases |s|
  {
    if |s| == 0 then []
    else
      assert s == s[..|s| - 1] + [s[|s| - 1]];
      InsertByKey(SortByKey(s[..|s| - 1], key), s[|s| - 1], key)
  }

  /** Sorting a list that is already sorted changes nothing. */
  lemma {:induction false} SortByKeyOfSorted<T(!new)>(s: seq<T>, key: T -> int)
    requires SortedBy(s, key)
    ensures SortByKey(s, key) == s
    decreases |s|
  {
    if |s| > 0 {
      var init, last := s[..|s| - 1], s[|s| - 1];
      assert init + [last] == s;
      SortedInit(init, last, key);
      SortByKeyOfSorted(init, key);
      InsertAtEnd(init, last, key);
    }
  }

  /** Dropping the last element of a sorted list leaves it sorted, below that element. */
  lemma SortedInit<T>(init: seq<T>, last: T, key: T -> int)
    requires SortedBy(init + [last], key)
    ensures SortedBy(init, key)
    ensures forall i | 0 <= i < |init| :: key(init[i]) <= key(last)
  {
    var s := init + [last];
    forall i, j | 0 <= i < j < |init| ensures key(init[i]) <= key(init[j]) {
      assert init[i] == s[i] && init[j] == s[j];
    }
    forall i | 0 <= i < |init| ensures key(init[i]) <= key(last) {
      assert init[i] == s[i] && last == s[|init|];
    }
  }

  /** An element whose key is not below any key of a sorted list is inserted at its end. */
  lemma {:induction false} InsertAtEnd<T(!new)>(s: seq<T>, x: T, key: T -> int)
    requires SortedBy(s, key)
    requires forall i | 0 <= i < |s| :: key(s[i]) <= key(x)
    ensures InsertByKey(s, x, key) == s + [x]
    decreases |s|
  {
    if |s| > 0 {
      InsertAtEnd(s[1..], x, key);
      assert [s[0]] + (s[1..] + [x]) == s + [x];
    }
  }

  /** Appending one element to a sorted list and sorting inserts that element. */
  lemma SortAfterAppend<T(!new)>(s: seq<T>, x: T, key: T -> int)
    requires SortedBy(s, key)
    ensures SortByKey(s + [x], key) == InsertByKey(s, x, key)
  {
    assert (s + [x])[..|s + [x]| - 1] == s;
    SortByKeyOfSorted(s, key);
  }
}

=== FILE: staff.dfy ===
/** The floor-staff console (`src/pages/Staff.tsx`): the pending and urgent call
    lists, the call buttons and what they write through the realtime service, the
    call elapsed-time text and its warning, and the occupancy figure. `now`
    stands for `Date.now()`. */
module StaffConsole {
  import opened Wrappers
  import Seqs
  import Elapsed
  import Realtime
  import MockTables

  type Call = Realtime.Call

  function IsPending(): Call -> bool { (c: Call) => c.status == Realtime.CallPending }
  function IsUrgent(): Call -> bool { (c: Call) => c.priority == Realtime.Urgent }
  function IsUrgentPending(): Call -> bool {
    (c: Call) => c.priority == Realtime.Urgent && c.status == Realtime.CallPending
  }

  /** `pendingCalls`. */
  function PendingCalls(calls: seq<Call>): (r: seq<Call>)
    ensures forall c :: c in r <==> c in calls && c.status == Realtime.CallPending
  {
    Seqs.Filter(calls, IsPending())
  }

  /** `urgentCalls`. */
  function UrgentCalls(calls: seq<Call>): (r: seq<Call>)
    ensures forall c :: c in r <==> c in calls && c.priority == Realtime.Urgent && c.status == Realtime.CallPending
  {
    Seqs.Filter(calls, IsUrgentPending())
  }

  /** The urgent list is the pending list narrowed to urgent priority, in the same order,
      so it is never longer than the pending list. */
  lemma UrgentCallsArePending(calls: seq<Call>)
    ensures UrgentCalls(calls) == Seqs.Filter(PendingCalls(calls), IsUrgent())
    ensures |UrgentCalls(calls)| <= |PendingCalls(calls)|
  {
    Seqs.FilterFilterAs(calls, IsPending(), IsUrgent(), IsUrgentPending());
  }

  // ---------------------------------------------------------------------
  // Call actions

  datatype CallAction = Attend | Resolve

  /** The status an action writes: attend → attending, resolve → resolved. */
  function ActionStatus(a: CallAction): (s: Realtime.CallStatus)
    ensures s != Realtime.CallPending
    ensures a == Attend <==> s == Realtime.Attending
  {
    match a
    case Attend => Realtime.Attending
    case Resolve => Realtime.Resolved
  }

  /** `handleCallAction(callId, action)`: an unknown id changes nothing and notifies nobody;
      a known id has only the first matching call's status changed. */
  function HandleCallAction(s: Realtime.Service, callId: string, action: CallAction): (r: Realtime.Step<()>)
    ensures (forall c | c in Realtime.GetCalls(s.store) :: c.id != callId) ==> r == Realtime.Step(s, (), [])
    ensures (exists c | c in Realtime.GetCalls(s.store) :: c.id == callId) ==>
      var before := Realtime.GetCalls(s.store);
      var after := Realtime.GetCalls(r.service.store);
      |after| == |before| && r.service.store.orders == s.store.orders &&
      exists i | 0 <= i < |before| ::
        before[i].id == callId && after[i] == before[i].(status := ActionStatus(action)) &&
        forall j | 0 <= j < |before| && j != i :: after[j] == before[j]
  {
    var status := ActionStatus(action);
    if exists c | c in Realtime.GetCalls(s.store) :: c.id == callId then
      Realtime.UpdateCallStatusKnown(s, callId, status);
      Realtime.UpdateCallStatus(s, callId, status)
    else
      Realtime.UpdateCallStatusUnknown(s, callId, status);
      Realtime.UpdateCallStatus(s, callId, status)
  }

  /** The button a call card shows: attend for pending, resolve for attending, none once resolved. */
  function OfferedAction(status: Realtime.CallStatus): (a: Option<CallAction>)
    ensures a.None? <==> status == Realtime.Resolved
    ensures a.Some? ==> Rank(ActionStatus(a.value)) == Rank(status) + 1
  {
    match status
    case CallPending => Some(Attend)
    case Attending => Some(Resolve)
    case Resolved => None
  }

  function Rank(s: Realtime.CallStatus): nat {
    match s
    case CallPending => 0
    case Attending => 1
    case Resolved => 2
  }

  /** Pressing the offered buttons takes a pending call to resolved in exactly two presses. */
  lemma OfferedActionsResolve()
    ensures var a1 := OfferedAction(Realtime.CallPending);
      a1 == Some(Attend) &&
      OfferedAction(ActionStatus(a1.value)) == Some(Resolve) &&
      OfferedAction(ActionStatus(Resolve)).None?
  {
  }

  // ---------------------------------------------------------------------
  // Call card text

  /** `getCallTypeIcon(type)` on the raw tag. */
  function CallTypeIcon(kind: string): (icon: string)
    ensures kind == "water" ==> icon == "💧"
    ensures kind == "bill" ==> icon == "💰"
    ensures icon == "📞" <==> kind != "water" && kind != "utensils" && kind != "bill" &&
                              kind != "assistance" && kind != "complaint"
  {
    match kind
    case "water" => "💧"
    case "utensils" => "🍴"
    case "bill" => "💰"
    case "assistance" => "🆘"
    case "complaint" => "😞"
    case _ => "📞"
  }

  /** `getCallTypeLabel(type)` on the raw tag. */
  function CallTypeLabel(kind: string): (text: string)
    ensures kind == "water" ==> text == "Água"
    ensures kind == "bill" ==> text == "Conta"
    ensures text == "Chamada" <==> kind != "water" && kind != "utensils" && kind != "bill" &&
                                    kind != "assistance" && kind != "complaint"
  {
    match kind
    case "water" => "Água"
    case "utensils" => "Utensílios"
    case "bill" => "Conta"
    case "assistance" => "Assistência"
    case "complaint" => "Reclamação"
    case _ => "Chamada"
  }

  /** `formatElapsedTime(createdAt)`: the padded form of the whole minutes elapsed. */
  function FormatElapsedTime(createdAt: int, now: int): (s: string)
    ensures Elapsed.ParseDuration(s, "min") == Some(Elapsed.ElapsedMinutes(createdAt, now))
  {
    var m := Elapsed.ElapsedMinutes(createdAt, now);
    Elapsed.PaddedRoundTrip(m);
    Elapsed.Padded(m)
  }

  /** The warning icon: the elapsed time, as a fraction of minutes, is above five. */
  predicate ShowsWarning(createdAt: int, now: int) {
    (now - createdAt) as real / 60000.0 > 5.0
  }

  /** The warning appears exactly when more than five minutes (300 000 ms) have passed,
      and it can appear while the text still shows `5min`. */
  lemma WarningThreshold(createdAt: int, now: int)
    ensures ShowsWarning(createdAt, now) <==> now - createdAt > 5 * Elapsed.MsPerMinute
    ensures now - createdAt == 5 * Elapsed.MsPerMinute + 1 ==>
      ShowsWarning(createdAt, now) && Elapsed.ElapsedMinutes(createdAt, now) == 5
  {
  }

  // ---------------------------------------------------------------------
  // Occupancy

  /** `Math.round(occupied / total * 100)`: `NaN` (here `None`) for an empty grid; otherwise the
      percentage rounded to the nearest integer, halves up, computed exactly as
      ⌊(200·occupied + total) / (2·total)⌋. */
  function Occupancy(occupied: nat, total: nat): (r: Option<int>)
    ensures r.None? <==> total == 0
    ensures r.Some? ==> 2 * total * r.value <= 200 * occupied + total < 2 * total * (r.value + 1)
    ensures r.Some? && occupied <= total ==> 0 <= r.value <= 100
  {
    if total == 0 then None
    else
      RoundedPercentBounds(occupied, total);
      Some((200 * occupied + total) / (2 * total))
  }

  lemma RoundedPercentBounds(occupied: nat, total: nat)
    requires total > 0
    ensures var n := (200 * occupied + total) / (2 * total);
      && 2 * total * n <= 200 * occupied + total < 2 * total * (n + 1)
      && (occupied <= total ==> 0 <= n <= 100)
  {
    var a, d := 200 * occupied + total, 2 * total;
    var n := a / d;
    DivBounds(a, d);
    if occupied <= total {
      assert a < d * 101;
      MulLess(d, n, 101);
    }
  }

  lemma DivBounds(a: nat, d: nat)
    requires d > 0
    ensures d * (a / d) <= a < d * (a / d + 1)
  {
  }

  lemma MulLess(d: int, n: int, m: int)
    requires d > 0 && d * n < d * m
    ensures n < m
  {
    assert d * (m - n) == d * m - d * n;
  }

  /** The figure the console shows: occupied tables of the grid as a rounded percentage. */
  function TableOccupancy(tables: seq<MockTables.Table>): (r: Option<int>)
    ensures r.None? <==> tables == []
    ensures r.Some? ==> 0 <= r.value <= 100
  {
    Occupancy(|MockTables.TablesByStatus(tables, MockTables.Occupied)|, |tables|)
  }
}

=== FILE: table_menu.dfy ===
/** The table-side menu page reached through a QR token (`src/pages/ClientMenu.tsx`):
    the table number read from the token, the list of the table's open calls, the
    append-only cart and the order it submits to the realtime service. `now` stands
    for `Date.now()`; the toast is returned. */
module TableMenu {
  import opened Wrappers
  import opened Text
  import Seqs
  import Realtime
  import MockMenu

  type MenuItem = MockMenu.MenuItem

  // ---------------------------------------------------------------------
  // The table number in the token

  /** `tableNumber`: when the token contains `mesa-`, `parseInt` of the second
      dash-separated piece, with `NaN` and `0` (both falsy) falling back to 1;
      otherwise 1. A missing token is `None`. */
  function TableNumber(token: Option<string>): (n: int)
    ensures n >= 1
    ensures token.None? || !Contains(token.value, "mesa-") ==> n == 1
  {
    if token.Some? && Contains(token.value, "mesa-") then
      var parts := SplitOn(token.value, '-');
      var piece := if |parts| >= 2 then parts[1] else "";
      var parsed := ParseIntJs(piece);
      ParseIntJsNoMinus(piece);
      if parsed.Some? && parsed.value != 0 then parsed.value else 1
    else 1
  }

  /** A token `mesa-<n>-<rest>` with `n >= 1` and no dash in `rest` reads back as `n`. */
  lemma TableNumberOfToken(n: nat, rest: string)
    requires n >= 1
    requires forall i | 0 <= i < |rest| :: rest[i] != '-'
    ensures TableNumber(Some("mesa-" + NatToString(n) + "-" + rest)) == n
  {
    var d := NatToString(n);
    var token := "mesa-" + d + "-" + rest;
    assert forall i | 0 <= i < |d| :: d[i] != '-' by {
      assert AllDigits(d);
    }
    assert token == "mesa-" + (d + "-" + rest);
    ContainsPrefix(token, "mesa-");
    assert token == "mesa" + ['-'] + (d + ['-'] + rest);
    SplitOnFirstPiece("mesa", '-', d + ['-'] + rest);
    SplitOnFirstPiece(d, '-', rest);
    ParseIntJsOfNatToString(n);
  }

  // ---------------------------------------------------------------------
  // Active calls

  /** `activeCalls`: this table's pending calls, in the order the service lists them. */
  function ActiveCalls(calls: seq<Realtime.Call>, table: int): (r: seq<Realtime.Call>)
    ensures forall c :: c in r <==> c in calls && c.tableNumber == table && c.status == Realtime.CallPending
  {
    Seqs.Filter(calls, Realtime.PendingFrom(table))
  }

  /** The active calls keep the service's order. */
  lemma ActiveCallsKeepOrder(a: seq<Realtime.Call>, b: seq<Realtime.Call>, table: int)
    ensures ActiveCalls(a + b, table) == ActiveCalls(a, table) + ActiveCalls(b, table)
  {
    Seqs.FilterAppend(a, b, Realtime.PendingFrom(table));
  }

  // ---------------------------------------------------------------------
  // The cart: a list of menu items, duplicates allowed

  function Price(m: MenuItem): real { m.price }

  /** `cartTotal`: the sum of the prices of the entries. */
  function CartTotal(cart: seq<MenuItem>): real {
    Seqs.SumReal(cart, Price)
  }

  /** `handleAddToCart(item)`: the item is appended, even when already present. */
  function AddToCart(cart: seq<MenuItem>, item: MenuItem): (r: seq<MenuItem>)
    ensures |r| == |cart| + 1 && r[..|cart|] == cart && r[|cart|] == item
    ensures CartTotal(r) == CartTotal(cart) + item.price
  {
    Seqs.SumRealAppend(cart, [item], Price);
    cart + [item]
  }

  /** `cart.filter((_, i) => i !== index)`. */
  function DropIndex(cart: seq<MenuItem>, index: int): (r: seq<MenuItem>)
    decreases |cart|
  {
    if |cart| == 0 then []
    else (if index == 0 then [] else [cart[0]]) + DropIndex(cart[1..], index - 1)
  }

  /** Dropping a position removes exactly that entry; any other index keeps the cart. */
  lemma {:induction false} DropIndexRemovesOne(cart: seq<MenuItem>, index: int)
    ensures 0 <= index < |cart| ==> DropIndex(cart, index) == cart[..index] + cart[index + 1..]
    ensures !(0 <= index < |cart|) ==> DropIndex(cart, index) == cart
    decreases |cart|
  {
    if |cart| > 0 {
      DropIndexRemovesOne(cart[1..], index - 1);
      if index == 0 {
        assert cart[1..] == cart[..0] + cart[1..];
      } else if 0 < index < |cart| {
        assert cart[1..][..index - 1] == cart[1..index];
        assert cart[1..][index..] == cart[index + 1..];
        assert [cart[0]] + cart[1..index] == cart[..index];
      } else {
        assert [cart[0]] + cart[1..] == cart;
      }
    }
  }

  /** `handleRemoveFromCart(index)`: removes exactly the entry at `index`; any other
      index leaves the cart as it was. */
  function RemoveFromCart(cart: seq<MenuItem>, index: int): (r: seq<MenuItem>)
    ensures 0 <= index < |cart| ==> |r| == |cart| - 1 && r == cart[..index] + cart[index + 1..]
    ensures !(0 <= index < |cart|) ==> r == cart
  {
    DropIndexRemovesOne(cart, index);
    DropIndex(cart, index)
  }

  /** Removing a position takes exactly that entry's price off the total. */
  lemma RemoveFromCartTotal(cart: seq<MenuItem>, index: int)
    requires 0 <= index < |cart|
    ensures CartTotal(RemoveFromCart(cart, index)) == CartTotal(cart) - cart[index].price
  {
    assert cart == cart[..index] + [cart[index]] + cart[index + 1..];
    Seqs.SumRealAppend(cart[..index] + [cart[index]], cart[index + 1..], Price);
    Seqs.SumRealAppend(cart[..index], [cart[index]], Price);
    Seqs.SumRealAppend(cart[..index], cart[index + 1..], Price);
  }

  /** Adding an item and removing the last position restores the cart. */
  lemma AddThenRemoveLast(cart: seq<MenuItem>, item: MenuItem)
    ensures RemoveFromCart(AddToCart(cart, item), |cart|) == cart
  {
  }

  // ---------------------------------------------------------------------
  // Submitting the order

  /** The id of the `index`-th line of an order sent at `now`. */
  function LineId(now: int, index: nat): string {
    "item-" + IntToString(now) + "-" + NatToString(index)
  }

  /** Lines sent in one submission have distinct ids. */
  lemma LineIdsDistinct(now: int, i: nat, j: nat)
    ensures LineId(now, i) == LineId(now, j) ==> i == j
  {
    var p := "item-" + IntToString(now) + "-";
    assert LineId(now, i) == p + NatToString(i);
    assert LineId(now, j) == p + NatToString(j);
    if LineId(now, i) == LineId(now, j) {
      assert (p + NatToString(i))[|p|..] == NatToString(i);
      assert (p + NatToString(j))[|p|..] == NatToString(j);
      NatToStringInjective(i, j);
    }
  }

  /** The order lines for a cart: one per entry, quantity 1, unit and line price the entry's price. */
  function OrderLines(cart: seq<MenuItem>, now: int): (lines: seq<Realtime.OrderLine>)
    ensures |lines| == |cart|
    ensures forall i | 0 <= i < |cart| ::
      && lines[i].menuItemId == cart[i].id && lines[i].name == cart[i].name
      && lines[i].quantity == 1 && lines[i].unitPrice == cart[i].price && lines[i].totalPrice == cart[i].price
      && lines[i].allergens == cart[i].allergens
    ensures forall i, j | 0 <= i < j < |lines| :: lines[i].id != lines[j].id
  {
    var lines := seq(|cart|, i requires 0 <= i < |cart| =>
      Realtime.OrderLine(LineId(now, i), cart[i].id, cart[i].name, 1, cart[i].price, cart[i].price, cart[i].allergens));
    forall i, j | 0 <= i < j < |lines| ensures lines[i].id != lines[j].id {
      LineIdsDistinct(now, i, j);
    }
    lines
  }

  /** What a submission leaves behind: the service step, the emptied cart and the toast. */
  datatype Submitted = Submitted(step: Realtime.Step<Realtime.Order>, cart: seq<MenuItem>, toast: (string, string))

  /** `handleSubmitOrder()` at time `now`; `suffix` is the random part of the new order id. */
  function SubmitOrder(s: Realtime.Service, cart: seq<MenuItem>, table: int, now: int, suffix: string): (r: Option<Submitted>)
    ensures r.None? <==> cart == []
    ensures r.Some? ==>
      var o := r.value.step.value;
      && o.tableNumber == table && o.status == Realtime.Pending && o.station == Realtime.Kitchen
      && o.items == OrderLines(cart, now)
      && o.total * 10.0 == CartTotal(cart) * 11.0
      && o.createdAt == now
      && r.value.step.service.store.orders == Realtime.Json(Realtime.GetOrders(s.store) + [o])
      && r.value.cart == []
    ensures r.Some? ==> r.value.toast.1 == "Seu pedido da Mesa " + IntToString(table) + " foi enviado para a cozinha."
  {
    if |cart| == 0 then None
    else
      var subtotal := CartTotal(cart);
      var serviceCharge := subtotal * 0.1;
      var draft := Realtime.OrderDraft(table, OrderLines(cart, now), Realtime.Pending, Realtime.Kitchen,
                                       subtotal + serviceCharge);
      Some(Submitted(Realtime.AddOrder(s, draft, now, suffix), [],
                     ("Pedido enviado!", "Seu pedido da Mesa " + IntToString(table) + " foi enviado para a cozinha.")))
  }
}

=== FILE: table_tile.dfy ===
/** One table of the floor grid (`src/design/components/molecules/TableTile.tsx`):
    the badge for its status (switching on the tag, so the `default` branch is
    kept), the click rule, the running-order duration text and the QR marker.
    `now` stands for `new Date()`. */
module TableTileView {
  import opened Wrappers
  import Elapsed
  import MockTables

  /** What `getStatusConfig` gives for a status: badge colour, icon and caption. */
  datatype StatusConfig = StatusConfig(color: string, icon: string, caption: string)

  /** `getStatusConfig(status)` on the raw tag. */
  function GetStatusConfig(status: string): (c: StatusConfig)
    ensures status == "available" ==> c.caption == "Livre" && c.color == "success"
    ensures status == "occupied" ==> c.caption == "Ocupada" && c.color == "primary"
    ensures status == "reserved" ==> c.caption == "Reservada" && c.color == "warning"
    ensures status == "needs_service" ==> c.caption == "Chamada" && c.color == "destructive"
    ensures status == "needs_cleaning" ==> c.caption == "Limpeza" && c.color == "secondary"
    ensures status == "out_of_order" ==> c.caption == "Fora de Uso" && c.color == "destructive"
    ensures c.caption == "Indefinido" <==>
      status !in ["available", "occupied", "reserved", "needs_service", "needs_cleaning", "out_of_order"]
    ensures c.caption == "Indefinido" ==> c == StatusConfig("default", "?", "Indefinido")
  {
    match status
    case "available" => StatusConfig("success", "✓", "Livre")
    case "occupied" => StatusConfig("primary", "👥", "Ocupada")
    case "reserved" => StatusConfig("warning", "📅", "Reservada")
    case "needs_service" => StatusConfig("destructive", "🔔", "Chamada")
    case "needs_cleaning" => StatusConfig("secondary", "🧹", "Limpeza")
    case "out_of_order" => StatusConfig("destructive", "⚠️", "Fora de Uso")
    case _ => StatusConfig("default", "?", "Indefinido")
  }

  /** Every table status has its own caption, so the caption identifies the status; none is `Indefinido`. */
  lemma LabelsIdentify(s1: MockTables.TableStatus, s2: MockTables.TableStatus)
    ensures GetStatusConfig(MockTables.TableStatusName(s1)).caption != "Indefinido"
    ensures (GetStatusConfig(MockTables.TableStatusName(s1)).caption ==
             GetStatusConfig(MockTables.TableStatusName(s2)).caption) ==> s1 == s2
  {
  }

  /** `formatDuration(startTime)`: the padded form of the whole minutes since `startTime`. */
  function FormatDuration(startTime: int, now: int): (s: string)
    ensures Elapsed.ParseDuration(s, "min") == Some(Elapsed.ElapsedMinutes(startTime, now))
  {
    var m := Elapsed.ElapsedMinutes(startTime, now);
    Elapsed.PaddedRoundTrip(m);
    Elapsed.Padded(m)
  }

  /** What the tile shows and does. */
  datatype Tile = Tile(
    config: StatusConfig, interactive: bool, duration: Option<string>, itemCount: Option<int>,
    maintenance: bool, needsService: bool, showsQr: bool)

  /** The tile of table `t` at time `now`. */
  function TileOf(t: MockTables.Table, now: int): (v: Tile)
    ensures v.config == GetStatusConfig(MockTables.TableStatusName(t.status))
    ensures v.interactive <==> t.status != MockTables.OutOfOrder
    ensures v.maintenance <==> !v.interactive
    ensures v.needsService <==> t.status == MockTables.NeedsService
    ensures v.showsQr <==> t.status == MockTables.Available
    ensures v.duration.Some? <==> t.currentOrder.Some?
    ensures t.currentOrder.Some? ==>
      Elapsed.ParseDuration(v.duration.value, "min") == Some(Elapsed.ElapsedMinutes(t.currentOrder.value.startTime, now)) &&
      v.itemCount == Some(t.currentOrder.value.itemCount)
  {
    Tile(GetStatusConfig(MockTables.TableStatusName(t.status)),
         t.status != MockTables.OutOfOrder,
         if t.currentOrder.Some? then Some(FormatDuration(t.currentOrder.value.startTime, now)) else None,
         if t.currentOrder.Some? then Some(t.currentOrder.value.itemCount) else None,
         t.status == MockTables.OutOfOrder,
         t.status == MockTables.NeedsService,
         t.status == MockTables.Available)
  }

  /** A click on the tile: `isInteractive && onTableSelect(table)` selects the table only when interactive. */
  function Click(t: MockTables.Table): (selected: Option<MockTables.Table>)
    ensures selected.Some? ==> selected.value == t
    ensures selected.None? <==> t.status == MockTables.OutOfOrder
  {
    if t.status != MockTables.OutOfOrder then Some(t) else None
  }

  /** On the seeded grid a tile shows a running order exactly when its table is occupied,
      and a QR marker never shows next to a running order. */
  lemma SeedTiles(now: int, later: int)
    ensures var ts := MockTables.SeedTables(now);
      forall i | 0 <= i < |ts| ::
        (TileOf(ts[i], later).duration.Some? <==> ts[i].status == MockTables.Occupied) &&
        !(TileOf(ts[i], later).showsQr && TileOf(ts[i], later).duration.Some?)
  {
    MockTables.SeedCurrentOrders(now);
  }
}

=== FILE: text.dfy ===
/** String helpers with JavaScript's meaning: decimal rendering of numbers
    (template literals, `String(n)`), `padStart`, `trim`, `toLowerCase`,
    `includes`, `startsWith`, `split` on one character, and `parseInt` without
    a radix. Strings are sequences of Unicode scalar values. */
module Text {
  import opened Wrappers

  // ---------------------------------------------------------------------
  // Decimal digits

  predicate IsDigit(c: char) {
    '0' <= c <= '9'
  }

  predicate AllDigits(s: string) {
    forall i | 0 <= i < |s| :: IsDigit(s[i])
  }

  function DigitValue(c: char): nat
    requires IsDigit(c)
  {
    c as int - '0' as int
  }

  function DigitChar(d: nat): (c: char)
    requires d < 10
    ensures IsDigit(c) && DigitValue(c) == d
  {
    ('0' as int + d) as char
  }

  /** The decimal text of a non-negative integer, without leading zeros. */
  function NatToString(n: nat): (s: string)
    ensures 1 <= |s| && AllDigits(s)
    ensures s[0] == '0' <==> n == 0
    ensures n < 10 <==> |s| == 1
    decreases n
  {
    if n < 10 then [DigitChar(n)] else NatToString(n / 10) + [DigitChar(n % 10)]
  }

  /** The decimal text of an integer: a minus sign, then the digits. */
  function IntToString(i: int): (s: string)
    ensures i >= 0 ==> s == NatToString(i)
    ensures i < 0 ==> s == "-" + NatToString(-i)
  {
    if i < 0 then "-" + NatToString(-i) else NatToString(i)
  }

  /** The value of a string of decimal digits (leading zeros allowed). */
  function DigitsValue(s: string): nat
    requires AllDigits(s)
  {
    DigitsValueUpTo(s, |s|)
  }

  /** The value of the first `n` digits of `s`. */
  function DigitsValueUpTo(s: string, n: nat): nat
    requires n <= |s| && AllDigits(s)
  {
    if n == 0 then 0 else 10 * DigitsValueUpTo(s, n - 1) + DigitValue(s[n - 1])
  }

  /** The value of the first `n` digits depends on those digits only. */
  lemma {:induction false} DigitsValueUpToPrefix(s: string, t: string, n: nat)
    requires AllDigits(s) && AllDigits(t) && n <= |s| && n <= |t| && s[..n] == t[..n]
    ensures DigitsValueUpTo(s, n) == DigitsValueUpTo(t, n)
    decreases n
  {
    if n > 0 {
      assert s[n - 1] == s[..n][n - 1] && t[n - 1] == t[..n][n - 1];
      assert s[..n - 1] == s[..n][..n - 1] && t[..n - 1] == t[..n][..n - 1];
      DigitsValueUpToPrefix(s, t, n - 1);
    }
  }

  /** The last digit counts once, the digits before it ten times their value. */
  lemma DigitsValueStep(s: string)
    requires |s| > 0 && AllDigits(s)
    ensures DigitsValue(s) == 10 * DigitsValue(s[..|s| - 1]) + DigitValue(s[|s| - 1])
  {
    var init := s[..|s| - 1];
    assert init[..|init|] == init;
    DigitsValueUpToPrefix(s, init, |init|);
  }

  /** Reading back the decimal text of `n` gives `n`. */
  lemma {:induction false} DigitsValueOfNatToString(n: nat)
    ensures DigitsValue(NatToString(n)) == n
    decreases n
  {
    if n >= 10 {
      var s := NatToString(n);
      assert s[..|s| - 1] == NatToString(n / 10);
      DigitsValueOfNatToString(n / 10);
      DigitsValueStep(s);
    } else {
      DigitsValueStep(NatToString(n));
    }
  }

  /** Distinct numbers have distinct decimal texts. */
  lemma NatToStringInjective(a: nat, b: nat)
    ensures NatToString(a) == NatToString(b) ==> a == b
  {
    DigitsValueOfNatToString(a);
    DigitsValueOfNatToString(b);
  }

  /** A zero in front of a one-digit string does not change its value. */
  lemma DigitsValueLeadingZero(s: string)
    requires |s| == 1 && AllDigits(s)
    ensures AllDigits("0" + s) && DigitsValue("0" + s) == DigitsValue(s)
  {
    var t := "0" + s;
    assert t[..1] == "0";
    DigitsValueStep(t);
    DigitsValueStep(t[..1]);
    DigitsValueStep(s);
  }

  /** Exact decimal integer syntax: an optional minus sign and at least one digit. */
  function ParseDecimal(s: string): Option<int> {
    if |s| > 0 && s[0] == '-' then
      (if |s| > 1 && AllDigits(s[1..]) then Some(0 - DigitsValue(s[1..]) as int) else None)
    else if |s| > 0 && AllDigits(s) then Some(DigitsValue(s) as int)
    else None
  }

  lemma ParseDecimalOfIntToString(i: int)
    ensures ParseDecimal(IntToString(i)) == Some(i)
  {
    var d := NatToString(if i < 0 then -i else i);
    ParseDecimalOfDigits(d);
    DigitsValueOfNatToString(if i < 0 then -i else i);
  }

  /** A run of digits, with or without a minus sign in front, is read as its value. */
  lemma ParseDecimalOfDigits(d: string)
    requires |d| > 0 && AllDigits(d)
    ensures ParseDecimal(d) == Some(DigitsValue(d) as int)
    ensures ParseDecimal("-" + d) == Some(0 - DigitsValue(d) as int)
  {
    var n := "-" + d;
    assert n[0] == '-' && n[1..] == d;
    assert IsDigit(d[0]);
  }

  /** The longest prefix of `s` made of decimal digits. */
  function LeadingDigits(s: string): (d: string)
    ensures d <= s && AllDigits(d)
    ensures |d| < |s| ==> !IsDigit(s[|d|])
    decreases |s|
  {
    if |s| > 0 && IsDigit(s[0]) then [s[0]] + LeadingDigits(s[1..]) else ""
  }

  /** A run of digits followed by a non-digit is read up to that non-digit. */
  lemma {:induction false} LeadingDigitsStopsAt(d: string, rest: string)
    requires AllDigits(d)
    requires |rest| == 0 || !IsDigit(rest[0])
    ensures LeadingDigits(d + rest) == d
    decreases |d|
  {
    if |d| > 0 {
      assert (d + rest)[1..] == d[1..] + rest;
      LeadingDigitsStopsAt(d[1..], rest);
      assert [d[0]] + d[1..] == d;
    } else {
      assert d + rest == rest;
    }
  }

  // ---------------------------------------------------------------------
  // padStart

  /** `s.padStart(width, fill)` for a one-character fill string. */
  function PadStart(s: string, width: nat, fill: char): (r: string)
    ensures |r| == if |s| >= width then |s| else width
    ensures r[|r| - |s|..] == s
    ensures forall i | 0 <= i < |r| - |s| :: r[i] == fill
  {
    if |s| >= width then s else seq(width - |s|, _ => fill) + s
  }

  /** Two-digit padding of a number below 100 keeps its value and gives two digits. */
  lemma PadTwoDigits(n: nat)
    requires n < 100
    ensures var p := PadStart(NatToString(n), 2, '0');
      |p| == 2 && AllDigits(p) && DigitsValue(p) == n
  {
    var s := NatToString(n);
    DigitsValueOfNatToString(n);
    if n < 10 {
      assert PadStart(s, 2, '0') == "0" + s;
      DigitsValueLeadingZero(s);
    } else {
      assert n / 10 < 10;
      assert |s| == 2;
    }
  }

  // ---------------------------------------------------------------------
  // Whitespace and trimming (ECMAScript WhiteSpace and LineTerminator)

  predicate IsJsWhitespace(c: char) {
    var k := c as int;
    k == 0x09 || k == 0x0A || k == 0x0B || k == 0x0C || k == 0x0D || k == 0x20 ||
    k == 0xA0 || k == 0x1680 || (0x2000 <= k <= 0x200A) || k == 0x2028 ||
    k == 0x2029 || k == 0x202F || k == 0x205F || k == 0x3000 || k == 0xFEFF
  }

  predicate AllWhitespace(s: string) {
    forall i | 0 <= i < |s| :: IsJsWhitespace(s[i])
  }

  /** `s.trimStart()`: the suffix left after dropping leading whitespace. */
  function TrimStart(s: string): (r: string)
    ensures |r| <= |s| && r == s[|s| - |r|..]
    ensures AllWhitespace(s[..|s| - |r|])
    ensures |r| > 0 ==> !IsJsWhitespace(r[0])
    decreases |s|
  {
    if |s| > 0 && IsJsWhitespace(s[0]) then TrimStart(s[1..]) else s
  }

  /** `s.trimEnd()`: the prefix left after dropping trailing whitespace. */
  function TrimEnd(s: string): (r: string)
    ensures r <= s
    ensures AllWhitespace(s[|r|..])
    ensures |r| > 0 ==> !IsJsWhitespace(r[|r| - 1])
    decreases |s|
  {
    if |s| > 0 && IsJsWhitespace(s[|s| - 1]) then TrimEnd(s[..|s| - 1]) else s
  }

  /** `s.trim()`: the middle of `s` left between a leading and a trailing run of whitespace. */
  function Trim(s: string): (r: string)
    ensures exists i, j | 0 <= i <= j <= |s| ::
      r == s[i..j] && AllWhitespace(s[..i]) && AllWhitespace(s[j..])
    ensures |r| > 0 ==> !IsJsWhitespace(r[0]) && !IsJsWhitespace(r[|r| - 1])
    ensures r == "" <==> AllWhitespace(s)
  {
    TrimEmptyIff(s);
    TrimMiddle(s, TrimStart(s), TrimEnd(TrimStart(s)));
    TrimEnd(TrimStart(s))
  }

  /** What `trimStart` and then `trimEnd` leave is a slice of `s` with whitespace on both
      sides: `t` is the suffix after the leading run, `r` the prefix of `t` before the trailing one. */
  lemma TrimMiddle(s: string, t: string, r: string)
    requires |t| <= |s| && t == s[|s| - |t|..] && AllWhitespace(s[..|s| - |t|])
    requires r <= t && AllWhitespace(t[|r|..])
    ensures var i := |s| - |t|; var j := i + |r|;
      && 0 <= i <= j <= |s| && r == s[i..j]
      && AllWhitespace(s[..i]) && AllWhitespace(s[j..])
  {
    SliceOfSuffix(s, t, r);
  }

  /** A prefix `r` of a suffix `t` of `s` is a slice of `s`, and what follows `r` in `t` is the rest of `s`. */
  lemma SliceOfSuffix(s: string, t: string, r: string)
    requires |t| <= |s| && t == s[|s| - |t|..] && r <= t
    ensures var i := |s| - |t|; r == s[i..i + |r|] && s[i + |r|..] == t[|r|..]
  {
  }

  lemma TrimEmptyIff(s: string)
    ensures TrimEnd(TrimStart(s)) == "" <==> AllWhitespace(s)
  {
    var t := TrimStart(s);
    if |t| > 0 {
      TrimStartKeepsNonWhitespace(s);
      TrimEndOfNonWhitespaceStart(t);
    } else {
      assert t == "" && TrimEnd(t) == "";
      assert AllWhitespace(s) by {
        assert s[..|s| - |t|] == s;
      }
    }
  }

  /** Text that survives `trimStart` starts with a character of `s` that is not whitespace. */
  lemma TrimStartKeepsNonWhitespace(s: string)
    requires |TrimStart(s)| > 0
    ensures !AllWhitespace(s)
  {
    var t := TrimStart(s);
    assert t[0] == s[|s| - |t|];
  }

  /** Text starting with a non-whitespace character does not `trimEnd` to nothing. */
  lemma TrimEndOfNonWhitespaceStart(t: string)
    requires |t| > 0 && !IsJsWhitespace(t[0])
    ensures TrimEnd(t) != ""
  {
    var r := TrimEnd(t);
    assert !AllWhitespace(t[0..]) by {
      assert t[0..][0] == t[0];
    }
  }

  /** Trimming text that has no surrounding whitespace leaves it unchanged. */
  lemma TrimOfTrimmed(s: string)
    requires |s| > 0 ==> !IsJsWhitespace(s[0]) && !IsJsWhitespace(s[|s| - 1])
    ensures Trim(s) == s
  {
  }

  // ---------------------------------------------------------------------
  // Case mapping

  /** Capitals this model lowers: ASCII, Latin-1, basic Greek and basic Cyrillic.
      JavaScript's `toLowerCase` covers all of Unicode; the rest is left out. */
  predicate IsModelledCapital(c: char) {
    var k := c as int;
    (0x41 <= k <= 0x5A) || (0xC0 <= k <= 0xDE && k != 0xD7) ||
    (0x391 <= k <= 0x3A9 && k != 0x3A2) || (0x400 <= k <= 0x42F)
  }

  /** `toLowerCase` on one character, for the capitals above; every other character is kept. */
  function LowerChar(c: char): (l: char)
    ensures !IsModelledCapital(l)
    ensures !IsModelledCapital(c) ==> l == c
  {
    var k := c as int;
    if 0x400 <= k <= 0x40F then (k + 80) as char
    else if IsModelledCapital(c) then (k + 32) as char
    else c
  }

  function ToLower(s: string): (r: string)
    ensures |r| == |s|
    ensures forall i | 0 <= i < |s| :: r[i] == LowerChar(s[i])
  {
    seq(|s|, i requires 0 <= i < |s| => LowerChar(s[i]))
  }

  /** Lowering twice is lowering once: the lowered text holds no capital the model knows. */
  lemma ToLowerIdempotent(s: string)
    ensures ToLower(ToLower(s)) == ToLower(s)
    ensures forall i | 0 <= i < |s| :: !IsModelledCapital(ToLower(s)[i])
  {
    var t := ToLower(s);
    assert forall i | 0 <= i < |t| :: LowerChar(t[i]) == t[i];
  }

  /** Text without capitals is its own lower case, so a lower-case search text matches as typed. */
  lemma ToLowerOfLower(s: string)
    requires forall i | 0 <= i < |s| :: !IsModelledCapital(s[i])
    ensures ToLower(s) == s
  {
    assert forall i | 0 <= i < |s| :: LowerChar(s[i]) == s[i];
  }

  // ---------------------------------------------------------------------
  // Searching and splitting

  /** `s.includes(sub)`: `sub` occurs in `s` at some position. */
  predicate Contains(s: string, sub: string)
    decreases |s|
  {
    sub <= s || (|s| > 0 && Contains(s[1..], sub))
  }

  /** `s.startsWith(p)`. */
  predicate StartsWith(s: string, p: string) {
    p <= s
  }

  lemma ContainsPrefix(s: string, p: string)
    requires StartsWith(s, p)
    ensures Contains(s, p)
  {
  }

  /** Case-insensitive `includes`, as `a.toLowerCase().includes(b.toLowerCase())`. */
  predicate ContainsIgnoringCase(s: string, sub: string) {
    Contains(ToLower(s), ToLower(sub))
  }

  /** The empty search text is found in every string. */
  lemma ContainsEmpty(s: string)
    ensures Contains(s, "")
  {
  }

  /** `s.split(c)` for a one-character separator. */
  function SplitOn(s: string, c: char): (parts: seq<string>)
    ensures |parts| >= 1
    ensures forall i, j | 0 <= i < |parts| && 0 <= j < |parts[i]| :: parts[i][j] != c
    decreases |s|
  {
    if |s| == 0 then [""]
    else if s[0] == c then [""] + SplitOn(s[1..], c)
    else
      var rest := SplitOn(s[1..], c);
      [[s[0]] + rest[0]] + rest[1..]
  }

  /** `parts.join(c)`: the pieces with one separator between neighbours. */
  function Join(parts: seq<string>, c: char): string
    decreases |parts|
  {
    if |parts| == 0 then ""
    else if |parts| == 1 then parts[0]
    else parts[0] + [c] + Join(parts[1..], c)
  }

  /** Joining the pieces of `s.split(c)` with `c` gives back `s`: the split loses nothing. */
  lemma {:induction false} JoinSplitOn(s: string, c: char)
    ensures Join(SplitOn(s, c), c) == s
    decreases |s|
  {
    if |s| > 0 {
      var rest := SplitOn(s[1..], c);
      JoinSplitOn(s[1..], c);
      if s[0] == c {
        assert SplitOn(s, c) == [""] + rest;
        assert (([""] + rest)[1..]) == rest;
        assert Join(SplitOn(s, c), c) == "" + [c] + Join(rest, c);
        assert s == [s[0]] + s[1..];
      } else {
        var parts := [[s[0]] + rest[0]] + rest[1..];
        assert SplitOn(s, c) == parts;
        if |rest| == 1 {
          assert Join(parts, c) == [s[0]] + rest[0];
        } else {
          assert parts[1..] == rest[1..];
          assert Join(parts, c) == [s[0]] + rest[0] + [c] + Join(rest[1..], c);
          assert Join(rest, c) == rest[0] + [c] + Join(rest[1..], c);
        }
        assert s == [s[0]] + s[1..];
      }
    }
  }

  /** Text with no separator is one piece. */
  lemma {:induction false} SplitOnNoSeparator(d: string, c: char)
    requires forall i | 0 <= i < |d| :: d[i] != c
    ensures SplitOn(d, c) == [d]
    decreases |d|
  {
    if |d| > 0 {
      SplitOnNoSeparator(d[1..], c);
      assert [d[0]] + d[1..] == d;
    }
  }

  /** Splitting the join of pieces that hold no separator gives the pieces back. */
  lemma {:induction false} SplitOnJoin(parts: seq<string>, c: char)
    requires |parts| >= 1
    requires forall k, i | 0 <= k < |parts| && 0 <= i < |parts[k]| :: parts[k][i] != c
    ensures SplitOn(Join(parts, c), c) == parts
    decreases |parts|
  {
    if |parts| == 1 {
      SplitOnNoSeparator(parts[0], c);
    } else {
      SplitOnJoin(parts[1..], c);
      SplitOnFirstPiece(parts[0], c, Join(parts[1..], c));
      assert [parts[0]] + parts[1..] == parts;
    }
  }

  /** Splitting `d + [c] + rest`, where `d` has no separator, yields `d` and then the pieces of `rest`. */
  lemma {:induction false} SplitOnFirstPiece(d: string, c: char, rest: string)
    requires forall i | 0 <= i < |d| :: d[i] != c
    ensures SplitOn(d + [c] + rest, c) == [d] + SplitOn(rest, c)
    decreases |d|
  {
    var s := d + [c] + rest;
    if |d| == 0 {
      assert s[1..] == rest;
    } else {
      assert s[1..] == d[1..] + [c] + rest;
      SplitOnFirstPiece(d[1..], c, rest);
      assert [d[0]] + d[1..] == d;
    }
  }

  // ---------------------------------------------------------------------
  // parseInt without a radix

  predicate IsHexDigit(c: char) {
    IsDigit(c) || 'a' <= c <= 'f' || 'A' <= c <= 'F'
  }

  predicate AllHexDigits(s: string) {
    forall i | 0 <= i < |s| :: IsHexDigit(s[i])
  }

  function HexDigitValue(c: char): nat
    requires IsHexDigit(c)
  {
    if IsDigit(c) then DigitValue(c)
    else if 'a' <= c <= 'f' then c as int - 'a' as int + 10
    else c as int - 'A' as int + 10
  }

  function HexValue(s: string): nat
    requires AllHexDigits(s)
    decreases |s|
  {
    if |s| == 0 then 0 else 16 * HexValue(s[..|s| - 1]) + HexDigitValue(s[|s| - 1])
  }

  function LeadingHexDigits(s: string): (d: string)
    ensures d <= s && AllHexDigits(d)
    ensures |d| < |s| ==> !IsHexDigit(s[|d|])
    decreases |s|
  {
    if |s| > 0 && IsHexDigit(s[0]) then [s[0]] + LeadingHexDigits(s[1..]) else ""
  }

  /** The sign and the unsigned text after it, once leading whitespace is gone. */
  function SignAndRest(t: string): (bool, string) {
    if |t| > 0 && t[0] == '-' then (true, t[1..])
    else if |t| > 0 && t[0] == '+' then (false, t[1..])
    else (false, t)
  }

  /** The unsigned part of `parseInt`: a `0x`/`0X` prefix switches to base 16,
      and the longest run of digits that follows is converted. */
  function ParseUnsignedJs(u: string): Option<nat> {
    if |u| >= 2 && u[0] == '0' && (u[1] == 'x' || u[1] == 'X') then
      var h := LeadingHexDigits(u[2..]);
      if |h| == 0 then None else Some(HexValue(h))
    else
      var d := LeadingDigits(u);
      if |d| == 0 then None else Some(DigitsValue(d))
  }

  /** `parseInt(s)`: `None` stands for `NaN`. Leading whitespace is skipped, one sign
      is read, then the unsigned part is converted; the rest of the text is ignored. */
  function ParseIntJs(s: string): Option<int> {
    var sr := SignAndRest(TrimStart(s));
    match ParseUnsignedJs(sr.1)
    case None => None
    case Some(m) => Some(if sr.0 then 0 - m else m as int)
  }

  /** `parseInt` reads back the decimal text of every non-negative integer. */
  lemma ParseIntJsOfNatToString(n: nat)
    ensures ParseIntJs(NatToString(n)) == Some(n)
  {
    var s := NatToString(n);
    assert !IsJsWhitespace(s[0]);
    assert TrimStart(s) == s;
    assert SignAndRest(s) == (false, s);
    LeadingDigitsStopsAt(s, "");
    assert s + "" == s;
    DigitsValueOfNatToString(n);
    assert ParseUnsignedJs(s) == Some(n);
  }

  /** Text without a minus sign never parses to a negative number. */
  lemma ParseIntJsNoMinus(s: string)
    requires forall i | 0 <= i < |s| :: s[i] != '-'
    ensures ParseIntJs(s).Some? ==> ParseIntJs(s).value >= 0
  {
    var t := TrimStart(s);
    if |t| > 0 {
      assert t[0] == s[|s| - |t|];
    }
  }
}

=== FILE: wrappers.dfy ===
/** The two shapes of answer the model uses everywhere.

    `Option` stands for a JavaScript value that may be `undefined` or `null`;
    its failure members let a decoder stop at the first missing field with `:-`.
    `Result` stands for a call that either returns a value or throws: `error`
    holds the message of the `Error` the source throws. */
module Wrappers {

  datatype Option<+T> = None | Some(value: T) {

    predicate IsFailure() {
      None?
    }

    function PropagateFailure<U>(): Option<U>
      requires None?
    {
      None
    }

    function Extract(): T
      requires Some?
    {
      value
    }

    /** The value, or `default` when absent (JavaScript's `x ?? default`). */
    function GetOr(default: T): T {
      match this
      case Some(v) => v
      case None => default
    }
  }

  datatype Result<+R, +E> = Success(value: R) | Failure(error: E)
}
